=== FILE: README.md ===
# m8s in Dafny: selection, ordering, validation and the `up` command

m8s deploys a tree of units to a Kubernetes cluster:

- shell commands;
- manifests applied with `kubectl`;
- local and remote Helm charts;
- no-ops;
- groups, which nest a whole scope of their own.

Each unit names the keys it `depends_on` in its own scope. A run picks a selection from the command line, closes it under dependencies, orders it dependencies-first and dispatches each unit. Dispatching a group recurses into that group's scope.

This project models that engine as it is written in the repository's several revisions:

- **The resources revision** (`libm8s/src/resources.rs`, `libm8s/src/lib.rs`, `libm8scmd/src/command_up.rs`). This covers:
  - selector tokens split on their first `:`;
  - `get_filtered_resources`, with its explicit stack;
  - `reorder_resources_from_dependencies`, a fixed point of passes over an insertion-ordered map;
  - `run_resources`, with its recursion into groups and the argument vectors it gives `helm`, `kubectl` and `bash`;
  - the rewriting of file paths against the deployment file's directory;
  - the `up` command.
- **The units revisions** (`libm8s/src/units.rs`, `m8s/src/main.rs`, `src/units.rs`). Here ordering is interleaved with dispatch in a `while has_pending_units` loop that does not skip units already run.
- **The validators** of both file formats (`libm8s/src/file_format.rs`, `src/file_format.rs`):
  - the depth-first cycle search, with its explicit path stack;
  - the check for `depends_on` keys that name no unit.
- **`handle_helm_repositories`** (`src/helm_repositories.rs`).

## Data model

- An `IndexMap` is a sequence of key/value pairs, `IndexMap.OrderedMap`. `Insert` replaces an existing key's value in place and appends a new key.
- Units are `Format.Unit` with `Format.Entry` (the unit and its `depends_on`). The older file format is `LegacyFormat`.
- The dependency graph of a scope is `Graph.DependencyMap`, with these notions:
  - walks;
  - acyclicity (no walk of at least one edge returns to where it started);
  - reachability;
  - the closure of a selection.
- The outside world is an oracle, `Process.Env`:
  - the exit of each process started, given how many started before it;
  - the release list `helm list` prints.
- A run is described by three things:
  - the processes it started, in order (`Process.Run`);
  - the keys it reached (`Resources.Trace`, `UnitRunner.Step`);
  - how it ended (`Base.Outcome` over `Errors.Error`).
- Panics from `unwrap` on a missing key become the `UnknownUnit` error, or `None`.

Where the revisions differ from one another, each is modelled as written:

- **Dry run and `helm list`.** The resources revision answers "not installed" in a dry run without listing releases. The units revisions list releases even in a dry run (`Process.ReleaseExists`, flag `dryRunShortcut`).
- **Chart path.** In `libm8s/src/units.rs` the values files and the manifest path are joined onto `root`, but a local chart's path is not.
- **The dependencies flag without a selection.** The `up` command of `libm8scmd` refuses it only when resources are on. The one of `m8s` refuses it regardless (`Commands.DependenciesFlagDiffers`).

Some behaviours of the code worth knowing before reading the model:

- A group named bare (no `group:child` token) gets every one of its keys as selection. The dependency flag is forwarded to it unchanged (libm8s/src/resources.rs:57). It is not forced on.
- With dependencies off, the selection comes out in stack-pop order: the last argument first, a repeated key at its first pop. It does not come out in declaration order, because the reorder runs only when dependencies are on (libm8s/src/resources.rs:320-324).
- The validators the command runs are key format, invalid keys, cycles, files and helm repositories, in that order (libm8scmd/src/command_up.rs:45-55). There is no separate duplicate-key check.
- Units already run are dispatched again on later passes of the units revisions' loops (see Findings).

## Model

| member | source | states |
|---|---|---|
| IndexMap.Get | libm8s/src/resources.rs:305 | `get` finds a value exactly when the key is present, and that value is stored under the key |
| IndexMap.Insert | libm8s/src/resources.rs:303-306 | `insert` keeps an existing key's position or appends a new key; the key set grows by exactly the key; distinct keys stay distinct; other entries and lookups are unchanged; the key now maps to the value |
| IndexMap.InsertNew | libm8s/src/resources.rs:230 | inserting an absent key appends the pair |
| IndexMap.InsertSame | libm8s/src/resources.rs:230 | re-inserting the value a key already has leaves the map unchanged (re-insertion keeps the position) |
| Selector.SplitFirst | libm8s/src/resources.rs:157-162 | `splitn(2, ":")`: the head has no colon; without a colon it is the whole token; with one, token = head + ":" + rest |
| Selector.SplitFirstJoin | libm8s/src/resources.rs:180-186 | splitting `head:tail` with a colon-free head gives back exactly head and tail (the round trip of `SplitFirst`) |
| Selector.SplitFirstBare | libm8s/src/resources.rs:157-162 | a colon-free token is its own head, with no rest |
| Selector.Part0 | libm8s/src/resources.rs:152-173 | one output per token, in order, duplicates kept; each is the token or its colon-free text before the first colon |
| Selector.Part1 | libm8s/src/resources.rs:175-206 | never longer than the input; empty exactly when no token starts with `key:` |
| Selector.Part1Append | libm8s/src/resources.rs:175-188 | tokens are handled independently and in order: `part_1` of a concatenation is the concatenation |
| Selector.Part1Token | libm8s/src/resources.rs:175-206 | for a colon-free key, `key:rest` contributes exactly `rest`; other tokens and the bare `key` contribute nothing |
| Selector.ArgsForGroup | libm8s/src/resources.rs:92-150 | the tokens addressed inside the group when there are any (non-empty), otherwise every group key in declaration order |
| Selector.GroupNamespace | libm8s/src/resources.rs:68-90 | `key` at the root, otherwise `parent:key`: the prefix `parent:` followed by exactly `key` |
| Selector.NamespaceHead | libm8s/src/resources.rs:48-57 | the namespace of a nested scope, split as a token, names the outermost group; it has a rest exactly when the scope is nested more than one level |
| Graph.AcyclicIffNoCycleReachable | libm8s/src/file_format.rs:114-130 | a graph is acyclic exactly when no key reaches a cycle: the key-by-key form that the per-key search decides |
| Graph.ClosurePop | libm8s/src/resources.rs:312-317 | the closure of a stack is the closure of the rest, plus the popped key, plus the closure of its dependencies |
| Graph.LeafNoCycle | libm8s/src/resources.rs:312-317 | a key without dependencies reaches no cycle |
| Graph.ClosureSubMapAcyclic | libm8s/src/resources.rs:299-321 | a part of the scope whose keys lie in the closure of a stack from which no cycle is reachable is acyclic, so the reorder may run on the selection even when the scope holds a cycle elsewhere |
| Graph.PopWork | libm8s/src/resources.rs:301-318 | when no cycle is reachable from the stack, popping a key and pushing its dependencies keeps it so and lowers the remaining work by exactly one (why the stack loop ends) |
| Format.DependencyGraph | libm8s/src/file_format.rs:105-112 | `dependencies_by_unit_key` has the scope's keys in order, each with its `depends_on` or the empty list |
| Format.GraphNeighbors | libm8s/src/file_format.rs:95 | a key's neighbours are its entry's `depends_on`; an unknown key has none |
| Format.CheckDependencyCycles | libm8s/src/file_format.rs:105-131 | passes exactly when the scope's graph is acyclic; a failure names a key of the scope and a cycle path from it made of keys of the scope |
| Format.CheckInvalidUnitKeys | libm8s/src/file_format.rs:133-173 | fails exactly when some `depends_on` entry is not a key of the same scope; it then reports exactly those keys, as a non-empty set |
| Format.InvalidKeysOneLevel | libm8s/src/file_format.rs:139-148 | only the given scope is checked: on the shared unit type, a missing key inside a group passes (the units revision itself has no groups) |
| LegacyFormat.CheckDependencyCycles | src/file_format.rs:105-128 | the same iff and cycle-path report for the first file format |
| LegacyFormat.CheckInvalidUnitKeys | src/file_format.rs:130-170 | the same iff and exact deduplicated report for the first file format |
| Validate.AllDependencies | libm8s/src/file_format.rs:139-148 | the flattened `depends_on` lists hold exactly the keys named in some list |
| Validate.Dangling | libm8s/src/file_format.rs:150-155 | the filter keeps exactly the named keys that are not unit keys |
| Validate.CheckInvalidKeys | libm8s/src/file_format.rs:133-173 | passes exactly when every dependency is a key; a failure reports exactly the invalid keys, as a non-empty set |
| Cycles.Visit | libm8s/src/file_format.rs:78-103 | `analyse_cycles` only grows `visited`; on `Ok` the stack is as on entry and the key is visited |
| Cycles.VisitAll | libm8s/src/file_format.rs:95-99 | the neighbour loop only grows `visited` and, on `Ok`, restores the stack |
| Cycles.VisitSpec | libm8s/src/file_format.rs:78-103 | on `Ok` the key is finished (no cycle reachable from it or from any finished key); on `Err(path)` the path extends the entry stack through the key, follows edges and ends on a key it already contains |
| Cycles.VisitRoot | libm8s/src/file_format.rs:114-120 | from a fresh `visited` set and empty stack: `Ok` exactly when no cycle is reachable from the key, and `Err` is a cycle path from the key |
| Cycles.SelfDependency | libm8s/src/file_format.rs:84-97 | a key whose first dependency is itself reports `[k, k]` |
| Cycles.UnknownKeyIsLeaf | libm8s/src/file_format.rs:95 | a dependency that is not a key is a leaf: visiting it only marks it visited |
| Cycles.CyclePathKeys | libm8s/src/file_format.rs:95 | every key of a reported cycle is a key of the map |
| Cycles.FirstCyclePass | libm8s/src/file_format.rs:114-130 | the loop over the keys from position `i` passes exactly when no key from `i` on reaches a cycle |
| Cycles.FirstCycleFromStart | libm8s/src/file_format.rs:105-131 | from the first key: pass iff acyclic; a failure names a key, a cycle path of keys from it, and no earlier key reaches a cycle |
| Cycles.CheckCycles | libm8s/src/file_format.rs:105-131 | `check_dependency_cycles` on a graph: pass iff acyclic; otherwise the first key in declaration order that reaches a cycle, with a cycle path from it |
| Cycles.CycleFrom | libm8s/src/file_format.rs:114-120 | decides, for one key, whether a cycle is reachable from it |
| Cycles.ReachesCycle | libm8s/src/resources.rs:299-318 | decides whether a cycle is reachable from some key of a stack: exactly the case in which the expanding selection loop never ends |
| Paths.Join | libm8s/src/lib.rs:62-65 | `PathBuf::push`: an absolute path replaces the directory; otherwise it is appended with at most one separator |
| Paths.JoinSuffix | libm8s/src/lib.rs:62-65 | the joined path ends with the pushed path |
| Paths.JoinAbsolute | libm8s/src/lib.rs:62-65 | joining onto an absolute directory gives an absolute path |
| Paths.JoinTwice | libm8s/src/lib.rs:62-65 | joining onto an absolute directory twice is joining once |
| Paths.ConfigDir | libm8s/src/lib.rs:42-45 | the parent of a file path with single separators, no trailing one and no inner `.` component: the text before its last `/`, so a prefix of the path followed by a `/` with no `/` after it; `/` for a name directly under the root; `.` for the empty path and `/`; empty for a bare file name |
| Paths.ConfigDirJoin | libm8s/src/lib.rs:42-47 | the file's directory joined with its last component gives back the file |
| Paths.JoinAll | libm8s/src/lib.rs:70-77 | every values entry is joined, in order, one for one |
| Paths.Integrate | libm8s/src/lib.rs:53-99 | keys, key order and `depends_on` of every entry are unchanged; every non-group unit becomes its files joined onto the directory (`IntegrateFiles`, whose effect `IntegrateUnitShape` spells out) |
| Paths.IntegrateGroups | libm8s/src/lib.rs:91-93 | a group's scope is replaced by that scope integrated with the same directory, at every depth |
| Paths.IntegrateUnitShape | libm8s/src/lib.rs:59-96 | kinds are kept; shell and noop are unchanged; a manifest's path, a local chart's path and every values entry are joined; names, namespaces, chart name and version are untouched; `values: None` stays `None` |
| Paths.IntegrateGraph | libm8s/src/lib.rs:58 | the dependency graph is the same after integration |
| Paths.IntegrateTwice | libm8s/src/lib.rs:54-99 | integrating twice against an absolute directory is integrating once, groups included |
| Process.RunCommand | libm8s/src/utils.rs:7-29 | a dry run starts nothing and succeeds; otherwise exactly this command starts and its exit decides the outcome |
| Process.RunSequence | src/helm_repositories.rs:12-26 | a chain of `?` calls starts at most one process per command, and its only failure is a failed command |
| Process.SequenceDry | src/helm_repositories.rs:11-34 | a dry-run sequence of `?` calls starts nothing and succeeds |
| Process.SequencePrefix | src/helm_repositories.rs:11-34 | the commands start in order, a prefix of the list; all of them on success |
| Process.SequenceFailure | src/helm_repositories.rs:12-26 | a failure is the last command started failing, with its stderr |
| Process.SequenceAppend | src/helm_repositories.rs:11-32 | running two lists one after the other is running their concatenation |
| Process.ReleaseExists | libm8s/src/resources.rs:412-450 | with the dry-run shortcut: no process and "not installed"; otherwise exactly one `helm list --namespace ns --output yaml`; the answer is an error exactly when the list is unreadable, and otherwise whether the listed releases contain this name in this namespace |
| Process.HelmDeploy | libm8s/src/resources.rs:452-493 | the probe and then `helm install` or `helm upgrade`: an unreadable list starts only the listing and fails; otherwise it starts the listing and then `helm` with the upgrade arguments exactly when the release is listed; success iff the list is readable and the chosen command succeeds; a dry run with the shortcut starts nothing |
| Process.ValuesArgs | libm8s/src/resources.rs:478-481 | `-f <file>` for every values file, in order |
| Process.ValuesRoundTrip | libm8s/src/resources.rs:478-481 | the values files can be read back from the `-f` list |
| Process.HelmLocalArgs | libm8s/src/resources.rs:464-481 | `[install or upgrade, name, chart_path, --namespace, ns] + (-f v)*` |
| Process.HelmRemoteArgs | libm8s/src/resources.rs:507-526 | `[install or upgrade, name, chart_name, --version, version, --namespace, ns] + (-f v)*` |
| Process.RemoteIsLocalWithVersion | libm8s/src/resources.rs:507-526 | the remote vector is the local one with `--version v` inserted after the chart |
| Scheduler.HasPending | libm8s/src/resources.rs:395-404 | true exactly when some key is not done (equivalently, not every key is done) |
| Scheduler.FilterLoop | libm8s/src/resources.rs:299-318 | the stack loop only adds keys, and when it does not panic every popped token that was not skipped as visited is a key of the result |
| Scheduler.FilterFlat | libm8s/src/resources.rs:299-311 | without expansion it panics exactly when a token is not a key; otherwise the keys are the popped tokens, last first, each at its first pop |
| Scheduler.FilterClosure | libm8s/src/resources.rs:299-318 | with expansion it panics exactly when the closure holds a non-key; otherwise it adds exactly the closure of the selection |
| Scheduler.FilterEntries | libm8s/src/resources.rs:303-306 | every inserted entry is its key's entry in the scope; keys stay distinct |
| Scheduler.FilterCovered | libm8s/src/resources.rs:312-317 | at the end, every dependency of a selected key is selected |
| Scheduler.PassSkip | libm8s/src/resources.rs:216-228 | a pass skips a unit with a missing dependency |
| Scheduler.PassTake | libm8s/src/resources.rs:229-230 | a pass inserts a unit whose dependencies are all in the output |
| Scheduler.ReorderPass | libm8s/src/resources.rs:216-231 | one pass places at most one new key per remaining input unit and removes none |
| Scheduler.PassGrows | libm8s/src/resources.rs:216-231 | a pass keeps the placed keys as a prefix, in position |
| Scheduler.PassOrder | libm8s/src/resources.rs:216-231 | the keys a pass adds form a subsequence of the input order |
| Scheduler.PassPlacesReady | libm8s/src/resources.rs:216-231 | a unit that is ready when the pass reaches it is placed by the end of the pass |
| Scheduler.SomeReady | libm8s/src/resources.rs:212-232 | with closed, acyclic dependencies, while a unit is pending some pending unit is ready |
| Scheduler.PassProgress | libm8s/src/resources.rs:212-232 | while a unit is pending, a pass places a new key |
| Scheduler.LoopStep | libm8s/src/resources.rs:212-232 | a pass keeps the output's invariant, keeps the placed keys as a prefix, and strictly shrinks what is left |
| Scheduler.ReorderLoop | libm8s/src/resources.rs:211-234 | the `while` loop ends with every key placed once, each with its entry, after its dependencies, extending the map it started from |
| Scheduler.Reorder | libm8s/src/resources.rs:208-235 | a permutation of the input keys with the same entries, every unit after all of its dependencies |
| Scheduler.DepsFirstWellFormed | libm8s/src/resources.rs:208-235 | a dependencies-first map has no cycle and no dangling dependency (the reorder's precondition follows from its postcondition) |
| Scheduler.ReorderSorted | libm8s/src/resources.rs:208-235 | a map already in dependencies-first order comes out unchanged |
| Scheduler.ReorderIdempotent | libm8s/src/resources.rs:208-235 | reordering twice is reordering once |
| Scheduler.SelectionWellFormed | libm8s/src/resources.rs:299-321 | a closed selection of the scope's entries has no dangling dependency and no cycle, so the reorder may run on it |
| Scheduler.GetFilteredResources | libm8s/src/resources.rs:286-325 | dependencies off: panic iff a token is not a key, else the distinct tokens in pop order; on, and no cycle reachable from the tokens (a cycle elsewhere in the scope does no harm): panic iff the closure holds a non-key, else exactly the closure, dependencies first; entries are the scope's own |
| Scheduler.ExpandedSelection | libm8s/src/resources.rs:299-318 | from an empty map the expanding loop yields exactly the closure, with the scope's entries, closed under dependencies |
| Scheduler.FirstPop | libm8s/src/resources.rs:301-306 | the first key inserted is the last token |
| Scheduler.FilterPrefix | libm8s/src/resources.rs:301-318 | the loop only inserts: the starting map stays a prefix |
| Scheduler.GetFilteredUnits | libm8s/src/units.rs:84-123 | with an empty, never-written `visited` set: skipping dependencies, the distinct filter keys; otherwise exactly the closure, closed under dependencies; panics as above |
| Scheduler.UnitsPopOrder | libm8s/src/units.rs:100-120 | without skipping, the units stay in pop order: the last filter key comes first |
| SchedulerExamples.FirstPass | libm8s/src/resources.rs:216-231 | on `{b: [a], a, c: [b]}` the first pass places only `a` |
| SchedulerExamples.SecondPass | libm8s/src/resources.rs:216-231 | the second pass appends `b`, re-inserts `a` in place and appends `c` |
| SchedulerExamples.ReorderExample | libm8s/src/resources.rs:237-284 | `{b: [a], a, c: [b]}` reorders to `a, b, c` with the same entries |
| FilterExamples.FlatSingle | libm8s/src/resources.rs:286-325 | selecting one present key without expansion yields that key's entry alone, in both revisions |
| FilterExamples.DependencyBefore | libm8s/src/resources.rs:320-321 | in a dependencies-first selection a dependency is placed before the key that needs it |
| FilterExamples.FilterWithDependenciesExample | libm8s/src/resources.rs:327-393 | in `{b: [a], a, c: [b], d}` selecting `c` with dependencies yields exactly `a, b, c`, in that order, and leaves `d` out |
| FilterExamples.FilterWithoutDependenciesExample | libm8s/src/resources.rs:327-393 | the same selection without dependencies yields `c` alone |
| FilterExamples.UnitsWithDependenciesExample | libm8s/src/units.rs:125-196 | in `{a, b: [a], c}` selecting `b` yields `b` and then `a`, and leaves `c` out |
| FilterExamples.UnitsWithoutDependenciesExample | libm8s/src/units.rs:125-196 | with `skip_dependencies` the same selection yields `b` alone |
| Resources.WithinGroup | libm8s/src/resources.rs:68-74 | every scope inside a group's namespace is strictly inside its parent's |
| Resources.RunLeaf | libm8s/src/resources.rs:34-47 | a noop and any dry run start nothing and succeed; a failure is an unreadable release list or a failed command |
| Resources.RunResources | libm8s/src/resources.rs:9-66 | with dependencies followed and a cycle reachable from the selected keys, the selection never ends and nothing of this scope is reached (`SelectionDiverges`); otherwise the panic reaches nothing, and the keys reached in this scope are a prefix of the ordered selection, all of it on success; on failure the last of them is the resource whose iteration failed, with the run's error and the run's last processes (`Resources.Stopped`); nested scopes reached lie inside this one; a dry run starts nothing |
| Resources.RunEntries | libm8s/src/resources.rs:32-63 | the loop reaches a prefix of the ordered selection from `i`, all of it on success; on failure it stopped at an iteration `f[n]` (`Resources.StoppedAt`): at this level it reached exactly `f[i]` to `f[n]`, that iteration of `f[n]` failed with the loop's error, started the loop's last processes and left the loop's last records, so nothing after `f[n]` ran |
| Resources.RunEntry | libm8s/src/resources.rs:33-62 | one iteration reaches its key first and nothing else at this level |
| Resources.RunGroup | libm8s/src/resources.rs:48-61 | a group reaches exactly its own selection at namespace `parent:key`, with the tokens addressed to it and the same dependency flag |
| ResourcesExamples.LeafSelection | libm8s/src/resources.rs:286-325 | with dependencies followed, selecting a present key without dependencies yields that key's entry alone |
| ResourcesExamples.UnreachedCycleRuns | libm8s/src/resources.rs:9-66 | in `{a, g: {c: [d], d: [c], x}}`, `a` with dependencies runs `a` alone and succeeds: the cycle in `g` cannot be reached from it |
| ResourcesExamples.ReachedCycleDiverges | libm8s/src/resources.rs:9-66 | in the same scope, `g` with dependencies reaches `g`, whose own selection (all its keys) reaches the cycle, so the run never finishes and nothing more starts |
| ResourcesExamples.NarrowedSelectionRuns | libm8s/src/resources.rs:9-66 | in the same scope, `g:x` with dependencies reaches `g` and then `x` inside it, and succeeds |
| UnitRunner.RunUnit | libm8s/src/units.rs:250-376 | a noop starts nothing; manifest and shell start `kubectl apply -f root/path` and `bash -c input`; a Helm unit with a readable list starts the listing and then `helm` with its argument vector, whose values files are joined onto `root` and whose local chart path is not; a dry run starts only `helm list` and fails only on an unreadable list |
| UnitRunner.UnitRunFacts | libm8s/src/units.rs:215-248 | the release probe lists even in a dry run; failures are an unreadable list or a failed command |
| UnitRunner.UnitsPass | libm8s/src/units.rs:43-78 | a pass runs only keys of the map; skipping dependencies, a successful pass runs every key in map order |
| UnitRunner.PassOrder | libm8s/src/units.rs:44-58 | unless skipped, every unit a pass runs had its dependencies run before it |
| UnitRunner.PassFailedLast | libm8s/src/units.rs:60-75 | a pass that fails stops at the failing unit: it is the last key dispatched, its run has the pass's error and started the pass's last processes, so nothing runs after it |
| UnitRunner.PassReaches | libm8s/src/units.rs:43-78 | a unit that may run when the pass reaches it has run after a successful pass |
| UnitRunner.SomeReadyIn | libm8s/src/units.rs:40-79 | with closed, acyclic dependencies, some unit that has not run is ready |
| UnitRunner.Candidate | libm8s/src/units.rs:40-79 | while a unit is pending, one that has not run may run now |
| UnitRunner.LoopProgress | libm8s/src/units.rs:40-79 | a successful pass while a unit is pending shrinks the set still to run (why the loop ends) |
| UnitRunner.UnitsLoop | libm8s/src/units.rs:39-79 | the `while has_pending_units` loop: on success every key has run; unless skipped, each after its dependencies; on failure the last key dispatched is the unit whose run failed, with the loop's error and its last processes |
| UnitRunner.SelectionFacts | libm8s/src/units.rs:23-35 | the selection keeps distinct keys and, unless skipped, is closed and acyclic |
| UnitRunner.SkipSinglePass | libm8s/src/units.rs:43-77 | skipping dependencies, one pass runs every unit once, in map order |
| UnitRunner.RunSelected | libm8s/src/units.rs:39-81 | the loop from nothing done: only keys of the selection; all of them on success; dependencies first unless skipped; the first failing unit is the last one run |
| UnitRunner.RunUnits | libm8s/src/units.rs:9-82 | `run_units` as written: the panic starts nothing; the run stays in the selection, covers it on success, orders dependencies first unless skipped, and runs in map order when skipping; the first failing unit ends the run; a dry run starts only listings |
| UnitRunner.RunUnitsOnce | libm8s/src/units.rs:9-82 | the loop skipping keys already done: each selected unit runs at most once, exactly once on success, dependencies first; the first failing unit ends the run |
| UnitRunnerExamples.FirstUnitsPass | libm8s/src/units.rs:43-78 | on `{b: [a], a, c: [b]}` the first pass runs only `a` |
| UnitRunnerExamples.SecondUnitsPass | libm8s/src/units.rs:43-78 | the second pass as written runs `b`, `a` again, then `c` |
| UnitRunnerExamples.SecondUnitsPassOnce | libm8s/src/units.rs:43-78 | the corrected second pass runs `b` and `c` |
| UnitRunnerExamples.RerunLoop | libm8s/src/units.rs:39-79 | the whole loop as written dispatches `a, b, a, c` |
| UnitRunnerExamples.OnceLoop | libm8s/src/units.rs:39-79 | the corrected loop dispatches `a, b, c` |
| UnitRunnerExamples.RunUnitsUnfiltered | libm8s/src/units.rs:23-40 | with an empty filter, `run_units` is the loop over the whole map |
| UnitRunnerExamples.RunUnitsRunsTwice | libm8s/src/units.rs:9-82 | `run_units` on `{b: [a], a, c: [b]}` runs `a` twice |
| UnitRunnerExamples.RunUnitsOnceExample | libm8s/src/units.rs:9-82 | the corrected run on the same map runs `a, b, c`, each once |
| LegacyUnits.RunUnit | src/units.rs:36-50 | each unit of the first revision runs exactly as its lifted form does in the later one, with no kubeconfig |
| LegacyUnits.RunUnits | src/units.rs:8-57 | only units of the map run; on success all of them, each after its dependencies; on failure the unit whose run failed is the last one run; a dry run starts only listings |
| LegacyUnits.LiftFailedLast | src/units.rs:36-50 | a failure of the lifted run is a failure of the first revision's own unit run, the last one dispatched |
| HelmRepositories.RepoCommandsShape | src/helm_repositories.rs:11-27 | repository `i` gives `helm repo add name url` at position `2i` and `helm repo update name` at `2i+1` |
| HelmRepositories.RepositoryIsSequence | src/helm_repositories.rs:12-26 | one iteration runs its two commands as a `?` sequence |
| HelmRepositories.HandleHelmRepositories | src/helm_repositories.rs:11-34 | the loop starts at most two processes per repository, and its only failure is a failed command |
| HelmRepositories.HandleIsSequence | src/helm_repositories.rs:11-34 | the loop runs exactly the command list, stopping at the first failure |
| HelmRepositories.HandleRuns | src/helm_repositories.rs:11-34 | no repositories, or a dry run, start nothing and succeed; otherwise a prefix of the commands starts, all of them on success |
| HelmRepositories.HandleFailure | src/helm_repositories.rs:12-26 | a failure is the last command started, with its stderr |
| Commands.GetValue | m8s/src/main.rs:29-39 | the positive flag wins, then the negative one; with neither the option is on |
| Commands.HelmSection | libm8scmd/src/command_up.rs:49-55 | the repositories are present exactly when both the `helm` section and its list are present |
| Commands.Repositories | libm8scmd/src/command_up.rs:57-64 | a missing section and a missing list both mean no repositories |
| Commands.ParseDeploymentFile | libm8s/src/lib.rs:17-52 | an unreadable file and an unparsable file are the two errors, and a readable, parsable file always loads; a loaded configuration keeps the parsed `helm` section, the keys and the dependency graph, and its resources are the parsed ones integrated against the file's directory |
| Commands.FirstFailure | libm8scmd/src/command_up.rs:45-55 | the checks pass exactly when all pass; otherwise the result is the first failing one |
| Commands.CyclesCheck | libm8scmd/src/command_up.rs:47 | passes exactly when the root scope is acyclic; a failure names a key of the scope (the resources revision's check is assumed root-only) |
| Commands.UpResources | libm8scmd/src/command_up.rs:75-92 | the resources phase is the root scope's run with the resource tokens and the dependencies flag: the same keys reached and processes started, success exactly when that run succeeds, and its error wrapped in the resources phase otherwise |
| Commands.CommandUp | libm8scmd/src/command_up.rs:18-95 | `CommandUp::run`: nothing starts and nothing is reached unless the file was read, and a successful command read the file it was given |
| Commands.UpFlagsFirst | libm8scmd/src/command_up.rs:18-43 | the file is read exactly when the flags are consistent; each flag error stops everything, before the file is read |
| Commands.UpChecksGate | libm8scmd/src/command_up.rs:45-55 | no process starts and no resource is reached unless the file loaded and every check passed; a failing check is the first in order and starts nothing |
| Commands.UpHelmFirst | libm8scmd/src/command_up.rs:57-75 | the repository commands come first and run only when enabled; their failure reaches no resource and carries the helm prefix |
| Commands.UpRootSelection | libm8scmd/src/command_up.rs:75-88 | with no argument, every top-level key in file order, with dependencies on and namespace `None` |
| Commands.UpDryRun | libm8scmd/src/command_up.rs:57-92 | a dry run starts no process at all |
| Commands.UnitsResults | m8s/src/main.rs:183-185 | the three checks, in order: invalid keys, cycles, files |
| Commands.ExecuteUp | m8s/src/main.rs:149-212 | `execute_up_command`: nothing starts unless the file was read, a successful command read the file it was given, and no resource is ever reached |
| Commands.UnitsPhases | m8s/src/main.rs:187-209 | after the validators the file stays read; the repository processes come first, and with units off they are all that starts |
| Commands.ExecuteUpFlagsFirst | m8s/src/main.rs:159-181 | flag errors, then the directory change; the file is read only after both; a dependencies flag without units is an error even with `--no-units` |
| Commands.DependenciesFlagDiffers | m8s/src/main.rs:159-165 | `--dependencies --no-units` with no argument is refused here and accepted by the resources front end |
| Commands.ExecuteUpChecksGate | m8s/src/main.rs:180-209 | no process starts before the file loaded and all three checks passed |
| Commands.ExecuteUpCycleStops | m8s/src/main.rs:183-185 | with valid keys and a cycle, the command stops with the cycle error having started nothing |
| Commands.ExecuteUpHelmFirst | m8s/src/main.rs:187-209 | once the checks pass, the repository commands come first and run only when enabled; their failure ends the command in the repository phase having started only them; otherwise the units phase follows when enabled, and the command succeeds exactly when it does, failing with its error in the units phase |
| Commands.DryPhases | m8s/src/main.rs:187-209 | in a dry run the repository phase cannot fail, and processes start only when units are enabled |
| Commands.ExecuteUpDryHelm | m8s/src/main.rs:187-209 | a dry run cannot fail while adding repositories; any process starts in the units phase, and none when units are off |

## Left out

- Reading the file, YAML and serde, clap and logging are left out. Reading and deserializing are the `Files` oracle of `Commands.ParseDeploymentFile`, and `load` in `Commands.UnitsWorld`.
- Paths.ConfigDir: takes the text before the last `/` and does not normalise the path as `Path::parent` does. `Path::parent` skips trailing separators, repeated separators and inner `.` components, so it gives `a` for `a/b/`, `a//b` and `a/./b`, where the model gives `a/b`, `a/` and `a/.`. Paths with single separators, no trailing one and no `.` component after the first agree.
- Process spawning, the threads that drain stdout and stderr, and the printed output are left out. A process is its exit status and stderr, given by `Process.Env`.
- Parsing the YAML that `helm list` prints is left out. It is the `list` oracle of `Process.Env`.
- `PathBuf::push` is the rule in `Paths.Join`: an absolute path replaces the directory, otherwise one separator is added. Normalisation of `.`, `..` and repeated separators is left out. `to_string_lossy` is the identity.
- `env::set_current_dir` for `--directory` is the `chdir` oracle. The relative paths it changes are not re-resolved.
- The validators whose source is not part of this model are oracles that pass or fail a configuration:
  - key format;
  - the group-aware invalid-keys check of the resources revision;
  - files exist;
  - helm remote repositories.
- The units phase of `m8s/src/main.rs` is the `runUnits` oracle. That call passes five arguments where `libm8s/src/units.rs` `run_units` takes six, so the revision of `run_units` it calls is not part of this model. The `parse_deployment_file` called there likewise takes one argument, and so is the `load` oracle.
- The `file_format.rs` of the resources revision (its `Resource` enum with `Group`) is not part of this model. `Format.Unit` takes its shape from how `libm8s/src/resources.rs` and `libm8s/src/lib.rs` use it.
- `libm8s/src/helm_repositories.rs` is not part of this model. The repository phase of both front ends uses `src/helm_repositories.rs`.
- Exact error messages are left out: errors are datatypes that carry the cycle path, the key set or the selection.
- The order of the invalid keys, which a `HashSet` leaves unspecified, is left out: the report is a set.
- The JSON schema command and the integration tests that need YAML fixtures and a shell are left out.
- Resources.RunResources: when dependencies are followed and a cycle can be reached from the keys a scope selects, `get_filtered_resources` pops and pushes forever. Nested scopes can hold such a cycle on the assumption, stated under Commands.CyclesCheck, that the cycle check looks at the root scope only. The model ends that run with the `SelectionDiverges` error instead of not terminating. It does not tell apart the case where the loop would first pop a key missing from the scope and panic: both end the run having started nothing more.
- Commands.CyclesCheck: the resources revision's `check_dependency_cycles`, which `libm8scmd/src/command_up.rs:47` calls on a map with groups, is not part of this model. The two versions in `libm8s/src/file_format.rs:105` and `src/file_format.rs:105` take flat units. The model assumes it is that same depth-first search, run over the root scope only, without looking inside groups.
- Scheduler.GetFilteredResources: requires, when dependencies are followed, that no cycle can be reached from the arguments. From such a cycle the stack loop never ends; a cycle elsewhere in the scope is allowed.
- Scheduler.GetFilteredUnits: requires, unless dependencies are skipped, that no cycle can be reached from the filter, for the same reason.
- Scheduler.Reorder: requires every dependency to be a key of the map and no cycle. Otherwise the `while` loop never ends.
- UnitRunner.RunUnits: requires an acyclic map unless dependencies are skipped, and closed dependencies when there is no filter. No caller of this six-argument `run_units` is part of this model. The model assumes it is called, as the five-argument revision is at `m8s/src/main.rs:183-185`, after `check_invalid_unit_keys` and `check_dependency_cycles` have passed over the whole map. A filtered run over a map with a cycle that the filter cannot reach is therefore not modelled. It requires a scope without groups, because that revision has none.
- LegacyUnits.RunUnits: requires closed, acyclic dependencies, which the two validators guarantee before it is called. Otherwise the loop never ends.
- Resources.RunLeaf: states the outcome kinds and dry-run behaviour but not the argument vectors. Those are stated by `Process.HelmLocalArgs`, `Process.HelmRemoteArgs` and `Process.HelmDeploy`.

## Findings

| source | as written | input that shows it | evidently intended | confidence | as-written member | corrected member |
|---|---|---|---|---|---|---|
| libm8s/src/units.rs:39-79 | each pass of the `while has_pending_units` loop runs every unit whose dependencies are done, including units that already ran (the same loop is at src/units.rs:16-54) | `{b: [a], a, c: [b]}` with no filter dispatches `a, b, a, c` | every unit runs once, each after its dependencies | medium, not executed | UnitRunner.RunUnits, UnitRunnerExamples.RunUnitsRunsTwice | UnitRunner.RunUnitsOnce, UnitRunnerExamples.RunUnitsOnceExample |

The revisions' own behaviour is what `UnitRunner.RunUnits` and `LegacyUnits.RunUnits` model. `UnitRunner.RunUnitsOnce` is the same loop with done keys skipped. It is proved to run each selected unit at most once, and exactly once when it succeeds.

=== FILE: base.dfy ===
/** Small shared vocabulary: optional values, pass/fail outcomes and the few
    sequence helpers the rest of the model is written with. */
module Base {

  /** Rust's `Option<T>`. */
  datatype Option<+T> = None | Some(value: T) {
    function GetOr(default: T): T {
      match this
      case Some(v) => v
      case None => default
    }
  }

  /** Rust's `Result<(), E>`: either `Ok(())` or `Err(e)`. */
  datatype Outcome<+E> = Pass | Fail(error: E)

  /** The elements of `s` in reverse order. */
  function Reverse<T>(s: seq<T>): (r: seq<T>)
    ensures |r| == |s|
    ensures forall i :: 0 <= i < |s| ==> r[i] == s[|s| - 1 - i]
  {
    if s == [] then [] else Reverse(s[1..]) + [s[0]]
  }

  /** The set of elements of a sequence. */
  function Elems<T>(s: seq<T>): set<T> {
    set x | x in s
  }

  /** No element occurs twice. */
  predicate Distinct<T(==)>(s: seq<T>) {
    forall i, j :: 0 <= i < j < |s| ==> s[i] != s[j]
  }

  /** Position of the first occurrence of `x` in `s`. */
  function IndexOf<T(==)>(s: seq<T>, x: T): (r: nat)
    requires x in s
    ensures r < |s| && s[r] == x
    ensures x !in s[..r]
  {
    if s[0] == x then 0 else 1 + IndexOf(s[1..], x)
  }

  /** `acc` followed by the elements of `xs` that are not already present,
      each taken at its first occurrence: what repeated `IndexMap::insert`
      does to the key order. */
  function AppendNew<T(==)>(acc: seq<T>, xs: seq<T>): (r: seq<T>)
    ensures Elems(r) == Elems(acc) + Elems(xs)
    ensures Distinct(acc) ==> Distinct(r)
    ensures |r| >= |acc| && r[..|acc|] == acc
    decreases xs
  {
    if xs == [] then acc
    else if xs[0] in acc then AppendNew(acc, xs[1..])
    else AppendNew(acc + [xs[0]], xs[1..])
  }

  /** The elements of `s`, each at its first occurrence. */
  function Dedup<T(==)>(s: seq<T>): (r: seq<T>)
    ensures Distinct(r)
    ensures Elems(r) == Elems(s)
  {
    AppendNew([], s)
  }

  /** Appending elements behind a present element does not move its first
      occurrence. */
  lemma IndexOfAppend<T>(s: seq<T>, t: seq<T>, x: T)
    requires x in s
    ensures IndexOf(s + t, x) == IndexOf(s, x)
  {
    if s[0] != x {
      assert (s + t)[1..] == s[1..] + t;
      IndexOfAppend(s[1..], t, x);
    }
  }

  /** `p` is an initial segment of `s`. */
  predicate IsPrefix<T(==)>(p: seq<T>, s: seq<T>) {
    |p| <= |s| && s[..|p|] == p
  }

  /** `p` is a final segment of `s`. */
  predicate IsSuffix<T(==)>(p: seq<T>, s: seq<T>) {
    |p| <= |s| && s[|s| - |p|..] == p
  }

  /** A subset of a finite set is no larger than it. */
  lemma SubsetCard<T>(a: set<T>, b: set<T>)
    requires a <= b
    ensures |a| <= |b|
  {
    if a != {} {
      var x :| x in a;
      SubsetCard(a - {x}, b - {x});
    }
  }

  /** A proper subset of a finite set is strictly smaller. */
  lemma ProperSubsetCard<T>(a: set<T>, b: set<T>)
    requires a < b
    ensures |a| < |b|
  {
    if b - a == {} {
      assert false;
    }
    var x :| x in b - a;
    SubsetCard(a, b - {x});
  }

  /** A duplicate-free sequence has as many elements as its set. */
  lemma {:induction false} DistinctCard<T>(s: seq<T>)
    requires Distinct(s)
    ensures |Elems(s)| == |s|
  {
    if s != [] {
      var t := s[..|s| - 1];
      assert Distinct(t);
      DistinctCard(t);
      assert s == t + [s[|s| - 1]];
      assert Elems(s) == Elems(t) + {s[|s| - 1]};
      assert s[|s| - 1] !in Elems(t);
    }
  }

  /** `a` is `b` with some elements left out, order kept. */
  predicate Subseq<T(==)>(a: seq<T>, b: seq<T>)
    decreases |b|
  {
    if a == [] then true
    else if b == [] then false
    else if a[0] == b[0] then Subseq(a[1..], b[1..])
    else Subseq(a, b[1..])
  }

  lemma {:induction false} SubseqTail<T>(a: seq<T>, b: seq<T>)
    requires a != [] && Subseq(a, b)
    ensures Subseq(a[1..], b)
    decreases |b|, 0
  {
    if a[0] != b[0] {
      SubseqTail(a, b[1..]);
      SubseqCons(a[1..], b[0], b[1..]);
      assert [b[0]] + b[1..] == b;
    } else {
      SubseqCons(a[1..], b[0], b[1..]);
      assert [b[0]] + b[1..] == b;
    }
  }

  /** Adding an element in front of the larger sequence keeps a
      subsequence. */
  lemma {:induction false} SubseqCons<T>(a: seq<T>, x: T, b: seq<T>)
    requires Subseq(a, b)
    ensures Subseq(a, [x] + b)
    decreases |b|, 1
  {
    assert ([x] + b)[1..] == b;
    if a != [] && a[0] == x {
      SubseqTail(a, b);
    }
  }

  /** Appending leaves the head of a non-empty front in place and appends to
      its tail. */
  lemma AppendCons<T>(a: seq<T>, b: seq<T>)
    requires a != []
    ensures (a + b)[0] == a[0] && (a + b)[1..] == a[1..] + b
  {
  }

  lemma AppendAssoc<T>(a: seq<T>, b: seq<T>, c: seq<T>)
    ensures a + (b + c) == (a + b) + c
  {
  }

  /** A prefix one longer is the prefix and the next element. */
  lemma TakeSnoc<T>(s: seq<T>, n: nat)
    requires n < |s|
    ensures s[..n + 1] == s[..n] + [s[n]]
  {
  }

  /** A non-empty sequence is its front and its last element. */
  lemma FrontLast<T>(s: seq<T>)
    requires s != []
    ensures s == s[..|s| - 1] + [s[|s| - 1]]
  {
  }

  /** A suffix from `n` is its first element followed by the next suffix. */
  lemma SliceCons<T>(s: seq<T>, n: nat)
    requires n < |s|
    ensures s[n..] == [s[n]] + s[n + 1..]
  {
  }

  /** The same element in front of both keeps a subsequence. */
  lemma SubseqBoth<T>(a: seq<T>, x: T, b: seq<T>)
    requires Subseq(a, b)
    ensures Subseq([x] + a, [x] + b)
  {
    assert ([x] + a)[1..] == a && ([x] + b)[1..] == b;
  }

  lemma PrefixTrans<T>(a: seq<T>, b: seq<T>, c: seq<T>)
    requires IsPrefix(a, b) && IsPrefix(b, c)
    ensures IsPrefix(a, c)
  {
    assert c[..|a|] == c[..|b|][..|a|];
  }

  lemma PrefixElems<T>(a: seq<T>, b: seq<T>)
    requires IsPrefix(a, b)
    ensures Elems(a) <= Elems(b)
  {
    forall x | x in a
      ensures x in b
    {
      var i :| 0 <= i < |a| && a[i] == x;
      assert b[i] == x;
    }
  }
}

=== FILE: commands.dfy ===
/** The `up` command of both front ends: `CommandUp::run`
    (libm8scmd/src/command_up.rs), which deploys the resources revision, and
    `execute_up_command` (m8s/src/main.rs), which deploys the units
    revision. Each checks its flags, reads the deployment file, runs the
    validators in order, adds the Helm repositories and then runs the
    resources (or units), stopping at the first error. */
module Commands {
  import opened Base
  import opened IndexMap
  import opened Graph
  import opened Errors
  import opened Process
  import opened Format
  import opened Paths
  import opened Resources
  import opened HelmRepositories

  /** A pair of mutually exclusive flags `--x` / `--no-x`. */
  datatype Flags = Flags(on: bool, off: bool)

  /** Either flag of the pair was given. */
  predicate Given(f: Flags) {
    f.on || f.off
  }

  /** `get_value`: the positive flag wins, then the negative one; with
      neither the option is on. */
  function GetValue(f: Flags): (r: bool)
    ensures r <==> f.on || !f.off
    ensures !Given(f) ==> r
  {
    if f.on then true
    else if f.off then false
    else true
  }

  /** The `helm` section of the resources revision's file. */
  datatype Helm = Helm(repositories: Option<seq<HelmRepository>>)

  /** The deserialized file of the resources revision. */
  datatype ResourcesConfig = ResourcesConfig(helm: Option<Helm>, resources: Units)

  /** `config.helm.as_ref().and_then(|helm| helm.repositories.clone())`. */
  function HelmSection(c: ResourcesConfig): (r: Option<seq<HelmRepository>>)
    ensures r.Some? <==> c.helm.Some? && c.helm.value.repositories.Some?
    ensures r.Some? ==> r.value == c.helm.value.repositories.value
  {
    match c.helm
    case None => None
    case Some(h) => h.repositories
  }

  /** The same, `.unwrap_or(Vec::new())`: a missing section and a section
      without repositories both mean none. */
  function Repositories(c: ResourcesConfig): (r: seq<HelmRepository>)
    ensures r == [] <==> HelmSection(c).None? || HelmSection(c) == Some([])
  {
    HelmSection(c).GetOr([])
  }

  /** The file system as the loader sees it: the text of a file, and what
      that text deserializes to. */
  datatype Files = Files(read: string -> Option<string>, parse: string -> Option<ResourcesConfig>)

  datatype Loaded = Loaded(config: ResourcesConfig) | NotLoaded(error: Error)

  /** `parse_deployment_file` (libm8s/src/lib.rs): read, deserialize, then
      make every file path of the resources relative to the file's
      directory. */
  function ParseDeploymentFile(files: Files, path: string): (r: Loaded)
    ensures files.read(path).None? ==> r == NotLoaded(ConfigUnreadable)
    ensures files.read(path).Some? && files.parse(files.read(path).value).None? ==>
      r == NotLoaded(ConfigUnparsable)
    ensures r.Loaded? ==>
      && files.read(path).Some?
      && var parsed := files.parse(files.read(path).value);
      && parsed.Some?
      && r.config.helm == parsed.value.helm
      && Keys(r.config.resources) == Keys(parsed.value.resources)
      && DependencyGraph(r.config.resources) == DependencyGraph(parsed.value.resources)
      && r.config.resources == Integrate(parsed.value.resources, ConfigDir(path))
    ensures files.read(path).Some? && files.parse(files.read(path).value).Some? ==> r.Loaded?
  {
    match files.read(path)
    case None => NotLoaded(ConfigUnreadable)
    case Some(text) =>
      match files.parse(text)
      case None => NotLoaded(ConfigUnparsable)
      case Some(c) =>
        IntegrateGraph(c.resources, ConfigDir(path));
        var m := Integrate(c.resources, ConfigDir(path));
        assert Keys(m) == Keys(c.resources);
        Loaded(ResourcesConfig(c.helm, m))
  }

  /** Validators run in order, each `?` stopping at the first failure. */
  function FirstFailure(results: seq<Outcome<Error>>): (r: Outcome<Error>)
    ensures r.Pass? <==> forall i :: 0 <= i < |results| ==> results[i].Pass?
    ensures r.Fail? ==>
      exists i :: 0 <= i < |results| && results[i] == r && forall j :: 0 <= j < i ==> results[j].Pass?
    decreases |results|
  {
    if results == [] then Pass
    else if results[0].Fail? then results[0]
    else
      var rest := FirstFailure(results[1..]);
      assert forall i :: 1 <= i < |results| ==> results[1..][i - 1] == results[i];
      rest
  }

  /** `check_dependency_cycles` as the command reports it. The resources
      revision's check is assumed to be the depth-first search over the
      root scope that `Format.CheckDependencyCycles` models. */
  function CyclesCheck(m: Units): (r: Outcome<Error>)
    ensures r.Pass? <==> Acyclic(DependencyGraph(m))
    ensures r.Fail? ==> r.error.DependencyCycle? && HasKey(m, r.error.key)
  {
    match CheckDependencyCycles(m)
    case Pass => Pass
    case Fail(e) => Fail(DependencyCycle(e.key, e.path))
  }

  // ---------------------------------------------------------------------
  // `CommandUp::run` (libm8scmd/src/command_up.rs)
  // ---------------------------------------------------------------------

  /** The command line of `up` in the resources revision. */
  datatype UpRequest = UpRequest(args: seq<string>, file: Option<string>, kubeconfig: Option<string>,
                                 helmRepositories: Flags, resources: Flags, dependencies: Flags,
                                 dryRun: bool)

  /** What the command sees of the world: processes, files, and the verdict
      of each validator whose source is not part of this model. */
  datatype UpWorld = UpWorld(env: Env, files: Files, passes: (Check, ResourcesConfig) -> bool)

  /** What a run of the command did: the file it read, the resources it
      reached, the processes it started, and how it ended. */
  datatype Session = Session(read: Option<string>, reached: seq<Reached>, spawned: seq<Command>,
                             outcome: Outcome<Error>)

  /** The two flag errors, checked before anything else. */
  function UpInputError(req: UpRequest): Option<Error> {
    if Given(req.dependencies) && GetValue(req.resources) && |req.args| == 0 then
      Some(DependenciesWithoutSelection)
    else if req.resources.off && |req.args| > 0 then
      Some(DisabledWithSelection(req.args))
    else None
  }

  /** The validators, in the order the command runs them. */
  const UpChecks: seq<Check> := [KeyFormat, InvalidKeys, Cycles, FilesExist, HelmRemoteRepositories]

  function UpCheck(world: UpWorld, c: Check, cfg: ResourcesConfig): Outcome<Error> {
    if c == Cycles then CyclesCheck(cfg.resources)
    else if world.passes(c, cfg) then Pass
    else Fail(CheckFailed(c))
  }

  function UpResults(world: UpWorld, cfg: ResourcesConfig): (r: seq<Outcome<Error>>)
    ensures |r| == |UpChecks|
    ensures forall i :: 0 <= i < |UpChecks| ==> r[i] == UpCheck(world, UpChecks[i], cfg)
  {
    seq(|UpChecks|, i requires 0 <= i < |UpChecks| => UpCheck(world, UpChecks[i], cfg))
  }

  /** The deployment file: `--file`, or `m8s.yaml` in the current directory. */
  function FilePath(file: Option<string>): string {
    file.GetOr("m8s.yaml")
  }

  /** The selection the resources run starts from: the arguments, or else
      every top-level key in file order. */
  function ResourceArgs(args: seq<string>, m: Units): seq<string> {
    if |args| > 0 then args else Keys(m)
  }

  /** The helm phase: repositories added only when the option is on. */
  function UpHelm(env: Env, req: UpRequest, cfg: ResourcesConfig): Run {
    if GetValue(req.helmRepositories) then HandleHelmRepositories(env, 0, Repositories(cfg), req.dryRun)
    else Run([], Pass)
  }

  /** The resources phase, after `t` processes: the root scope run with the
      arguments, and any failure carries the resources prefix. */
  function UpResources(env: Env, t: nat, req: UpRequest, cfg: ResourcesConfig): (r: Trace)
    ensures var tr := RunResources(env, t, cfg.resources, None, ResourceArgs(req.args, cfg.resources),
                                   GetValue(req.dependencies), req.kubeconfig, req.dryRun);
      && r.reached == tr.reached && r.spawned == tr.spawned
      && (r.outcome.Pass? <==> tr.outcome.Pass?)
      && (r.outcome.Fail? ==> r.outcome.error == InPhase(RunningResources, tr.outcome.error))
  {
    var tr := RunResources(env, t, cfg.resources, None, ResourceArgs(req.args, cfg.resources),
                           GetValue(req.dependencies), req.kubeconfig, req.dryRun);
    Trace(tr.reached, tr.spawned, if tr.outcome.Pass? then Pass else Fail(InPhase(RunningResources, tr.outcome.error)))
  }

  /** `CommandUp::run`. */
  function CommandUp(world: UpWorld, req: UpRequest): (r: Session)
    ensures r.read.None? ==> r.spawned == [] && r.reached == []
    ensures r.outcome.Pass? ==> r.read == Some(FilePath(req.file))
  {
    match UpInputError(req)
    case Some(e) => Session(None, [], [], Fail(e))
    case None =>
      var path := FilePath(req.file);
      match ParseDeploymentFile(world.files, path)
      case NotLoaded(e) => Session(Some(path), [], [], Fail(e))
      case Loaded(cfg) =>
        match FirstFailure(UpResults(world, cfg))
        case Fail(e) => Session(Some(path), [], [], Fail(e))
        case Pass =>
          var helm := UpHelm(world.env, req, cfg);
          if helm.outcome.Fail? then
            Session(Some(path), [], helm.spawned, Fail(InPhase(AddingHelmRepositories, helm.outcome.error)))
          else if !GetValue(req.resources) then
            Session(Some(path), [], helm.spawned, Pass)
          else
            var tr := UpResources(world.env, |helm.spawned|, req, cfg);
            Session(Some(path), tr.reached, helm.spawned + tr.spawned, tr.outcome)
  }

  /** The flag errors come first: the file is read exactly when the flags
      are consistent. A dependencies flag with resources on and no argument,
      or `--no-resources` with arguments, stops with that error and nothing
      else happens. */
  lemma UpFlagsFirst(world: UpWorld, req: UpRequest)
    ensures var r := CommandUp(world, req);
      && (r.read.Some? <==> UpInputError(req).None?)
      && (r.read.Some? ==> r.read.value == FilePath(req.file))
      && (r.outcome == Fail(DependenciesWithoutSelection) <==>
            Given(req.dependencies) && GetValue(req.resources) && req.args == [])
      && (Given(req.dependencies) && GetValue(req.resources) && req.args == [] ==>
            r == Session(None, [], [], Fail(DependenciesWithoutSelection)))
      && (req.resources.off && req.args != [] ==>
            r == Session(None, [], [], Fail(DisabledWithSelection(req.args))))
  {
  }

  /** A process is started or a resource reached only after the file was
      loaded and every validator passed; a failing validator is the first
      one in order that fails, and stops the command before any process. */
  lemma UpChecksGate(world: UpWorld, req: UpRequest)
    ensures var r := CommandUp(world, req);
      var loaded := ParseDeploymentFile(world.files, FilePath(req.file));
      && (r.spawned != [] || r.reached != [] ==>
            && UpInputError(req).None?
            && loaded.Loaded?
            && forall i :: 0 <= i < |UpChecks| ==> UpCheck(world, UpChecks[i], loaded.config).Pass?)
      && (UpInputError(req).None? && loaded.Loaded? && FirstFailure(UpResults(world, loaded.config)).Fail? ==>
            && r.spawned == [] && r.reached == []
            && exists i :: 0 <= i < |UpChecks| && r.outcome == UpCheck(world, UpChecks[i], loaded.config)
                 && forall j :: 0 <= j < i ==> UpCheck(world, UpChecks[j], loaded.config).Pass?)
  {
  }

  /** The repositories are added before any resource runs; when adding
      them fails, no resource is reached and the error carries the helm
      prefix. */
  lemma UpHelmFirst(world: UpWorld, req: UpRequest)
    requires UpInputError(req).None?
    requires ParseDeploymentFile(world.files, FilePath(req.file)).Loaded?
    requires FirstFailure(UpResults(world, ParseDeploymentFile(world.files, FilePath(req.file)).config)).Pass?
    ensures var r := CommandUp(world, req);
      var cfg := ParseDeploymentFile(world.files, FilePath(req.file)).config;
      var helm := UpHelm(world.env, req, cfg);
      && IsPrefix(helm.spawned, r.spawned)
      && (!GetValue(req.helmRepositories) ==> helm == Run([], Pass))
      && (helm.outcome.Fail? ==>
            r.reached == [] && r.outcome == Fail(InPhase(AddingHelmRepositories, helm.outcome.error)))
      && (helm.outcome.Pass? && !GetValue(req.resources) ==> r.reached == [] && r.outcome.Pass?)
  {
    var cfg := ParseDeploymentFile(world.files, FilePath(req.file)).config;
    var helm := UpHelm(world.env, req, cfg);
    if helm.outcome.Pass? && GetValue(req.resources) {
      var tr := UpResources(world.env, |helm.spawned|, req, cfg);
      assert (helm.spawned + tr.spawned)[..|helm.spawned|] == helm.spawned;
    }
  }

  /** With no resource argument every top-level key is selected, in file
      order, with dependencies followed (a dependencies flag without
      arguments is an error); the resources start after the helm commands. */
  lemma UpRootSelection(world: UpWorld, req: UpRequest)
    requires UpInputError(req).None? && req.args == [] && GetValue(req.resources)
    requires ParseDeploymentFile(world.files, FilePath(req.file)).Loaded?
    ensures var cfg := ParseDeploymentFile(world.files, FilePath(req.file)).config;
      var helm := UpHelm(world.env, req, cfg);
      && GetValue(req.dependencies)
      && (FirstFailure(UpResults(world, cfg)).Pass? && helm.outcome.Pass? ==>
            CommandUp(world, req).reached ==
              RunResources(world.env, |helm.spawned|, cfg.resources, None, Keys(cfg.resources), true,
                           req.kubeconfig, req.dryRun).reached)
  {
    assert !Given(req.dependencies);
    var cfg := ParseDeploymentFile(world.files, FilePath(req.file)).config;
    var helm := UpHelm(world.env, req, cfg);
    if FirstFailure(UpResults(world, cfg)).Pass? && helm.outcome.Pass? {
      assert ResourceArgs(req.args, cfg.resources) == Keys(cfg.resources);
      assert CommandUp(world, req).reached == UpResources(world.env, |helm.spawned|, req, cfg).reached;
    }
  }

  /** A dry run starts no process at all: neither the repositories nor any
      resource. */
  lemma UpDryRun(world: UpWorld, req: UpRequest)
    requires req.dryRun
    ensures CommandUp(world, req).spawned == []
  {
    var path := FilePath(req.file);
    var loaded := ParseDeploymentFile(world.files, path);
    if UpInputError(req).None? && loaded.Loaded? && FirstFailure(UpResults(world, loaded.config)).Pass? {
      var cfg := loaded.config;
      HandleRuns(world.env, 0, Repositories(cfg), true);
    }
  }

  // ---------------------------------------------------------------------
  // `execute_up_command` (m8s/src/main.rs)
  // ---------------------------------------------------------------------

  /** The command line of `up` in the units revision. */
  datatype UnitsRequest = UnitsRequest(args: seq<string>, file: Option<string>, directory: Option<string>,
                                       kubeconfig: Option<string>, helmRepositories: Flags,
                                       units: Flags, dependencies: Flags, dryRun: bool)

  /** What this front end sees of the world. `chdir` says whether changing
      into a directory succeeds, `load` reads and deserializes a file,
      `filesExist` is `check_files_exist`, and `runUnits(t, ...)` is the
      units phase after `t` processes: the call there passes five
      arguments where `run_units` takes six, so its behaviour is not
      determined by the code shown. */
  datatype UnitsWorld = UnitsWorld(env: Env, chdir: string -> bool, load: string -> Option<Config>,
                                   filesExist: Units -> bool,
                                   runUnits: (nat, Units, seq<string>, bool, Option<string>, bool) -> Run)

  /** The two flag errors. Unlike the resources front end, the first one does
      not look at whether units are on. */
  function UnitsInputError(req: UnitsRequest): Option<Error> {
    if Given(req.dependencies) && |req.args| == 0 then Some(DependenciesWithoutSelection)
    else if req.units.off && |req.args| > 0 then Some(DisabledWithSelection(req.args))
    else None
  }

  /** The validators, in order: unknown `depends_on` keys, cycles, files. */
  function UnitsResults(world: UnitsWorld, m: Units): (r: seq<Outcome<Error>>)
    ensures |r| == 3
    ensures r[0].Pass? <==> CheckInvalidUnitKeys(m).Pass?
    ensures r[1].Pass? <==> Acyclic(DependencyGraph(m))
    ensures r[2].Pass? <==> world.filesExist(m)
  {
    var invalid := match CheckInvalidUnitKeys(m)
      case Pass => Pass
      case Fail(keys) => Fail(InvalidDependsOn(keys));
    [invalid, CyclesCheck(m), if world.filesExist(m) then Pass else Fail(CheckFailed(FilesExist))]
  }

  /** `execute_up_command`. The directory change happens before the file is
      read, so a relative `--file` is taken inside `--directory`. */
  function ExecuteUp(world: UnitsWorld, req: UnitsRequest): (r: Session)
    ensures r.read.None? ==> r.spawned == []
    ensures r.outcome.Pass? ==> r.read == Some(FilePath(req.file))
    ensures r.reached == []
  {
    match UnitsInputError(req)
    case Some(e) => Session(None, [], [], Fail(e))
    case None =>
      if req.directory.Some? && !world.chdir(req.directory.value) then
        Session(None, [], [], Fail(DirectoryUnavailable))
      else
        var path := FilePath(req.file);
        match world.load(path)
        case None => Session(Some(path), [], [], Fail(ConfigUnreadable))
        case Some(cfg) =>
          match FirstFailure(UnitsResults(world, cfg.units))
          case Fail(e) => Session(Some(path), [], [], Fail(e))
          case Pass => UnitsPhases(world, req, path, cfg)
  }

  /** The helm phase of the units revision: `helm_repositories` of the file,
      none when absent, added only when the option is on. */
  function UnitsHelm(world: UnitsWorld, req: UnitsRequest, cfg: Config): Run {
    if GetValue(req.helmRepositories) then
      HandleHelmRepositories(world.env, 0, cfg.helmRepositories.GetOr([]), req.dryRun)
    else Run([], Pass)
  }

  /** What follows the validators: the repositories, then the units. */
  function UnitsPhases(world: UnitsWorld, req: UnitsRequest, path: string, cfg: Config): (r: Session)
    ensures r.read == Some(path) && r.reached == []
    ensures IsPrefix(UnitsHelm(world, req, cfg).spawned, r.spawned)
    ensures !GetValue(req.units) ==> r.spawned == UnitsHelm(world, req, cfg).spawned
  {
    var helm := UnitsHelm(world, req, cfg);
    if helm.outcome.Fail? then
      Session(Some(path), [], helm.spawned, Fail(InPhase(AddingHelmRepositories, helm.outcome.error)))
    else if !GetValue(req.units) then
      Session(Some(path), [], helm.spawned, Pass)
    else
      var run := world.runUnits(|helm.spawned|, cfg.units, req.args, GetValue(req.dependencies),
                                req.kubeconfig, req.dryRun);
      Session(Some(path), [], helm.spawned + run.spawned,
              if run.outcome.Pass? then Pass else Fail(InPhase(RunningUnits, run.outcome.error)))
  }

  /** Once the validators pass, the repositories are added first, and only
      with `--helm-repositories`; when adding them fails, no unit runs and
      the error carries the helm prefix. The units phase starts after the
      repository processes, and its failure carries the units prefix. */
  lemma ExecuteUpHelmFirst(world: UnitsWorld, req: UnitsRequest)
    requires UnitsInputError(req).None?
    requires req.directory.Some? ==> world.chdir(req.directory.value)
    requires world.load(FilePath(req.file)).Some?
    requires FirstFailure(UnitsResults(world, world.load(FilePath(req.file)).value.units)).Pass?
    ensures var r := ExecuteUp(world, req);
      var cfg := world.load(FilePath(req.file)).value;
      var helm := UnitsHelm(world, req, cfg);
      && r.read == Some(FilePath(req.file))
      && IsPrefix(helm.spawned, r.spawned)
      && (!GetValue(req.helmRepositories) ==> helm == Run([], Pass))
      && (GetValue(req.helmRepositories) ==>
            helm == HandleHelmRepositories(world.env, 0, cfg.helmRepositories.GetOr([]), req.dryRun))
      && (helm.outcome.Fail? ==>
            r.spawned == helm.spawned && r.outcome == Fail(InPhase(AddingHelmRepositories, helm.outcome.error)))
      && (helm.outcome.Pass? && !GetValue(req.units) ==> r.spawned == helm.spawned && r.outcome.Pass?)
      && (helm.outcome.Pass? && GetValue(req.units) ==>
            var run := world.runUnits(|helm.spawned|, cfg.units, req.args, GetValue(req.dependencies),
                                      req.kubeconfig, req.dryRun);
            && r.spawned == helm.spawned + run.spawned
            && (r.outcome.Pass? <==> run.outcome.Pass?)
            && (r.outcome.Fail? ==> r.outcome.error == InPhase(RunningUnits, run.outcome.error)))
  {
  }


  /** The flag errors come first, then the directory change; the file is
      read only after both. A dependencies flag without arguments is an
      error even with `--no-units`, which the resources front end accepts. */
  lemma ExecuteUpFlagsFirst(world: UnitsWorld, req: UnitsRequest)
    ensures var r := ExecuteUp(world, req);
      && (r.read.Some? <==>
            UnitsInputError(req).None? && (req.directory.Some? ==> world.chdir(req.directory.value)))
      && (r.read.Some? ==> r.read.value == FilePath(req.file))
      && (Given(req.dependencies) && req.args == [] ==>
            r == Session(None, [], [], Fail(DependenciesWithoutSelection)))
      && (req.units.off && req.args != [] ==>
            r == Session(None, [], [], Fail(DisabledWithSelection(req.args))))
  {
  }

  /** Where the two front ends part ways: `--dependencies --no-units` with
      no argument is refused by one and accepted by the other. */
  lemma DependenciesFlagDiffers(up: UpWorld, units: UnitsWorld)
    ensures var deps := Flags(true, false);
      var off := Flags(false, true);
      && UnitsInputError(UnitsRequest([], None, None, None, Flags(false, false), off, deps, true))
           == Some(DependenciesWithoutSelection)
      && UpInputError(UpRequest([], None, None, Flags(false, false), off, deps, true)).None?
  {
  }

  /** No process starts before the file was loaded and all three validators
      passed on its root scope. */
  lemma ExecuteUpChecksGate(world: UnitsWorld, req: UnitsRequest)
    ensures var r := ExecuteUp(world, req);
      var loaded := world.load(FilePath(req.file));
      r.spawned != [] ==>
        && r.read.Some? && loaded.Some?
        && CheckInvalidUnitKeys(loaded.value.units).Pass?
        && Acyclic(DependencyGraph(loaded.value.units))
        && world.filesExist(loaded.value.units)
  {
    var r := ExecuteUp(world, req);
    var loaded := world.load(FilePath(req.file));
    if r.spawned != [] {
      var results := UnitsResults(world, loaded.value.units);
      assert FirstFailure(results).Pass?;
      assert results[0].Pass? && results[1].Pass? && results[2].Pass?;
    }
  }

  /** Unknown keys are reported before cycles: with known keys and a cycle
      the command stops with the cycle, having started nothing. */
  lemma ExecuteUpCycleStops(world: UnitsWorld, req: UnitsRequest)
    ensures var r := ExecuteUp(world, req);
      var loaded := world.load(FilePath(req.file));
      r.read.Some? && loaded.Some? && !Acyclic(DependencyGraph(loaded.value.units))
        && CheckInvalidUnitKeys(loaded.value.units).Pass? ==>
        r.spawned == [] && r.outcome.Fail? && r.outcome.error.DependencyCycle?
  {
    var r := ExecuteUp(world, req);
    var loaded := world.load(FilePath(req.file));
    if r.read.Some? && loaded.Some? && CheckInvalidUnitKeys(loaded.value.units).Pass? {
      var results := UnitsResults(world, loaded.value.units);
      assert FirstFailure(results) == FirstFailure(results[1..]);
    }
  }

  /** A dry run adds no repository; whatever starts, starts in the units
      phase. */
  lemma ExecuteUpDryHelm(world: UnitsWorld, req: UnitsRequest)
    requires req.dryRun
    ensures var r := ExecuteUp(world, req);
      !(r.outcome.Fail? && r.outcome.error.InPhase? && r.outcome.error.phase == AddingHelmRepositories)
    ensures var r := ExecuteUp(world, req);
      && (r.spawned != [] ==> GetValue(req.units))
      && (!GetValue(req.units) ==> r.spawned == [])
  {
    var path := FilePath(req.file);
    if UnitsInputError(req).None? && !(req.directory.Some? && !world.chdir(req.directory.value)) {
      var loaded := world.load(path);
      if loaded.Some? && FirstFailure(UnitsResults(world, loaded.value.units)).Pass? {
        DryPhases(world, req, path, loaded.value);
      }
    }
  }

  /** After the validators, a dry run goes straight to the units phase. */
  lemma DryPhases(world: UnitsWorld, req: UnitsRequest, path: string, cfg: Config)
    requires req.dryRun
    ensures var r := UnitsPhases(world, req, path, cfg);
      && !(r.outcome.Fail? && r.outcome.error.InPhase? && r.outcome.error.phase == AddingHelmRepositories)
      && (r.spawned != [] ==> GetValue(req.units))
      && (!GetValue(req.units) ==> r.spawned == [])
  {
    HandleRuns(world.env, 0, cfg.helmRepositories.GetOr([]), true);
    assert UnitsHelm(world, req, cfg) == Run([], Pass);
  }
}

=== FILE: cycles.dfy ===
/** Cycle detection over one scope's dependency map (`analyse_cycles` and
    `check_dependency_cycles`): a depth-first search that keeps the set of
    visited keys and an explicit path stack, and reports the path that
    closed a cycle. The mutable `visited` set and `stack` vector are threaded
    through as values. */
module Cycles {
  import opened Base
  import opened IndexMap
  import opened Graph

  /** The state after one call: `Fail(path)` is `Err(stack.clone())`. */
  datatype Dfs = Dfs(outcome: Outcome<seq<Key>>, visited: set<Key>, stack: seq<Key>)

  lemma NeighborsInUniverse(g: DependencyMap, k: Key)
    ensures forall n :: n in Neighbors(g, k) ==> n in Universe(g)
  {
    forall n | n in Neighbors(g, k)
      ensures n in Universe(g)
    {
      EdgeFacts(g, k, n);
    }
  }

  /** `analyse_cycles(unit_key, ..., visited, stack)`. */
  function Visit(g: DependencyMap, k: Key, visited: set<Key>, stack: seq<Key>): (r: Dfs)
    requires k in Universe(g)
    ensures visited <= r.visited
    ensures r.outcome.Pass? ==> r.stack == stack && k in r.visited
    decreases |Universe(g) - visited|, 0, 0
  {
    if k in stack then
      Dfs(Fail(stack + [k]), visited, stack + [k])
    else if k in visited then
      Dfs(Pass, visited, stack)
    else
      NeighborsInUniverse(g, k);
      ProperSubsetCard(Universe(g) - (visited + {k}), Universe(g) - visited);
      var r := VisitAll(g, Neighbors(g, k), visited + {k}, stack + [k]);
      if r.outcome.Fail? then r
      else Dfs(Pass, r.visited, r.stack[..|r.stack| - 1])
  }

  /** The `for neighbor in neighbors { analyse_cycles(neighbor, ...)? }` loop. */
  function VisitAll(g: DependencyMap, ns: seq<Key>, visited: set<Key>, stack: seq<Key>): (r: Dfs)
    requires forall n :: n in ns ==> n in Universe(g)
    ensures visited <= r.visited
    ensures r.outcome.Pass? ==> r.stack == stack
    decreases |Universe(g) - visited|, 1, |ns|
  {
    if ns == [] then
      Dfs(Pass, visited, stack)
    else
      var r := Visit(g, ns[0], visited, stack);
      if r.outcome.Fail? then r
      else
        SubsetCard(Universe(g) - r.visited, Universe(g) - visited);
        VisitAll(g, ns[1..], r.visited, r.stack)
  }

  /** The DFS invariant: every visited key that is no longer on the stack is
      finished, meaning its dependencies are finished too and no cycle can be
      reached from it. */
  ghost predicate Finished(g: DependencyMap, visited: set<Key>, stack: seq<Key>) {
    && Elems(stack) <= visited
    && forall f :: f in visited && f !in stack ==>
         && (forall n :: n in Neighbors(g, f) ==> n in visited && n !in stack)
         && !CycleReachable(g, f)
  }

  /** A walk that starts at a finished key only meets finished keys. */
  lemma {:induction false} FinishedWalk(g: DependencyMap, visited: set<Key>, stack: seq<Key>, p: seq<Key>, i: nat)
    requires Finished(g, visited, stack)
    requires IsWalk(g, p) && i < |p| && p[0] in visited && p[0] !in stack
    ensures p[i] in visited && p[i] !in stack
  {
    if i > 0 {
      FinishedWalk(g, visited, stack, p, i - 1);
      assert Edge(g, p[i - 1], p[i]);
    }
  }

  /** The facts `Finished` records about one finished key. */
  lemma FinishedAt(g: DependencyMap, visited: set<Key>, stack: seq<Key>, f: Key)
    requires Finished(g, visited, stack) && f in visited && f !in stack
    ensures forall n :: n in Neighbors(g, f) ==> n in visited && n !in stack
    ensures !CycleReachable(g, f)
  {
  }

  /** A walk whose last key also occurs at position `j` shows a cycle
      reachable from its first key. */
  lemma CycleAt(g: DependencyMap, q: seq<Key>, j: nat)
    requires IsWalk(g, q) && j < |q| - 1 && q[j] == q[|q| - 1]
    ensures CycleReachable(g, q[0])
  {
    assert q[..|q| - 1][j] == q[j];
    assert Lasso(g, q[0], q);
  }

  /** A cycle path whose repeated key is not its first key also shows a
      cycle reachable from its second key. */
  lemma CycleFromSecond(g: DependencyMap, p: seq<Key>)
    requires IsWalk(g, p) && |p| >= 2
    requires p[|p| - 1] in p[..|p| - 1] && p[|p| - 1] != p[0]
    ensures CycleReachable(g, p[1])
  {
    var j :| 0 <= j < |p| - 1 && p[..|p| - 1][j] == p[|p| - 1];
    WalkSlice(g, p, 1, |p|);
    CycleAt(g, p[1..], j - 1);
  }

  /** A key on the stack whose dependencies are all finished reaches no
      cycle. */
  lemma NoCycleThroughFinished(g: DependencyMap, visited: set<Key>, stack: seq<Key>, k: Key)
    requires Finished(g, visited, stack) && k in stack
    requires forall n :: n in Neighbors(g, k) ==> n in visited && n !in stack
    ensures !CycleReachable(g, k)
  {
    if CycleReachable(g, k) {
      var p :| Lasso(g, k, p);
      assert |p| >= 2;
      assert Edge(g, p[0], p[1]);
      var q := p[1..];
      WalkSlice(g, p, 1, |p|);
      assert q[0] == p[1] && q[|q| - 1] == p[|p| - 1];
      FinishedAt(g, visited, stack, p[1]);
      FinishedWalk(g, visited, stack, q, |q| - 1);
      CycleFromSecond(g, p);
      assert false;
    }
  }

  /** Popping `k` once all its dependencies are finished finishes `k`. */
  lemma FinishKey(g: DependencyMap, visited: set<Key>, stack: seq<Key>, k: Key)
    requires Finished(g, visited, stack + [k])
    requires forall n :: n in Neighbors(g, k) ==> n in visited && n !in stack + [k]
    ensures Finished(g, visited, stack)
  {
    NoCycleThroughFinished(g, visited, stack + [k], k);
    forall f | f in visited && f !in stack
      ensures (forall n :: n in Neighbors(g, f) ==> n in visited && n !in stack)
      ensures !CycleReachable(g, f)
    {
      if f != k {
        FinishedAt(g, visited, stack + [k], f);
      }
    }
  }

  /** `p` is a reported cycle path grown from the stack `prefix`: it extends
      the prefix, follows dependency edges, and ends on a key it already
      contains. */
  ghost predicate ClosesCycle(g: DependencyMap, prefix: seq<Key>, p: seq<Key>) {
    && IsWalk(g, p) && IsPrefix(prefix, p) && |p| > |prefix|
    && p[|p| - 1] in p[..|p| - 1]
  }

  lemma ClosesCycleShorter(g: DependencyMap, s: seq<Key>, x: Key, p: seq<Key>)
    requires ClosesCycle(g, s + [x], p)
    ensures ClosesCycle(g, s, p)
  {
    assert p[..|s|] == (s + [x])[..|s|];
  }

  /** What one call establishes: on `Ok` the key is finished and the stack is
      back to its state on entry; on `Err(path)` the path extends the entry
      stack through `k`, follows dependency edges, and ends on a key it
      already contains. */
  lemma {:induction false} VisitSpec(g: DependencyMap, k: Key, visited: set<Key>, stack: seq<Key>)
    requires k in Universe(g)
    requires Finished(g, visited, stack) && IsWalk(g, stack + [k])
    ensures var r := Visit(g, k, visited, stack);
      && (r.outcome.Pass? ==> Finished(g, r.visited, stack) && k in r.visited && k !in stack)
      && (r.outcome.Fail? ==>
            ClosesCycle(g, stack, r.outcome.error) && r.outcome.error[|stack|] == k)
    decreases |Universe(g) - visited|, 0, 0
  {
    if k in stack {
      var p := stack + [k];
      assert p[..|p| - 1] == stack;
      assert p[..|stack|] == stack;
    } else if k in visited {
    } else {
      NeighborsInUniverse(g, k);
      ProperSubsetCard(Universe(g) - (visited + {k}), Universe(g) - visited);
      var v1, s1 := visited + {k}, stack + [k];
      forall n | n in Neighbors(g, k)
        ensures IsWalk(g, s1 + [n])
      {
        WalkSnoc(g, s1, n);
      }
      VisitAllSpec(g, Neighbors(g, k), v1, s1);
      var r := VisitAll(g, Neighbors(g, k), v1, s1);
      if r.outcome.Pass? {
        FinishKey(g, r.visited, stack, k);
      } else {
        ClosesCycleShorter(g, stack, k, r.outcome.error);
        assert r.outcome.error[..|s1|] == s1;
      }
    }
  }

  /** The dependencies `ns` are all finished. */
  ghost predicate AllFinished(ns: seq<Key>, visited: set<Key>, stack: seq<Key>) {
    forall n :: n in ns ==> n in visited && n !in stack
  }

  lemma {:induction false} VisitAllSpec(g: DependencyMap, ns: seq<Key>, visited: set<Key>, stack: seq<Key>)
    requires forall n :: n in ns ==> n in Universe(g) && IsWalk(g, stack + [n])
    requires Finished(g, visited, stack)
    ensures var r := VisitAll(g, ns, visited, stack);
      && (r.outcome.Pass? ==> Finished(g, r.visited, stack) && AllFinished(ns, r.visited, stack))
      && (r.outcome.Fail? ==> ClosesCycle(g, stack, r.outcome.error))
    decreases |Universe(g) - visited|, 1, |ns|
  {
    if ns == [] {
      assert VisitAll(g, ns, visited, stack) == Dfs(Pass, visited, stack);
    } else {
      assert ns[0] in ns;
      VisitSpec(g, ns[0], visited, stack);
      var r := Visit(g, ns[0], visited, stack);
      if r.outcome.Fail? {
        assert VisitAll(g, ns, visited, stack) == r;
      } else {
        assert r.stack == stack;
        forall n | n in ns[1..]
          ensures n in Universe(g) && IsWalk(g, stack + [n])
        {
          assert n in ns;
        }
        SubsetCard(Universe(g) - r.visited, Universe(g) - visited);
        VisitAllSpec(g, ns[1..], r.visited, stack);
        var r2 := VisitAll(g, ns[1..], r.visited, stack);
        assert VisitAll(g, ns, visited, stack) == r2;
        if r2.outcome.Pass? {
          forall n | n in ns
            ensures n in r2.visited && n !in stack
          {
            if n != ns[0] {
              assert n in ns[1..];
            }
          }
        }
      }
    }
  }

  /** `analyse_cycles` from a fresh `visited` set and an empty stack, as
      `check_dependency_cycles` calls it for each key. `Ok` rules out every
      cycle reachable from the key; `Err(path)` exhibits one: the path starts
      at the key, follows dependency edges, and its last key occurs earlier
      in it. */
  lemma VisitRoot(g: DependencyMap, k: Key)
    requires HasKey(g, k)
    ensures var r := Visit(g, k, {}, []);
      && (r.outcome.Pass? <==> !CycleReachable(g, k))
      && (r.outcome.Fail? ==> IsCyclePath(g, k, r.outcome.error))
  {
    assert k in Universe(g);
    assert IsWalk(g, [] + [k]);
    VisitSpec(g, k, {}, []);
    var r := Visit(g, k, {}, []);
    if r.outcome.Fail? {
      var p := r.outcome.error;
      assert p[0] == k;
      assert Lasso(g, k, p);
    }
  }

  /** A key that is not in the map has no dependencies, so no walk leaves it. */
  lemma UnknownKeyNoCycle(g: DependencyMap, k: Key)
    requires !HasKey(g, k)
    ensures !CycleReachable(g, k)
  {
    if CycleReachable(g, k) {
      var p :| Lasso(g, k, p);
      assert Edge(g, p[0], p[1]);
      EdgeFacts(g, p[0], p[1]);
    }
  }

  /** Whether a cycle can be reached from `k`, decided by `analyse_cycles`
      from a fresh state. */
  function CycleFrom(g: DependencyMap, k: Key): (r: bool)
    ensures r <==> CycleReachable(g, k)
  {
    if HasKey(g, k) then
      VisitRoot(g, k);
      Visit(g, k, {}, []).outcome.Fail?
    else
      UnknownKeyNoCycle(g, k);
      false
  }

  /** Whether a cycle can be reached from some key of the stack `s`. */
  function ReachesCycle(g: DependencyMap, s: seq<Key>): (r: bool)
    ensures r <==> !NoCycleFrom(g, s)
  {
    if s == [] then false
    else CycleFrom(g, s[0]) || ReachesCycle(g, s[1..])
  }

  /** The shape of a reported cycle: a walk from `k` that ends on a key it
      has already visited. */
  ghost predicate IsCyclePath(g: DependencyMap, k: Key, p: seq<Key>) {
    && |p| >= 2 && p[0] == k
    && IsWalk(g, p)
    && p[|p| - 1] in p[..|p| - 1]
  }

  /** Every key of a reported cycle is a key of the map: unknown dependency
      keys have no neighbours and can never be part of one. */
  lemma CyclePathKeys(g: DependencyMap, k: Key, p: seq<Key>)
    requires IsCyclePath(g, k, p)
    ensures forall x :: x in p ==> HasKey(g, x)
  {
    forall i | 0 <= i < |p|
      ensures HasKey(g, p[i])
    {
      if i < |p| - 1 {
        assert Edge(g, p[i], p[i + 1]);
        EdgeFacts(g, p[i], p[i + 1]);
      } else {
        var j :| 0 <= j < |p| - 1 && p[j] == p[i];
        assert Edge(g, p[j], p[j + 1]);
        EdgeFacts(g, p[j], p[j + 1]);
      }
    }
  }

  /** The error of `check_dependency_cycles`: the key whose search failed and
      the cycle path it reported. */
  datatype CycleError = CycleError(key: Key, path: seq<Key>)

  /** The loop over `dependencies_by_unit_key.keys()` from position `i`. */
  function FirstCycle(g: DependencyMap, i: nat): (r: Outcome<CycleError>)
    requires i <= |g|
    decreases |g| - i
  {
    if i == |g| then Pass
    else
      assert HasKey(g, g[i].0);
      var d := Visit(g, g[i].0, {}, []);
      if d.outcome.Fail? then Fail(CycleError(g[i].0, d.outcome.error))
      else FirstCycle(g, i + 1)
  }

  /** No key at positions `i` up to `j` reaches a cycle. */
  ghost predicate NoCycleBetween(g: DependencyMap, i: nat, j: nat)
    requires j <= |g|
  {
    forall j' :: i <= j' < j ==> !CycleReachable(g, g[j'].0)
  }

  lemma {:induction false} FirstCyclePass(g: DependencyMap, i: nat)
    requires i <= |g|
    ensures FirstCycle(g, i).Pass? <==> NoCycleBetween(g, i, |g|)
    decreases |g| - i
  {
    if i < |g| {
      var k := g[i].0;
      assert HasKey(g, k);
      VisitRoot(g, k);
      FirstCyclePass(g, i + 1);
      if Visit(g, k, {}, []).outcome.Fail? {
        assert FirstCycle(g, i).Fail? && CycleReachable(g, g[i].0);
      } else {
        assert FirstCycle(g, i) == FirstCycle(g, i + 1);
        NoCycleCons(g, i, |g|);
      }
    }
  }

  /** Keys `i` up to `j` reach no cycle when key `i` does not and the keys
      after it do not. */
  lemma NoCycleCons(g: DependencyMap, i: nat, j: nat)
    requires i < j <= |g| && !CycleReachable(g, g[i].0)
    ensures NoCycleBetween(g, i, j) <==> NoCycleBetween(g, i + 1, j)
  {
  }

  /** `e` is reported for the key at `j`, the first key from `i` on that
      reaches a cycle, and its path is a cycle path from that key. */
  ghost predicate ReportedAt(g: DependencyMap, i: nat, e: CycleError, j: nat) {
    && i <= j < |g| && g[j].0 == e.key
    && CycleReachable(g, e.key) && IsCyclePath(g, e.key, e.path)
    && NoCycleBetween(g, i, j)
  }

  lemma {:induction false} FirstCycleFail(g: DependencyMap, i: nat)
    requires i <= |g| && FirstCycle(g, i).Fail?
    ensures exists j :: ReportedAt(g, i, FirstCycle(g, i).error, j)
    decreases |g| - i
  {
    assert HasKey(g, g[i].0);
    VisitRoot(g, g[i].0);
    var d := Visit(g, g[i].0, {}, []);
    var e := FirstCycle(g, i).error;
    if d.outcome.Fail? {
      assert FirstCycle(g, i) == Fail(CycleError(g[i].0, d.outcome.error));
      assert ReportedAt(g, i, e, i);
    } else {
      assert FirstCycle(g, i) == FirstCycle(g, i + 1);
      FirstCycleFail(g, i + 1);
      var j: nat :| ReportedAt(g, i + 1, e, j);
      NoCycleCons(g, i, j);
      assert ReportedAt(g, i, e, j);
    }
  }

  /** `check_dependency_cycles`: succeeds exactly when the scope is acyclic.
      On failure it names the first key, in declaration order, from which a
      cycle can be reached, every earlier key reaches none, and the reported
      path is a cycle path from that key made of keys of the map. */
  function CheckCycles(g: DependencyMap): (r: Outcome<CycleError>)
    ensures r.Pass? <==> Acyclic(g)
    ensures r.Fail? ==>
      && HasKey(g, r.error.key)
      && IsCyclePath(g, r.error.key, r.error.path)
      && (forall x :: x in r.error.path ==> HasKey(g, x))
      && var i := IndexOf(Keys(g), r.error.key);
         forall j :: 0 <= j < i ==> !CycleReachable(g, Keys(g)[j])
  {
    FirstCycleFromStart(g);
    FirstCycle(g, 0)
  }

  lemma FirstCycleFromStart(g: DependencyMap)
    ensures var r := FirstCycle(g, 0);
      && (r.Pass? <==> Acyclic(g))
      && (r.Fail? ==>
            && HasKey(g, r.error.key)
            && IsCyclePath(g, r.error.key, r.error.path)
            && (forall x :: x in r.error.path ==> HasKey(g, x))
            && var i := IndexOf(Keys(g), r.error.key);
               forall j :: 0 <= j < i ==> !CycleReachable(g, Keys(g)[j]))
  {
    FirstCyclePass(g, 0);
    AcyclicIffNoCycleReachable(g);
    var r := FirstCycle(g, 0);
    if r.Pass? {
      forall k | HasKey(g, k)
        ensures !CycleReachable(g, k)
      {
        var j := IndexOf(Keys(g), k);
        assert g[j].0 == k;
      }
    } else {
      FirstCycleFail(g, 0);
      var j: nat :| ReportedAt(g, 0, r.error, j);
      assert Keys(g)[j] == r.error.key;
      CyclePathKeys(g, r.error.key, r.error.path);
      assert IndexOf(Keys(g), r.error.key) <= j;
    }
  }

  /** A self-dependency `k -> k` listed first is reported as the path `[k, k]`. */
  lemma SelfDependency(g: DependencyMap, k: Key)
    requires HasKey(g, k) && |Neighbors(g, k)| > 0 && Neighbors(g, k)[0] == k
    ensures Visit(g, k, {}, []).outcome == Fail([k, k])
  {
    NeighborsInUniverse(g, k);
    var ns := Neighbors(g, k);
    assert {} + {k} == {k} && [] + [k] == [k] && [k] + [k] == [k, k];
    assert Visit(g, k, {k}, [k]) == Dfs(Fail([k, k]), {k}, [k, k]);
    assert VisitAll(g, ns, {k}, [k]) == Visit(g, k, {k}, [k]);
  }

  /** A dependency that is not a key of the map is a leaf: visiting it only
      marks it visited. */
  lemma UnknownKeyIsLeaf(g: DependencyMap, k: Key, visited: set<Key>, stack: seq<Key>)
    requires k in Universe(g) && !HasKey(g, k) && k !in stack && k !in visited
    ensures Visit(g, k, visited, stack) == Dfs(Pass, visited + {k}, stack)
  {
    assert Neighbors(g, k) == [];
    assert (stack + [k])[..|stack|] == stack;
  }
}

=== FILE: errors.dfy ===
/** Every way a run can stop early, across all revisions. */
module Errors {
  import opened IndexMap

  /** The validators whose source is not part of this model, named so that
      the run-level order of checks can still be stated. */
  datatype Check = KeyFormat | InvalidKeys | Cycles | FilesExist | HelmRemoteRepositories

  /** The phase prefixes the command adds to an error. */
  datatype Phase = AddingHelmRepositories | RunningResources | RunningUnits

  datatype Error =
      /** A child process exited unsuccessfully; the message is its stderr. */
    | CommandFailed(stderr: string)
      /** `helm list` could not be run or its YAML could not be read. */
    | ReleasesUnreadable
      /** The `unwrap()` on a selected key that is not in the scope: a panic. */
    | UnknownUnit
      /** A dependencies flag was given without any unit to select. */
    | DependenciesWithoutSelection
      /** Units or resources were disabled while some were selected; the
          message lists them joined with `, `. */
    | DisabledWithSelection(selection: seq<string>)
      /** `check_dependency_cycles` failed for `key` with cycle `path`. */
    | DependencyCycle(key: Key, path: seq<Key>)
      /** `check_invalid_unit_keys` failed; these keys are unknown. */
    | InvalidDependsOn(keys: set<Key>)
      /** A validator outside this model failed. */
    | CheckFailed(check: Check)
      /** The deployment file could not be read. */
    | ConfigUnreadable
      /** The deployment file is not a valid configuration. */
    | ConfigUnparsable
      /** `--directory` names a directory the process cannot change into. */
    | DirectoryUnavailable
      /** With dependencies followed, a cycle can be reached from the keys a
          scope selects: the selection loop never ends, so the program never
          finishes. */
    | SelectionDiverges
      /** An error from a later phase, with the phase's prefix. */
    | InPhase(phase: Phase, inner: Error)
}

=== FILE: filter_examples.dfy ===
/** The source's own test cases for selecting resources and units,
    restated as lemmas about the model. */
module FilterExamples {
  import opened Base
  import opened IndexMap
  import opened Graph
  import opened Format
  import opened Scheduler
  import opened SchedulerExamples

  /** `{b: [a], a, c: [b], d}`, the map of the resources filtering test. */
  function WithD(): Units {
    Unsorted() + [("d", A)]
  }

  function SortedWithD(): Units {
    Sorted() + [("d", A)]
  }

  /** `{a, b: [a], c}`, the map of the units filtering test. */
  function UnitsMap(): Units {
    [("a", A), ("b", B), ("c", A)]
  }

  lemma KeyFacts()
    ensures "d" != "a" && "d" != "b" && "d" != "c"
  {
    assert "d"[0] != "a"[0] && "d"[0] != "b"[0] && "d"[0] != "c"[0];
  }

  lemma WithDFacts()
    ensures Keys(WithD()) == ["b", "a", "c", "d"] && Keys(SortedWithD()) == ["a", "b", "c", "d"]
    ensures Get(WithD(), "a") == Some(A) && Get(WithD(), "b") == Some(B)
    ensures Get(WithD(), "c") == Some(C) && Get(WithD(), "d") == Some(A)
  {
    EntryFacts();
    KeyFacts();
    var ks := Keys(WithD());
    assert ks == ["b", "a", "c", "d"];
    assert IndexOf(ks, "b") == 0 && IndexOf(ks, "a") == 1 && IndexOf(ks, "c") == 2 && IndexOf(ks, "d") == 3;
    assert Keys(SortedWithD()) == ["a", "b", "c", "d"];
  }

  lemma SortedWithDFirst()
    ensures DistinctKeys(SortedWithD()) && DepsFirst(SortedWithD())
  {
    EntryFacts();
    KeyFacts();
    var m := SortedWithD();
    assert Keys(m) == ["a", "b", "c", "d"];
    forall i, d | 0 <= i < |m| && d in DependsOn(m[i].1)
      ensures d in Keys(m)[..i]
    {
      if i == 1 {
        assert d == "a" && Keys(m)[0] == "a";
      } else if i == 2 {
        assert d == "b" && Keys(m)[1] == "b";
      }
    }
  }

  lemma SortedWithDFacts()
    ensures Get(SortedWithD(), "a") == Some(A) && Get(SortedWithD(), "b") == Some(B)
    ensures Get(SortedWithD(), "c") == Some(C) && Get(SortedWithD(), "d") == Some(A)
  {
    EntryFacts();
    KeyFacts();
    var ks := Keys(SortedWithD());
    assert ks == ["a", "b", "c", "d"];
    assert IndexOf(ks, "a") == 0 && IndexOf(ks, "b") == 1 && IndexOf(ks, "c") == 2 && IndexOf(ks, "d") == 3;
  }

  /** Both graphs give every key the same dependencies. */
  lemma WithDNeighbors(k: Key)
    requires k in ["b", "a", "c", "d"]
    ensures Neighbors(DependencyGraph(WithD()), k) == Neighbors(DependencyGraph(SortedWithD()), k)
  {
    WithDFacts();
    SortedWithDFacts();
    GraphNeighbors(WithD(), k);
    GraphNeighbors(SortedWithD(), k);
  }

  lemma WithDSubMap()
    ensures SubMap(DependencyGraph(WithD()), DependencyGraph(SortedWithD()))
  {
    var h := DependencyGraph(WithD());
    var g := DependencyGraph(SortedWithD());
    WithDFacts();
    assert Keys(h) == Keys(WithD()) && Keys(g) == Keys(SortedWithD());
    forall k | HasKey(h, k)
      ensures HasKey(g, k) && Neighbors(h, k) == Neighbors(g, k)
    {
      WithDNeighbors(k);
    }
  }

  lemma WithDAcyclic()
    ensures Acyclic(DependencyGraph(WithD()))
  {
    SortedWithDFirst();
    DepsFirstWellFormed(SortedWithD());
    WithDSubMap();
    SubMapAcyclic(DependencyGraph(WithD()), DependencyGraph(SortedWithD()));
  }

  /** Selecting `c` in `{b: [a], a, c: [b], d}` closes over `b` and `a` and
      leaves `d` out. */
  lemma WithDClosure()
    ensures Closure(DependencyGraph(WithD()), ["c"]) == {"a", "b", "c"}
  {
    var g := DependencyGraph(WithD());
    WithDFacts();
    GraphNeighbors(WithD(), "c");
    GraphNeighbors(WithD(), "b");
    GraphNeighbors(WithD(), "a");
    EntryFacts();
    ClosureSingle(g, "c");
    ClosureSingle(g, "b");
    ClosureSingle(g, "a");
    ClosureEmpty(g);
  }

  /** In a selection whose entries come from `m` and whose dependencies come
      first, a dependency of `k`'s entry is placed before `k`. */
  lemma DependencyBefore(f: Units, m: Units, k: Key, e: Entry, d: Key)
    requires EntriesOf(f, m) && DepsFirst(f)
    requires HasKey(f, k) && Get(m, k) == Some(e) && d in DependsOn(e)
    ensures HasKey(f, d) && IndexOf(Keys(f), d) < IndexOf(Keys(f), k)
  {
    var i := IndexOf(Keys(f), k);
    assert Get(m, f[i].0) == Some(f[i].1);
    assert d in Keys(f)[..i];
    var j :| 0 <= j < i && Keys(f)[..i][j] == d;
    assert Keys(f)[j] == d;
  }

  /** A selection with three distinct keys that lists the entries of `m`
      and is the map `x` once its order is fixed. */
  lemma SelectionIs(f: Units, x: Units, m: Units)
    requires EntriesOf(f, m) && DistinctKeys(x) && |x| == |f|
    requires forall i :: 0 <= i < |x| ==> f[i].0 == x[i].0 && Get(m, x[i].0) == Some(x[i].1)
    ensures f == x
  {
    forall i | 0 <= i < |f|
      ensures f[i] == x[i]
    {
      assert Get(m, f[i].0) == Some(f[i].1);
    }
  }

  /** A selection of `{a, b, c}` without duplicates has three keys. */
  lemma ThreeKeys(f: Units)
    requires DistinctKeys(f) && KeySet(f) == {"a", "b", "c"}
    ensures |f| == 3 && "a" in Keys(f) && "b" in Keys(f) && "c" in Keys(f)
  {
    EntryFacts();
    DistinctCard(Keys(f));
    assert |{"a", "b", "c"}| == 3;
  }

  /** Three keys in strictly increasing positions fill a three-key list. */
  lemma InOrder(ks: seq<Key>, x: Key, y: Key, z: Key)
    requires |ks| == 3 && x in ks && y in ks && z in ks
    requires IndexOf(ks, x) < IndexOf(ks, y) < IndexOf(ks, z)
    ensures ks == [x, y, z]
  {
  }

  /** In a selection of `{a, b, c}` from `{b: [a], a, c: [b], d}` that
      keeps dependencies first, `a` precedes `b`, which precedes `c`. */
  lemma ResourcesPositions(f: Units)
    requires EntriesOf(f, WithD()) && DistinctKeys(f) && DepsFirst(f)
    requires KeySet(f) == {"a", "b", "c"}
    ensures Keys(f) == ["a", "b", "c"]
  {
    ThreeKeys(f);
    WithDFacts();
    EntryFacts();
    DependencyBefore(f, WithD(), "c", C, "b");
    DependencyBefore(f, WithD(), "b", B, "a");
    InOrder(Keys(f), "a", "b", "c");
  }

  /** Such a selection can only be `a, b, c`. */
  lemma ResourcesOrder(f: Units)
    requires EntriesOf(f, WithD()) && DistinctKeys(f) && DepsFirst(f)
    requires KeySet(f) == {"a", "b", "c"}
    ensures f == Sorted()
  {
    ResourcesPositions(f);
    WithDFacts();
    SortedFacts();
    assert Keys(Sorted()) == ["a", "b", "c"];
    SelectionIs(f, Sorted(), WithD());
  }

  /** `test_get_filtered_resources_returns_resources_recursively_based_on_dependencies_parameter`,
      with dependencies: `[c]` yields `a, b, c` in that order, without `d`. */
  lemma FilterWithDependenciesExample()
    ensures NoCycleFrom(DependencyGraph(WithD()), ["c"])
    ensures GetFilteredResources(WithD(), ["c"], true) == Some(Sorted())
  {
    WithDAcyclic();
    AcyclicNoCycleFrom(DependencyGraph(WithD()), ["c"]);
    WithDClosure();
    WithDFacts();
    var r := GetFilteredResources(WithD(), ["c"], true);
    assert r.Some?;
    ResourcesOrder(r.value);
  }

  lemma SingleSelection(k: Key)
    ensures Dedup(Reverse([k])) == [k]
  {
    assert Reverse([k]) == [k];
    assert AppendNew([], [k]) == AppendNew([k], []);
  }

  /** Selecting one present key without expansion yields that key's entry
      alone. */
  lemma FlatSingle(m: Units, k: Key, e: Entry)
    requires Get(m, k) == Some(e)
    ensures GetFilteredResources(m, [k], false) == Some([(k, e)])
    ensures GetFilteredUnits(m, [k], true) == Some([(k, e)])
  {
    SingleSelection(k);
    assert Keys([(k, e)]) == [k];
    assert GetFilteredResources(m, [k], false) == Some([(k, e)]) by {
      var r := GetFilteredResources(m, [k], false);
      assert r.Some? && Keys(r.value) == [k];
      SelectionIs(r.value, [(k, e)], m);
    }
    assert GetFilteredUnits(m, [k], true) == Some([(k, e)]) by {
      var u := GetFilteredUnits(m, [k], true);
      assert u.Some? && Keys(u.value) == [k];
      SelectionIs(u.value, [(k, e)], m);
    }
  }

  /** The same test without dependencies: `[c]` yields `c` alone. */
  lemma FilterWithoutDependenciesExample()
    ensures GetFilteredResources(WithD(), ["c"], false) == Some([("c", C)])
  {
    WithDFacts();
    FlatSingle(WithD(), "c", C);
  }

  lemma UnitsMapFacts()
    ensures Keys(UnitsMap()) == ["a", "b", "c"] && DistinctKeys(UnitsMap())
    ensures Get(UnitsMap(), "a") == Some(A) && Get(UnitsMap(), "b") == Some(B)
    ensures Neighbors(DependencyGraph(UnitsMap()), "a") == []
    ensures Neighbors(DependencyGraph(UnitsMap()), "b") == ["a"]
  {
    EntryFacts();
    var m := UnitsMap();
    assert Keys(m) == ["a", "b", "c"];
    assert IndexOf(Keys(m), "a") == 0 && IndexOf(Keys(m), "b") == 1;
    GraphNeighbors(m, "b");
    GraphNeighbors(m, "a");
  }

  lemma UnitsMapAcyclic()
    ensures Acyclic(DependencyGraph(UnitsMap()))
  {
    EntryFacts();
    var m := UnitsMap();
    assert Keys(m) == ["a", "b", "c"];
    forall i, d | 0 <= i < |m| && d in DependsOn(m[i].1)
      ensures d in Keys(m)[..i]
    {
      assert i == 1 && d == "a" && Keys(m)[0] == "a";
    }
    DepsFirstWellFormed(m);
  }

  lemma UnitsMapClosure()
    ensures Closure(DependencyGraph(UnitsMap()), ["b"]) == {"a", "b"}
  {
    var g := DependencyGraph(UnitsMap());
    UnitsMapFacts();
    ClosureSingle(g, "b");
    ClosureSingle(g, "a");
    ClosureEmpty(g);
  }

  /** A selection of `{a, b}` from `{a, b: [a], c}` that starts with `b` can
      only be `b, a`. */
  lemma UnitsOrder(f: Units)
    requires EntriesOf(f, UnitsMap()) && DistinctKeys(f)
    requires KeySet(f) == {"a", "b"} && |f| > 0 && Keys(f)[0] == "b"
    ensures f == [("b", B), ("a", A)]
  {
    var ks := Keys(f);
    UnitsMapFacts();
    EntryFacts();
    DistinctCard(ks);
    assert |{"a", "b"}| == 2;
    assert ks[1] in Elems(ks) && ks[1] != ks[0];
    var x := [("b", B), ("a", A)];
    assert Keys(x) == ["b", "a"];
    SelectionIs(f, x, UnitsMap());
  }

  /** `test_get_filtered_units`, with dependencies: `[b]` yields `b` and then
      the `a` it pulled in, in pop order. */
  lemma UnitsWithDependenciesExample()
    ensures NoCycleFrom(DependencyGraph(UnitsMap()), ["b"])
    ensures GetFilteredUnits(UnitsMap(), ["b"], false) == Some([("b", B), ("a", A)])
  {
    UnitsMapAcyclic();
    AcyclicNoCycleFrom(DependencyGraph(UnitsMap()), ["b"]);
    UnitsMapClosure();
    UnitsMapFacts();
    var r := GetFilteredUnits(UnitsMap(), ["b"], false);
    assert r.Some?;
    UnitsPopOrder(UnitsMap(), ["b"]);
    UnitsOrder(r.value);
  }

  /** The same test with `skip_dependencies`: `[b]` yields `b` alone. */
  lemma UnitsWithoutDependenciesExample()
    ensures GetFilteredUnits(UnitsMap(), ["b"], true) == Some([("b", B)])
  {
    UnitsMapFacts();
    FlatSingle(UnitsMap(), "b", B);
  }
}

=== FILE: format.dfy ===
/** The deployment file's data model (the current design, with groups): an
    ordered map from unit key to a unit and its optional `depends_on` list. */
module Format {
  import opened Base
  import opened IndexMap
  import opened Graph
  import opened Cycles
  import opened Validate

  /** One deployable item. `Group` nests a whole scope of its own. */
  datatype Unit =
    | Noop(noop: string)
    | Shell(input: string)
    | Manifest(path: string)
    | HelmRemote(name: string, namespace: string, chartName: string, chartVersion: string,
                 values: Option<seq<string>>)
    | HelmLocal(name: string, namespace: string, chartPath: string, values: Option<seq<string>>)
    | Group(children: seq<(Key, Entry)>)

  /** A unit with the keys it depends on (`ResourceWithDepdencies`). */
  datatype Entry = Entry(unit: Unit, dependsOn: Option<seq<Key>>)

  /** One scope: the root `units`/`resources` map or a group's contents. */
  type Units = OrderedMap<Entry>

  datatype HelmRepository = HelmRepository(name: string, url: string)

  /** The deserialized deployment file; `helmRepositories` is `None` when the
      file has no repositories section. */
  datatype Config = Config(helmRepositories: Option<seq<HelmRepository>>, units: Units)

  /** `depends_on.clone().unwrap_or(Vec::new())`. */
  function DependsOn(e: Entry): seq<Key> {
    e.dependsOn.GetOr([])
  }

  /** `dependencies_by_unit_key`: the scope's keys, in order, each with its
      dependency list. */
  function DependencyGraph(m: Units): (g: DependencyMap)
    ensures Keys(g) == Keys(m)
    ensures forall i :: 0 <= i < |m| ==> g[i].1 == DependsOn(m[i].1)
  {
    var g := seq(|m|, i requires 0 <= i < |m| => (m[i].0, DependsOn(m[i].1)));
    assert Keys(g) == Keys(m);
    g
  }

  /** The graph's neighbours of a key are the `depends_on` of the entry the
      key maps to. */
  lemma GraphNeighbors(m: Units, k: Key)
    ensures Neighbors(DependencyGraph(m), k) == if HasKey(m, k) then DependsOn(Get(m, k).value) else []
  {
    var g := DependencyGraph(m);
    assert Keys(g) == Keys(m);
  }

  /** The scope has no nested groups (units of the revisions without `Group`). */
  predicate NoGroups(m: Units) {
    forall i :: 0 <= i < |m| ==> !m[i].1.unit.Group?
  }

  /** Every entry of `f` is the entry its key has in `m`. */
  ghost predicate EntriesOf(f: Units, m: Units) {
    forall i :: 0 <= i < |f| ==> Get(m, f[i].0) == Some(f[i].1)
  }

  /** Inserting an entry taken from `m` keeps a map made of `m`'s entries. */
  lemma InsertEntriesOf(f: Units, m: Units, k: Key, e: Entry)
    requires EntriesOf(f, m) && Get(m, k) == Some(e)
    ensures EntriesOf(Insert(f, k, e), m)
  {
    var r := Insert(f, k, e);
    forall i | 0 <= i < |r|
      ensures Get(m, r[i].0) == Some(r[i].1)
    {
      if i < |f| && f[i].0 != k {
      } else {
        assert r[i].0 == k;
      }
    }
  }

  /** Inserting the value a key already has changes nothing. */
  lemma InsertPresent(f: Units, k: Key, e: Entry)
    requires DistinctKeys(f) && Get(f, k) == Some(e)
    ensures Insert(f, k, e) == f
  {
    var i := IndexOf(Keys(f), k);
    GetAt(f, i);
  }

  /** A scope assembled from entries of `m` has a sub-graph of `m`'s. */
  lemma EntriesOfSubMap(f: Units, m: Units)
    requires DistinctKeys(f) && EntriesOf(f, m)
    ensures SubMap(DependencyGraph(f), DependencyGraph(m))
  {
    forall k | HasKey(DependencyGraph(f), k)
      ensures HasKey(DependencyGraph(m), k)
      ensures Neighbors(DependencyGraph(f), k) == Neighbors(DependencyGraph(m), k)
    {
      var i := IndexOf(Keys(f), k);
      GetAt(f, i);
      GraphNeighbors(f, k);
      GraphNeighbors(m, k);
    }
  }

  /** `check_dependency_cycles` (libm8s/src/file_format.rs): passes exactly
      when the scope's `depends_on` graph is acyclic; otherwise it names a key
      of the scope and a cycle path from it made of keys of the scope. */
  function CheckDependencyCycles(units: Units): (r: Outcome<CycleError>)
    ensures r.Pass? <==> Acyclic(DependencyGraph(units))
    ensures r.Fail? ==>
      && HasKey(units, r.error.key)
      && IsCyclePath(DependencyGraph(units), r.error.key, r.error.path)
      && forall x :: x in r.error.path ==> HasKey(units, x)
  {
    CheckCycles(DependencyGraph(units))
  }

  /** `d` is named in some `depends_on` of the scope but is not one of its
      keys. */
  ghost predicate DanglingDependency(units: Units, d: Key) {
    && (exists i :: 0 <= i < |units| && d in DependsOn(units[i].1))
    && !HasKey(units, d)
  }

  /** `check_invalid_unit_keys` (libm8s/src/file_format.rs): fails exactly
      when some `depends_on` entry is not a key of the same scope, and then
      reports exactly those keys, as a set. */
  function CheckInvalidUnitKeys(units: Units): (r: Outcome<set<Key>>)
    ensures r.Pass? <==> forall i, d :: 0 <= i < |units| && d in DependsOn(units[i].1) ==> HasKey(units, d)
    ensures r.Fail? ==> r.error != {} && forall d :: d in r.error <==> DanglingDependency(units, d)
  {
    var g := DependencyGraph(units);
    var r := CheckInvalidKeys(g);
    assert forall d :: InvalidKey(g, d) <==> DanglingDependency(units, d);
    r
  }

  /** The check looks at one scope only: a group whose children depend on a
      key that exists nowhere still passes. The units revision's `Unit` has
      no group variant, so no units file gives this input; it is built here
      on the shared type to show the check does not descend. The
      group-aware `check_invalid_resource_keys` of the resources revision is
      not part of this model. */
  lemma InvalidKeysOneLevel()
    ensures var child := Entry(Noop(""), Some(["missing"]));
      CheckInvalidUnitKeys([("g", Entry(Group([("x", child)]), None))]).Pass?
  {
  }
}

=== FILE: graph.dfy ===
/** The dependency relation of one scope, as the source builds it before
    every graph algorithm: each unit key with its `depends_on` list
    (`dependencies_by_unit_key`). Walks, reachability, acyclicity and the
    ranking that makes the stack-based algorithms terminate are defined here
    once. */
module Graph {
  import opened Base
  import opened IndexMap

  type DependencyMap = OrderedMap<seq<Key>>

  /** The declared dependencies of `k`; a key missing from the map has none
      (`if let Some(neighbors) = ...get(unit_key)`). */
  function Neighbors(g: DependencyMap, k: Key): seq<Key> {
    match Get(g, k)
    case Some(ns) => ns
    case None => []
  }

  /** `a` depends on `b`. */
  predicate Edge(g: DependencyMap, a: Key, b: Key) {
    b in Neighbors(g, a)
  }

  /** Every key that occurs in the map, as a key or as a dependency. */
  function Universe(g: DependencyMap): set<Key> {
    KeySet(g) + set i, d | 0 <= i < |g| && d in g[i].1 :: d
  }

  /** Every dependency names a key of the same map. */
  predicate DepsClosed(g: DependencyMap) {
    forall i :: 0 <= i < |g| ==> forall d :: d in g[i].1 ==> HasKey(g, d)
  }

  /** Consecutive elements of `p` are dependency edges. */
  ghost predicate IsWalk(g: DependencyMap, p: seq<Key>) {
    forall i :: 0 <= i < |p| - 1 ==> Edge(g, p[i], p[i + 1])
  }

  /** No walk of at least one edge returns to where it started. */
  ghost predicate Acyclic(g: DependencyMap) {
    forall p :: IsWalk(g, p) && |p| >= 2 ==> p[0] != p[|p| - 1]
  }

  /** `b` can be reached from `a` by following at least one edge. */
  ghost predicate Reachable(g: DependencyMap, a: Key, b: Key) {
    exists p :: IsWalk(g, p) && |p| >= 2 && p[0] == a && p[|p| - 1] == b
  }

  /** Some walk from `k` revisits a key: a cycle can be reached from `k`. */
  ghost predicate CycleReachable(g: DependencyMap, k: Key) {
    exists p :: Lasso(g, k, p)
  }

  /** A walk from `k` that ends on a key it has already visited. */
  ghost predicate Lasso(g: DependencyMap, k: Key, p: seq<Key>) {
    IsWalk(g, p) && |p| >= 1 && p[0] == k && p[|p| - 1] in p[..|p| - 1]
  }

  /** `x` is a selected key or can be reached from one. */
  ghost predicate InClosure(g: DependencyMap, s: seq<Key>, x: Key) {
    exists p :: IsWalk(g, p) && |p| >= 1 && p[0] in s && p[|p| - 1] == x
  }

  /** The selection `s` closed under `depends_on`. */
  ghost function Closure(g: DependencyMap, s: seq<Key>): set<Key> {
    set x | x in Elems(s) + Universe(g) && InClosure(g, s, x)
  }

  /** `h` describes some of the keys of `g`, with the same dependencies. */
  ghost predicate SubMap(h: DependencyMap, g: DependencyMap) {
    forall k :: HasKey(h, k) ==> HasKey(g, k) && Neighbors(h, k) == Neighbors(g, k)
  }

  lemma EdgeFacts(g: DependencyMap, a: Key, b: Key)
    requires Edge(g, a, b)
    ensures HasKey(g, a) && b in Universe(g)
  {
    var i := IndexOf(Keys(g), a);
    assert b in g[i].1;
  }

  /** The last key of a walk is its first key or the target of an edge. */
  lemma WalkEnd(g: DependencyMap, p: seq<Key>)
    requires IsWalk(g, p) && |p| >= 1
    ensures p[|p| - 1] == p[0] || p[|p| - 1] in Universe(g)
  {
    if |p| > 1 {
      assert Edge(g, p[|p| - 2], p[|p| - 1]);
      EdgeFacts(g, p[|p| - 2], p[|p| - 1]);
    }
  }

  lemma WalkCons(g: DependencyMap, k: Key, q: seq<Key>)
    requires IsWalk(g, q) && |q| >= 1 && Edge(g, k, q[0])
    ensures IsWalk(g, [k] + q)
  {
    var p := [k] + q;
    forall i | 0 <= i < |p| - 1
      ensures Edge(g, p[i], p[i + 1])
    {
      if i > 0 {
        assert p[i] == q[i - 1] && p[i + 1] == q[i];
      }
    }
  }

  lemma WalkSnoc(g: DependencyMap, p: seq<Key>, x: Key)
    requires IsWalk(g, p) && |p| >= 1 && Edge(g, p[|p| - 1], x)
    ensures IsWalk(g, p + [x])
  {
    var q := p + [x];
    forall i | 0 <= i < |q| - 1
      ensures Edge(g, q[i], q[i + 1])
    {
      if i < |p| - 1 {
        assert q[i] == p[i] && q[i + 1] == p[i + 1];
      }
    }
  }

  lemma WalkSlice(g: DependencyMap, p: seq<Key>, a: nat, b: nat)
    requires IsWalk(g, p) && a <= b <= |p|
    ensures IsWalk(g, p[a..b])
  {
    var q := p[a..b];
    forall i | 0 <= i < |q| - 1
      ensures Edge(g, q[i], q[i + 1])
    {
      assert q[i] == p[a + i] && q[i + 1] == p[a + i + 1];
    }
  }

  /** A walk whose last key repeats an earlier one ends in a closed walk. */
  lemma RepeatIsCycle(g: DependencyMap, p: seq<Key>, j: nat)
    requires IsWalk(g, p) && j < |p| - 1 && p[j] == p[|p| - 1]
    ensures !Acyclic(g)
  {
    WalkSlice(g, p, j, |p|);
    var q := p[j..];
    assert q[0] == q[|q| - 1];
  }

  /** Acyclicity, restated key by key: no key reaches a cycle. */
  lemma AcyclicIffNoCycleReachable(g: DependencyMap)
    ensures Acyclic(g) <==> forall k :: HasKey(g, k) ==> !CycleReachable(g, k)
  {
    forall k | HasKey(g, k) && CycleReachable(g, k)
      ensures !Acyclic(g)
    {
      var p :| IsWalk(g, p) && |p| >= 1 && p[0] == k && p[|p| - 1] in p[..|p| - 1];
      var j :| 0 <= j < |p| - 1 && p[j] == p[|p| - 1];
      RepeatIsCycle(g, p, j);
    }
    if !Acyclic(g) {
      var p :| IsWalk(g, p) && |p| >= 2 && p[0] == p[|p| - 1];
      assert Edge(g, p[0], p[1]);
      EdgeFacts(g, p[0], p[1]);
      assert p[|p| - 1] in p[..|p| - 1];
      assert Lasso(g, p[0], p);
    }
  }

  lemma SubMapEdge(h: DependencyMap, g: DependencyMap, a: Key, b: Key)
    requires SubMap(h, g) && Edge(h, a, b)
    ensures Edge(g, a, b)
  {
    EdgeFacts(h, a, b);
  }

  /** Dropping keys (with their dependency lists) cannot create a cycle. */
  lemma SubMapAcyclic(h: DependencyMap, g: DependencyMap)
    requires SubMap(h, g) && Acyclic(g)
    ensures Acyclic(h)
  {
    forall p | IsWalk(h, p) && |p| >= 2
      ensures p[0] != p[|p| - 1]
    {
      forall i | 0 <= i < |p| - 1
        ensures Edge(g, p[i], p[i + 1])
      {
        SubMapEdge(h, g, p[i], p[i + 1]);
      }
      assert IsWalk(g, p);
    }
  }

  /** The keys reachable from `k` in one or more steps. */
  ghost function ReachSet(g: DependencyMap, k: Key): set<Key> {
    set x | x in Universe(g) && Reachable(g, k, x)
  }

  /** A measure that every dependency edge strictly decreases in an acyclic
      map. */
  ghost function Rank(g: DependencyMap, k: Key): nat {
    |ReachSet(g, k)|
  }

  /** No cycle can be reached from any key of the stack `s`: the condition
      under which the stack loops without a visited set end. */
  ghost predicate NoCycleFrom(g: DependencyMap, s: seq<Key>) {
    forall k :: k in s ==> !CycleReachable(g, k)
  }

  /** A key without dependencies reaches no cycle: no walk leaves it. */
  lemma LeafNoCycle(g: DependencyMap, k: Key)
    requires Neighbors(g, k) == []
    ensures !CycleReachable(g, k)
  {
    assert forall p :: Lasso(g, k, p) ==> Edge(g, p[0], p[1]);
  }

  /** In an acyclic map no key at all reaches a cycle. */
  lemma AcyclicNoCycle(g: DependencyMap, k: Key)
    requires Acyclic(g)
    ensures !CycleReachable(g, k)
  {
    if CycleReachable(g, k) {
      var p :| IsWalk(g, p) && |p| >= 1 && p[0] == k && p[|p| - 1] in p[..|p| - 1];
      var j :| 0 <= j < |p| - 1 && p[j] == p[|p| - 1];
      RepeatIsCycle(g, p, j);
    }
  }

  lemma AcyclicNoCycleFrom(g: DependencyMap, s: seq<Key>)
    requires Acyclic(g)
    ensures NoCycleFrom(g, s)
  {
    forall k | k in s
      ensures !CycleReachable(g, k)
    {
      AcyclicNoCycle(g, k);
    }
  }

  /** A walk in front of a lasso makes a lasso from the walk's start. */
  lemma {:induction false} LassoJoin(g: DependencyMap, q: seq<Key>, p: seq<Key>)
    requires IsWalk(g, q) && |q| >= 1 && Lasso(g, q[|q| - 1], p)
    ensures CycleReachable(g, q[0])
  {
    WalkJoin(g, q, p);
    var w := q + p[1..];
    var j :| 0 <= j < |p| - 1 && p[j] == p[|p| - 1];
    assert w[|w| - 1] == p[|p| - 1];
    assert w[|q| - 1 + j] == p[j];
    assert w[..|w| - 1][|q| - 1 + j] == w[|q| - 1 + j];
    assert Lasso(g, q[0], w);
  }

  /** Following an edge from a key that reaches no cycle leads to a key that
      reaches none either. */
  lemma EdgeNoCycle(g: DependencyMap, k: Key, d: Key)
    requires !CycleReachable(g, k) && Edge(g, k, d)
    ensures !CycleReachable(g, d)
  {
    if CycleReachable(g, d) {
      var p :| Lasso(g, d, p);
      assert IsWalk(g, [k, d]);
      LassoJoin(g, [k, d], p);
    }
  }

  /** An edge out of a key that reaches no cycle strictly lowers the rank. */
  lemma {:induction false} RankDecreasesFrom(g: DependencyMap, k: Key, d: Key)
    requires !CycleReachable(g, k) && Edge(g, k, d)
    ensures Rank(g, d) < Rank(g, k)
  {
    EdgeFacts(g, k, d);
    forall x | x in ReachSet(g, d)
      ensures x in ReachSet(g, k)
    {
      var p :| IsWalk(g, p) && |p| >= 2 && p[0] == d && p[|p| - 1] == x;
      WalkCons(g, k, p);
      assert ([k] + p)[|[k] + p| - 1] == x;
    }
    assert IsWalk(g, [k, d]);
    assert d in ReachSet(g, k);
    EdgeNoCycle(g, k, d);
    forall p | IsWalk(g, p) && |p| >= 2 && p[0] == d
      ensures p[|p| - 1] != d
    {
      assert p[|p| - 1] == d ==> p[|p| - 1] in p[..|p| - 1] && Lasso(g, d, p);
    }
    ProperSubsetCard(ReachSet(g, d), ReachSet(g, k));
  }

  lemma RankDecreases(g: DependencyMap, k: Key, d: Key)
    requires Acyclic(g) && Edge(g, k, d)
    ensures Rank(g, d) < Rank(g, k)
  {
    AcyclicNoCycle(g, k);
    RankDecreasesFrom(g, k, d);
  }

  /** The number of pops an explicit stack makes when it expands `k` and,
      without remembering what it has seen, every dependency below it. */
  ghost function Work(g: DependencyMap, k: Key): nat
    requires !CycleReachable(g, k)
    decreases Rank(g, k), 1, 0
  {
    1 + SumWork(g, k, Neighbors(g, k))
  }

  ghost function SumWork(g: DependencyMap, parent: Key, ks: seq<Key>): nat
    requires !CycleReachable(g, parent)
    requires forall x :: x in ks ==> Edge(g, parent, x)
    decreases Rank(g, parent), 0, |ks|
  {
    if ks == [] then 0
    else
      RankDecreasesFrom(g, parent, ks[0]);
      EdgeNoCycle(g, parent, ks[0]);
      Work(g, ks[0]) + SumWork(g, parent, ks[1..])
  }

  /** The pops still owed for a whole stack (top of the stack last). */
  ghost function StackWork(g: DependencyMap, s: seq<Key>): nat
    requires NoCycleFrom(g, s)
  {
    if s == [] then 0 else StackWork(g, s[..|s| - 1]) + Work(g, s[|s| - 1])
  }

  lemma {:induction false} StackWorkAppend(g: DependencyMap, a: seq<Key>, b: seq<Key>)
    requires NoCycleFrom(g, a) && NoCycleFrom(g, b)
    ensures NoCycleFrom(g, a + b)
    ensures StackWork(g, a + b) == StackWork(g, a) + StackWork(g, b)
    decreases |b|
  {
    if b != [] {
      assert (a + b)[..|a + b| - 1] == a + b[..|b| - 1];
      StackWorkAppend(g, a, b[..|b| - 1]);
    } else {
      assert a + b == a;
    }
  }

  /** The dependencies of a key that reaches no cycle reach none either. */
  lemma NeighborsNoCycle(g: DependencyMap, k: Key)
    requires !CycleReachable(g, k)
    ensures NoCycleFrom(g, Neighbors(g, k))
  {
    forall d | d in Neighbors(g, k)
      ensures !CycleReachable(g, d)
    {
      EdgeNoCycle(g, k, d);
    }
  }

  lemma {:induction false} SumWorkIsStackWork(g: DependencyMap, parent: Key, ks: seq<Key>)
    requires !CycleReachable(g, parent)
    requires forall x :: x in ks ==> Edge(g, parent, x)
    ensures NoCycleFrom(g, ks)
    ensures SumWork(g, parent, ks) == StackWork(g, ks)
    decreases |ks|
  {
    if ks != [] {
      SumWorkIsStackWork(g, parent, ks[1..]);
      EdgeNoCycle(g, parent, ks[0]);
      StackWorkAppend(g, [ks[0]], ks[1..]);
      assert [ks[0]] + ks[1..] == ks;
      assert [ks[0]][..0] == [];
    }
  }

  /** Popping the top key and pushing its dependencies keeps every key on the
      stack clear of cycles and costs exactly one unit of work: the measure
      of the closure loops. */
  lemma PopWork(g: DependencyMap, s: seq<Key>)
    requires NoCycleFrom(g, s) && |s| > 0
    ensures NoCycleFrom(g, s[..|s| - 1] + Neighbors(g, s[|s| - 1]))
    ensures StackWork(g, s[..|s| - 1] + Neighbors(g, s[|s| - 1])) + 1 == StackWork(g, s)
  {
    var k := s[|s| - 1];
    NeighborsNoCycle(g, k);
    StackWorkAppend(g, s[..|s| - 1], Neighbors(g, k));
    SumWorkIsStackWork(g, k, Neighbors(g, k));
  }

  lemma ClosureAppend(g: DependencyMap, a: seq<Key>, b: seq<Key>)
    ensures Closure(g, a + b) == Closure(g, a) + Closure(g, b)
  {
    forall x | x in Closure(g, a + b)
      ensures x in Closure(g, a) + Closure(g, b)
    {
      var p :| IsWalk(g, p) && |p| >= 1 && p[0] in a + b && p[|p| - 1] == x;
      WalkEnd(g, p);
      if p[0] in a {
        assert InClosure(g, a, x);
        assert x in Closure(g, a);
      } else {
        assert InClosure(g, b, x);
        assert x in Closure(g, b);
      }
    }
    forall x | x in Closure(g, a) + Closure(g, b)
      ensures x in Closure(g, a + b)
    {
      if x in Closure(g, a) {
        var p :| IsWalk(g, p) && |p| >= 1 && p[0] in a && p[|p| - 1] == x;
        assert p[0] in a + b;
      } else {
        var p :| IsWalk(g, p) && |p| >= 1 && p[0] in b && p[|p| - 1] == x;
        assert p[0] in a + b;
      }
    }
  }

  lemma ClosureSingleSub(g: DependencyMap, k: Key)
    ensures Closure(g, [k]) <= {k} + Closure(g, Neighbors(g, k))
  {
    forall x | x in Closure(g, [k])
      ensures x in {k} + Closure(g, Neighbors(g, k))
    {
      var p :| IsWalk(g, p) && |p| >= 1 && p[0] in [k] && p[|p| - 1] == x;
      if |p| > 1 {
        assert Edge(g, p[0], p[1]);
        WalkSlice(g, p, 1, |p|);
        var q := p[1..];
        assert q[0] in Neighbors(g, k) && q[|q| - 1] == x;
        assert InClosure(g, Neighbors(g, k), x);
        WalkEnd(g, p);
      }
    }
  }

  lemma ClosureSingleSup(g: DependencyMap, k: Key)
    ensures {k} + Closure(g, Neighbors(g, k)) <= Closure(g, [k])
  {
    assert IsWalk(g, [k]);
    assert InClosure(g, [k], k);
    forall x | x in Closure(g, Neighbors(g, k))
      ensures x in Closure(g, [k])
    {
      var q :| IsWalk(g, q) && |q| >= 1 && q[0] in Neighbors(g, k) && q[|q| - 1] == x;
      WalkCons(g, k, q);
      var p := [k] + q;
      assert p[0] in [k] && p[|p| - 1] == x;
      assert InClosure(g, [k], x);
      WalkEnd(g, p);
    }
  }

  /** What one key contributes to the closure: itself, and the closure of
      its dependencies. */
  lemma ClosureSingle(g: DependencyMap, k: Key)
    ensures Closure(g, [k]) == {k} + Closure(g, Neighbors(g, k))
  {
    ClosureSingleSub(g, k);
    ClosureSingleSup(g, k);
  }

  /** The closure of one key together with the rest of a stack. */
  lemma ClosurePop(g: DependencyMap, s: seq<Key>)
    requires |s| > 0
    ensures Closure(g, s) == Closure(g, s[..|s| - 1]) + {s[|s| - 1]} + Closure(g, Neighbors(g, s[|s| - 1]))
  {
    assert s == s[..|s| - 1] + [s[|s| - 1]];
    ClosureAppend(g, s[..|s| - 1], [s[|s| - 1]]);
    ClosureSingle(g, s[|s| - 1]);
  }

  lemma ClosureEmpty(g: DependencyMap)
    ensures Closure(g, []) == {}
  {
  }

  /** Two walks joined where the first ends and the second starts. */
  lemma {:induction false} WalkJoin(g: DependencyMap, q: seq<Key>, p: seq<Key>)
    requires IsWalk(g, q) && IsWalk(g, p) && |q| >= 1 && |p| >= 1 && q[|q| - 1] == p[0]
    ensures IsWalk(g, q + p[1..])
    decreases |p|
  {
    if |p| > 1 {
      assert Edge(g, p[0], p[1]);
      WalkSnoc(g, q, p[1]);
      WalkSlice(g, p, 1, |p|);
      WalkJoin(g, q + [p[1]], p[1..]);
      assert (q + [p[1]]) + p[1..][1..] == q + p[1..];
    } else {
      assert q + p[1..] == q;
    }
  }

  /** A key in the closure of a stack that reaches no cycle reaches none
      either: a cycle below it would be reachable from the stack. */
  lemma ClosureNoCycle(g: DependencyMap, s: seq<Key>, x: Key)
    requires NoCycleFrom(g, s) && x in Closure(g, s)
    ensures !CycleReachable(g, x)
  {
    if CycleReachable(g, x) {
      var q :| IsWalk(g, q) && |q| >= 1 && q[0] in s && q[|q| - 1] == x;
      var p :| Lasso(g, x, p);
      LassoJoin(g, q, p);
    }
  }

  /** A map whose keys all lie in the closure of a stack that reaches no
      cycle, with the dependencies `g` gives them, is acyclic. */
  lemma ClosureSubMapAcyclic(h: DependencyMap, g: DependencyMap, s: seq<Key>)
    requires NoCycleFrom(g, s) && SubMap(h, g)
    requires forall k :: HasKey(h, k) ==> k in Closure(g, s)
    ensures Acyclic(h)
  {
    forall p | IsWalk(h, p) && |p| >= 2
      ensures p[0] != p[|p| - 1]
    {
      forall i | 0 <= i < |p| - 1
        ensures Edge(g, p[i], p[i + 1])
      {
        SubMapEdge(h, g, p[i], p[i + 1]);
      }
      assert Edge(h, p[0], p[1]);
      EdgeFacts(h, p[0], p[1]);
      ClosureNoCycle(g, s, p[0]);
      assert p[0] == p[|p| - 1] ==> p[|p| - 1] in p[..|p| - 1] && Lasso(g, p[0], p);
    }
  }
}

=== FILE: helm_repositories.dfy ===
/** `handle_helm_repositories` (src/helm_repositories.rs): for each
    repository in order, `helm repo add <name> <url>` and then
    `helm repo update <name>`, stopping at the first command that fails. */
module HelmRepositories {
  import opened Base
  import opened Errors
  import opened Process
  import opened Format

  function AddCommand(repo: HelmRepository): Command {
    Command("helm", ["repo", "add", repo.name, repo.url], None)
  }

  function UpdateCommand(repo: HelmRepository): Command {
    Command("helm", ["repo", "update", repo.name], None)
  }

  /** The commands of all repositories, in order. */
  function RepoCommands(repos: seq<HelmRepository>): (r: seq<Command>)
    ensures |r| == 2 * |repos|
    decreases |repos|
  {
    if repos == [] then []
    else [AddCommand(repos[0]), UpdateCommand(repos[0])] + RepoCommands(repos[1..])
  }

  /** Repository `i` contributes commands `2i` (add) and `2i + 1` (update). */
  lemma {:induction false} RepoCommandsShape(repos: seq<HelmRepository>)
    ensures forall i :: 0 <= i < |repos| ==>
      RepoCommands(repos)[2 * i] == AddCommand(repos[i]) && RepoCommands(repos)[2 * i + 1] == UpdateCommand(repos[i])
    decreases |repos|
  {
    if repos != [] {
      RepoCommandsShape(repos[1..]);
      var r := RepoCommands(repos);
      var rest := RepoCommands(repos[1..]);
      assert r == [AddCommand(repos[0]), UpdateCommand(repos[0])] + rest;
      forall i | 1 <= i < |repos|
        ensures r[2 * i] == AddCommand(repos[i]) && r[2 * i + 1] == UpdateCommand(repos[i])
      {
        assert r[2 * i] == rest[2 * (i - 1)] && r[2 * i + 1] == rest[2 * (i - 1) + 1];
        assert repos[1..][i - 1] == repos[i];
      }
    }
  }

  /** One iteration of the `for` loop: `helm repo add`, then, if it
      succeeded, `helm repo update`. */
  function HandleRepository(env: Env, t: nat, repo: HelmRepository, dryRun: bool): Run {
    var add := RunCommand(env, t, AddCommand(repo), dryRun);
    if add.outcome.Fail? then add
    else
      var update := RunCommand(env, t + |add.spawned|, UpdateCommand(repo), dryRun);
      Run(add.spawned + update.spawned, update.outcome)
  }

  /** An iteration runs its two commands as a sequence. */
  lemma RepositoryIsSequence(env: Env, t: nat, repo: HelmRepository, dryRun: bool)
    ensures HandleRepository(env, t, repo, dryRun) == RunSequence(env, t, [AddCommand(repo), UpdateCommand(repo)], dryRun)
  {
    var cmds := [AddCommand(repo), UpdateCommand(repo)];
    var add := RunCommand(env, t, AddCommand(repo), dryRun);
    assert cmds[0] == AddCommand(repo) && cmds[1..] == [UpdateCommand(repo)];
    if add.outcome.Pass? {
      var update := RunCommand(env, t + |add.spawned|, UpdateCommand(repo), dryRun);
      assert [UpdateCommand(repo)][1..] == [];
      assert RunSequence(env, t + |add.spawned|, cmds[1..], dryRun) == Run(update.spawned + [], update.outcome);
      assert update.spawned + [] == update.spawned;
    }
  }

  /** The `for` loop with its two `...?` calls; `dryRun` goes unchanged to
      every call. */
  function HandleHelmRepositories(env: Env, t: nat, repos: seq<HelmRepository>, dryRun: bool): (r: Run)
    ensures |r.spawned| <= 2 * |repos|
    ensures r.outcome.Fail? ==> r.outcome.error.CommandFailed?
    decreases |repos|
  {
    if repos == [] then Run([], Pass)
    else
      var first := HandleRepository(env, t, repos[0], dryRun);
      if first.outcome.Fail? then first
      else
        var rest := HandleHelmRepositories(env, t + |first.spawned|, repos[1..], dryRun);
        Run(first.spawned + rest.spawned, rest.outcome)
  }

  /** The loop runs exactly the command list, one command after another,
      stopping at the first failure. */
  lemma {:induction false} HandleIsSequence(env: Env, t: nat, repos: seq<HelmRepository>, dryRun: bool)
    ensures HandleHelmRepositories(env, t, repos, dryRun) == RunSequence(env, t, RepoCommands(repos), dryRun)
    decreases |repos|
  {
    if repos != [] {
      var pair := [AddCommand(repos[0]), UpdateCommand(repos[0])];
      var first := HandleRepository(env, t, repos[0], dryRun);
      RepositoryIsSequence(env, t, repos[0], dryRun);
      assert RepoCommands(repos) == pair + RepoCommands(repos[1..]);
      SequenceAppend(env, t, pair, RepoCommands(repos[1..]), dryRun);
      if first.outcome.Pass? {
        HandleIsSequence(env, t + |first.spawned|, repos[1..], dryRun);
      }
    }
  }

  /** No repositories or a dry run start nothing and succeed; otherwise the
      commands start in order, all of them when the run succeeds. */
  lemma HandleRuns(env: Env, t: nat, repos: seq<HelmRepository>, dryRun: bool)
    ensures var r := HandleHelmRepositories(env, t, repos, dryRun);
      && (repos == [] || dryRun ==> r == Run([], Pass))
      && (!dryRun ==> IsPrefix(r.spawned, RepoCommands(repos)))
      && (!dryRun && r.outcome.Pass? ==> r.spawned == RepoCommands(repos))
  {
    HandleIsSequence(env, t, repos, dryRun);
    if dryRun {
      SequenceDry(env, t, RepoCommands(repos));
    } else {
      SequencePrefix(env, t, RepoCommands(repos));
    }
  }

  /** A failure is the last command started exiting unsuccessfully, and its
      stderr is the error. */
  lemma HandleFailure(env: Env, t: nat, repos: seq<HelmRepository>, dryRun: bool)
    ensures var r := HandleHelmRepositories(env, t, repos, dryRun);
      var cmds := RepoCommands(repos);
      r.outcome.Fail? ==>
        var n := |r.spawned|;
        && 0 < n <= |cmds|
        && env.exec(t + n - 1, cmds[n - 1]).Fail?
        && r.outcome == Fail(CommandFailed(env.exec(t + n - 1, cmds[n - 1]).error))
  {
    HandleIsSequence(env, t, repos, dryRun);
    SequenceFailure(env, t, RepoCommands(repos), dryRun);
  }
}

=== FILE: index_map.dfy ===
/** Insertion-ordered maps (the `indexmap` crate's `IndexMap<String, V>`),
    represented as a sequence of key/value pairs. */
module IndexMap {
  import opened Base

  type Key = string

  type OrderedMap<V> = seq<(Key, V)>

  /** The keys in iteration order. */
  function Keys<V>(m: OrderedMap<V>): (r: seq<Key>)
    ensures |r| == |m|
    ensures forall i :: 0 <= i < |m| ==> r[i] == m[i].0
  {
    seq(|m|, i requires 0 <= i < |m| => m[i].0)
  }

  function KeySet<V>(m: OrderedMap<V>): set<Key> {
    Elems(Keys(m))
  }

  predicate HasKey<V>(m: OrderedMap<V>, k: Key) {
    k in Keys(m)
  }

  /** The invariant an `IndexMap` always keeps. */
  predicate DistinctKeys<V>(m: OrderedMap<V>) {
    Distinct(Keys(m))
  }

  /** `IndexMap::get`. */
  function Get<V>(m: OrderedMap<V>, k: Key): (r: Option<V>)
    ensures r.Some? <==> HasKey(m, k)
    ensures r.Some? ==> exists i :: 0 <= i < |m| && m[i] == (k, r.value)
  {
    if HasKey(m, k) then Some(m[IndexOf(Keys(m), k)].1) else None
  }

  /** `IndexMap::insert`: an existing key keeps its position and gets the new
      value, a new key is appended. */
  function Insert<V>(m: OrderedMap<V>, k: Key, v: V): (r: OrderedMap<V>)
    ensures Keys(r) == if HasKey(m, k) then Keys(m) else Keys(m) + [k]
    ensures KeySet(r) == KeySet(m) + {k}
    ensures DistinctKeys(m) ==> DistinctKeys(r)
    ensures forall i :: 0 <= i < |m| && m[i].0 != k ==> r[i] == m[i]
    ensures Get(r, k) == Some(v)
    ensures forall k' :: k' != k ==> Get(r, k') == Get(m, k')
  {
    if HasKey(m, k) then
      var i := IndexOf(Keys(m), k);
      var r := m[i := (k, v)];
      assert Keys(r) == Keys(m);
      assert forall k' :: k' != k && HasKey(r, k') ==> IndexOf(Keys(r), k') == IndexOf(Keys(m), k');
      r
    else
      var r := m + [(k, v)];
      assert Keys(r) == Keys(m) + [k];
      forall k' | k' != k && HasKey(r, k')
        ensures IndexOf(Keys(r), k') == IndexOf(Keys(m), k')
      {
        IndexOfAppend(Keys(m), [k], k');
      }
      r
  }

  /** Inserting a new key appends it. */
  lemma InsertNew<V>(m: OrderedMap<V>, k: Key, v: V)
    requires !HasKey(m, k)
    ensures Insert(m, k, v) == m + [(k, v)]
  {
  }

  /** Inserting the value a key already has changes nothing. */
  lemma InsertSame<V>(m: OrderedMap<V>, k: Key, v: V)
    requires Get(m, k) == Some(v)
    ensures Insert(m, k, v) == m
  {
    var i := IndexOf(Keys(m), k);
    assert m[i] == (k, v);
  }

  /** With distinct keys, the value `Get` finds for the key at position `i`
      is the value stored at `i`. */
  lemma GetAt<V>(m: OrderedMap<V>, i: nat)
    requires DistinctKeys(m) && i < |m|
    ensures Get(m, m[i].0) == Some(m[i].1)
  {
    var j := IndexOf(Keys(m), m[i].0);
    assert Keys(m)[j] == Keys(m)[i];
  }
}

=== FILE: legacy_format.dfy ===
/** The first revision's deployment file (src/file_format.rs): no groups, a
    `Noop` whose text is optional, non-optional helm `values` lists, a
    mandatory `root` and a mandatory repository list. Its two validators run
    the same algorithms as the current revision's. */
module LegacyFormat {
  import opened Base
  import opened IndexMap
  import opened Graph
  import opened Cycles
  import Format

  datatype Unit =
    | Noop(noop: Option<string>)
    | Shell(input: string)
    | Manifest(path: string)
    | HelmRemote(name: string, namespace: string, chartName: string, chartVersion: string,
                 values: seq<string>)
    | HelmLocal(name: string, namespace: string, chartPath: string, values: seq<string>)

  datatype Entry = Entry(unit: Unit, dependsOn: Option<seq<Key>>)

  type Units = OrderedMap<Entry>

  datatype Config = Config(root: string, helmRepositories: seq<Format.HelmRepository>, units: Units)

  function DependsOn(e: Entry): seq<Key> {
    e.dependsOn.GetOr([])
  }

  /** A unit of the first revision as a unit of the later format. */
  function LiftUnit(u: Unit): (r: Format.Unit)
    ensures !r.Group?
  {
    match u
    case Noop(n) => Format.Noop(n.GetOr(""))
    case Shell(input) => Format.Shell(input)
    case Manifest(path) => Format.Manifest(path)
    case HelmRemote(name, namespace, chart, version, values) =>
      Format.HelmRemote(name, namespace, chart, version, Some(values))
    case HelmLocal(name, namespace, chartPath, values) =>
      Format.HelmLocal(name, namespace, chartPath, Some(values))
  }

  function LiftEntry(e: Entry): (r: Format.Entry)
    ensures Format.DependsOn(r) == DependsOn(e)
  {
    Format.Entry(LiftUnit(e.unit), e.dependsOn)
  }

  /** The map of the first revision as a map of the later format: same keys
      in the same order, each entry lifted. */
  function Lift(m: Units): (r: Format.Units)
    ensures |r| == |m| && Keys(r) == Keys(m)
    ensures forall i :: 0 <= i < |m| ==> r[i] == (m[i].0, LiftEntry(m[i].1))
  {
    var r := seq(|m|, i requires 0 <= i < |m| => (m[i].0, LiftEntry(m[i].1)));
    assert Keys(r) == Keys(m);
    r
  }

  /** The dependency graph is the later format's graph of the lifted map. */
  function DependencyGraph(m: Units): (g: DependencyMap)
    ensures Keys(g) == Keys(m)
    ensures forall i :: 0 <= i < |m| ==> g[i].1 == DependsOn(m[i].1)
  {
    Format.DependencyGraph(Lift(m))
  }

  /** `check_dependency_cycles` (src/file_format.rs): the later format's
      check on the lifted map, so it passes exactly when the graph is
      acyclic and otherwise names a key of the map and a cycle path from
      it. */
  function CheckDependencyCycles(units: Units): (r: Outcome<CycleError>)
    ensures r.Pass? <==> Acyclic(DependencyGraph(units))
    ensures r.Fail? ==>
      && HasKey(units, r.error.key)
      && IsCyclePath(DependencyGraph(units), r.error.key, r.error.path)
      && forall x :: x in r.error.path ==> HasKey(units, x)
  {
    Format.CheckDependencyCycles(Lift(units))
  }

  ghost predicate DanglingDependency(units: Units, d: Key) {
    && (exists i :: 0 <= i < |units| && d in DependsOn(units[i].1))
    && !HasKey(units, d)
  }

  /** `check_invalid_unit_keys` (src/file_format.rs): the later format's
      check on the lifted map, so it fails exactly when some dependency is
      not a top-level key, reporting each such key once. */
  function CheckInvalidUnitKeys(units: Units): (r: Outcome<set<Key>>)
    ensures r.Pass? <==> forall i, d :: 0 <= i < |units| && d in DependsOn(units[i].1) ==> HasKey(units, d)
    ensures r.Fail? ==> r.error != {} && forall d :: d in r.error <==> DanglingDependency(units, d)
  {
    var lifted := Lift(units);
    assert forall d :: Format.DanglingDependency(lifted, d) <==> DanglingDependency(units, d) by {
      forall d ensures Format.DanglingDependency(lifted, d) <==> DanglingDependency(units, d) {
        if DanglingDependency(units, d) {
          var i :| 0 <= i < |units| && d in DependsOn(units[i].1);
          assert d in Format.DependsOn(lifted[i].1);
        }
      }
    }
    Format.CheckInvalidUnitKeys(lifted)
  }
}

=== FILE: legacy_units.dfy ===
/** `run_units` of the first revision (src/units.rs). Its units are those of
    the later format without groups, with `values` always present and no
    kubeconfig; the loop is the libm8s one with no filter and dependencies
    always respected, so it is modelled as that loop over the lifted map. */
module LegacyUnits {
  import opened Base
  import opened IndexMap
  import opened Graph
  import opened Errors
  import opened Process
  import opened Paths
  import L = LegacyFormat
  import F = Format
  import opened UnitRunner

  /** Lifting keeps the keys, their order and every dependency list, and
      introduces no group. */
  lemma LiftGraph(m: L.Units)
    ensures Keys(L.Lift(m)) == Keys(m) && F.NoGroups(L.Lift(m))
    ensures F.DependencyGraph(L.Lift(m)) == L.DependencyGraph(m)
  {
    assert Keys(L.Lift(m)) == Keys(m);
  }

  /** The lifted map finds the lifted entry under every key. */
  lemma LiftGet(m: L.Units, k: Key)
    requires HasKey(m, k)
    ensures Get(L.Lift(m), k) == Some(L.LiftEntry(Get(m, k).value))
  {
    LiftGraph(m);
  }

  /** The lifted map has the same keys. */
  lemma LiftHasKey(m: L.Units, k: Key)
    requires HasKey(L.Lift(m), k)
    ensures HasKey(m, k)
  {
    LiftGraph(m);
  }

  /** `run_unit_shell`, `run_unit_manifest`, `run_unit_helm_remote` and
      `run_unit_helm_local` of the first revision: a unit runs exactly as
      its lifted form does in the later revision with no kubeconfig. */
  function RunUnit(env: Env, t: nat, root: string, u: L.Unit, dryRun: bool): (r: Run)
    ensures r == UnitRunner.RunUnit(env, t, root, L.LiftUnit(u), None, dryRun)
  {
    match u
    case Noop(_) => Run([], Pass)
    case Shell(input) => RunCommand(env, t, ShellCommand(input, None), dryRun)
    case Manifest(path) => RunCommand(env, t, ManifestCommand(Join(root, path), None), dryRun)
    case HelmRemote(name, namespace, chart, version, values) =>
      assert L.LiftUnit(u) == F.HelmRemote(name, namespace, chart, version, Some(values));
      HelmDeploy(env, t, name, namespace, None, dryRun, false,
        HelmRemoteArgs(false, name, chart, version, namespace, JoinAll(root, values)),
        HelmRemoteArgs(true, name, chart, version, namespace, JoinAll(root, values)))
    case HelmLocal(name, namespace, chartPath, values) =>
      assert L.LiftUnit(u) == F.HelmLocal(name, namespace, chartPath, Some(values));
      HelmDeploy(env, t, name, namespace, None, dryRun, false,
        HelmLocalArgs(false, name, chartPath, namespace, JoinAll(root, values)),
        HelmLocalArgs(true, name, chartPath, namespace, JoinAll(root, values)))
  }

  /** Each key in `ds` is a unit of `m` whose dependencies are all earlier
      in `ds`. */
  predicate DepsBefore(m: L.Units, ds: seq<Key>) {
    forall j :: 0 <= j < |ds| ==>
      HasKey(m, ds[j]) && forall d :: d in L.DependsOn(Get(m, ds[j]).value) ==> d in ds[..j]
  }

  lemma LiftOrder(m: L.Units, ds: seq<Key>)
    requires InOrder(L.Lift(m), [], ds)
    ensures DepsBefore(m, ds)
  {
    LiftGraph(m);
    forall j | 0 <= j < |ds|
      ensures HasKey(m, ds[j]) && forall d :: d in L.DependsOn(Get(m, ds[j]).value) ==> d in ds[..j]
    {
      LiftGet(m, ds[j]);
      assert [] + ds[..j] == ds[..j];
    }
  }

  /** The last key of `r` is a unit of `m` whose run, started at `s` once
      all but its own processes had started, ended as `r` did. */
  ghost predicate EndsAt(env: Env, root: string, m: L.Units, dryRun: bool, r: Step, s: nat) {
    && r.dispatched != [] && HasKey(m, r.dispatched[|r.dispatched| - 1])
    && var e := RunUnit(env, s, root, Get(m, r.dispatched[|r.dispatched| - 1]).value.unit, dryRun);
       && e.outcome == r.outcome && IsSuffix(e.spawned, r.spawned)
       && s == |r.spawned| - |e.spawned|
  }

  /** A failed run stopped at the first unit that failed (the `?` after
      each unit): that unit is the last key run and nothing started after
      it. */
  ghost predicate FailedLast(env: Env, root: string, m: L.Units, dryRun: bool, r: Step) {
    r.outcome.Fail? ==> exists s: nat :: EndsAt(env, root, m, dryRun, r, s)
  }

  /** Where the run of the lifted map stopped, the run of the map stops. */
  lemma LiftFailedLast(env: Env, root: string, m: L.Units, dryRun: bool, r: Step)
    requires UnitRunner.FailedLast(UnitRun(env, root, None, dryRun), 0, L.Lift(m), r)
    ensures FailedLast(env, root, m, dryRun, r)
  {
    if r.outcome.Fail? {
      var s: nat :| UnitRunner.EndsAt(UnitRun(env, root, None, dryRun), 0, L.Lift(m), r, s);
      LiftEndsAt(env, root, m, dryRun, r, s);
    }
  }

  /** `LiftFailedLast` for a known start of the failing unit. */
  lemma LiftEndsAt(env: Env, root: string, m: L.Units, dryRun: bool, r: Step, s: nat)
    requires UnitRunner.EndsAt(UnitRun(env, root, None, dryRun), 0, L.Lift(m), r, s)
    ensures EndsAt(env, root, m, dryRun, r, s)
  {
    var run := UnitRun(env, root, None, dryRun);
    var k := r.dispatched[|r.dispatched| - 1];
    LiftHasKey(m, k);
    LiftGet(m, k);
    assert run(s, L.LiftUnit(Get(m, k).value.unit)) == RunUnit(env, s, root, Get(m, k).value.unit, dryRun);
  }

  /** `run_units` of the first revision. It is only reached once both
      validators passed, which is what makes it terminate. The run starts
      only units of the map; when it succeeds every unit ran, each after
      its dependencies; a dry run still lists releases and starts nothing
      else. */
  function RunUnits(env: Env, root: string, m: L.Units, dryRun: bool): (r: Step)
    requires DistinctKeys(m) && DepsClosed(L.DependencyGraph(m)) && Acyclic(L.DependencyGraph(m))
    ensures forall k :: k in r.dispatched ==> HasKey(m, k)
    ensures r.outcome.Pass? ==> Elems(r.dispatched) == KeySet(m)
    ensures DepsBefore(m, r.dispatched)
    ensures dryRun ==> ListingsOnly(r.spawned)
    ensures dryRun ==> r.outcome.Pass? || r.outcome.error == ReleasesUnreadable
    ensures r.outcome.Fail? ==> r.outcome.error == ReleasesUnreadable || r.outcome.error.CommandFailed?
    ensures FailedLast(env, root, m, dryRun, r)
  {
    LiftGraph(m);
    SelectedRunFacts(env, root, None, dryRun, L.Lift(m), false, false);
    var r := RunSelected(UnitRun(env, root, None, dryRun), L.Lift(m), false, false);
    LiftOrder(m, r.dispatched);
    LiftFailedLast(env, root, m, dryRun, r);
    r
  }
}

=== FILE: paths.dfy ===
/** File paths: `PathBuf::push`, `Path::parent` and
    `integrate_deployment_file_dir_into_paths` (libm8s/src/lib.rs), which
    makes every file a unit names relative to the deployment file's
    directory. Paths are plain strings with `/` as the separator. */
module Paths {
  import opened Base
  import opened IndexMap
  import opened Format

  predicate Absolute(p: string) {
    |p| > 0 && p[0] == '/'
  }

  /** `dir.push(p)`: an absolute `p` replaces the path; otherwise `p` is
      appended, with a separator unless `dir` is empty or already ends in
      one. */
  function Join(dir: string, p: string): (r: string)
    ensures Absolute(p) ==> r == p
    ensures !Absolute(p) && dir == [] ==> r == p
    ensures !Absolute(p) && dir != [] ==>
      exists sep :: (sep == [] || sep == "/") && r == dir + sep + p && '/' in dir + sep
  {
    if Absolute(p) || dir == [] then p
    else if dir[|dir| - 1] == '/' then
      assert dir + [] + p == dir + p;
      assert dir[|dir| - 1] in dir;
      dir + p
    else
      dir + "/" + p
  }

  /** The joined path always ends with the path that was pushed. */
  lemma JoinSuffix(dir: string, p: string)
    ensures |p| <= |Join(dir, p)| && Join(dir, p)[|Join(dir, p)| - |p|..] == p
  {
  }

  /** Joining onto an absolute directory yields an absolute path. */
  lemma JoinAbsolute(dir: string, p: string)
    requires Absolute(dir)
    ensures Absolute(Join(dir, p))
  {
  }

  /** Joining onto an absolute directory twice is joining once: the first
      join already yields an absolute path. */
  lemma JoinTwice(dir: string, p: string)
    requires Absolute(dir)
    ensures Join(dir, Join(dir, p)) == Join(dir, p)
  {
    JoinAbsolute(dir, p);
  }

  /** Position of the last `/` in `p`, if any. */
  function LastSlash(p: string): (r: Option<nat>)
    ensures r.Some? ==> r.value < |p| && p[r.value] == '/' && '/' !in p[r.value + 1..]
    ensures r.None? ==> '/' !in p
    decreases |p|
  {
    if p == [] then None
    else if p[|p| - 1] == '/' then Some(|p| - 1)
    else
      var r := LastSlash(p[..|p| - 1]);
      assert p == p[..|p| - 1] + [p[|p| - 1]];
      r
  }

  /** `Path::new(file).parent().unwrap_or(Path::new("."))` for a path with
      single separators and no trailing one: the text before the last
      separator (`/` itself when that is the leading one, the empty path
      when there is none); a bare `/` and the empty path have no parent,
      giving `.`. Trailing, repeated and `.` components are not normalised. */
  function ConfigDir(file: string): (r: string)
    ensures file == [] || file == "/" ==> r == "."
    ensures file != [] && file != "/" && '/' !in file ==> r == []
    ensures file != "/" && '/' in file ==>
      || (0 < |r| < |file| && IsPrefix(r, file) && file[|r|] == '/' && '/' !in file[|r| + 1..])
      || (r == "/" && file[0] == '/' && '/' !in file[1..])
  {
    if file == [] || file == "/" then "."
    else
      match LastSlash(file)
      case None => []
      case Some(i) => if i == 0 then "/" else file[..i]
  }

  /** Splitting a path at an inner separator and joining the two sides
      gives it back. */
  lemma JoinAtSeparator(file: string, i: nat)
    requires 0 < i && i + 1 < |file| && file[i] == '/'
    requires file[i - 1] != '/' && file[i + 1] != '/'
    ensures Join(file[..i], file[i + 1..]) == file
  {
    var dir, name := file[..i], file[i + 1..];
    assert dir[|dir| - 1] == file[i - 1];
    assert name[0] == file[i + 1];
    var w := dir + "/" + name;
    assert Join(dir, name) == w;
    forall k | 0 <= k < |file|
      ensures w[k] == file[k]
    {
      if k > i {
        assert w[k] == name[k - i - 1];
      }
    }
    assert w == file;
  }

  /** The directory of a file joined back with the file's last component
      gives the file, for a file whose last separator is not its first or
      last character. */
  lemma ConfigDirJoin(file: string, i: nat)
    requires LastSlash(file) == Some(i) && 0 < i && i + 1 < |file|
    requires file[i - 1] != '/'
    ensures Join(ConfigDir(file), file[i + 1..]) == file
  {
    assert file[i + 1] in file[i + 1..];
    assert |file| >= 2;
    assert ConfigDir(file) == file[..i];
    JoinAtSeparator(file, i);
  }

  function JoinAll(dir: string, ps: seq<string>): (r: seq<string>)
    ensures |r| == |ps|
    ensures forall i :: 0 <= i < |ps| ==> r[i] == Join(dir, ps[i])
  {
    seq(|ps|, i requires 0 <= i < |ps| => Join(dir, ps[i]))
  }

  /** One unit with its files made relative to `dir`: a manifest's path, a
      local chart's path and every values file; shell and noop units, and a
      remote chart's name, are untouched. A group's scope is integrated with
      the same directory. */
  function IntegrateItem(item: (Key, Entry), dir: string): (r: (Key, Entry))
    ensures item.1.unit.Group? ==> r.1.unit == Group(Integrate(item.1.unit.children, dir))
    decreases item
  {
    match item
    case (k, Entry(Group(children), deps)) => (k, Entry(Group(Integrate(children, dir)), deps))
    case (k, Entry(u, deps)) => (k, Entry(IntegrateFiles(u, dir), deps))
  }

  /** The file fields of a non-group unit joined onto `dir`. */
  function IntegrateFiles(u: Unit, dir: string): Unit {
    match u
    case Manifest(path) => Manifest(Join(dir, path))
    case HelmRemote(name, namespace, chart, version, values) =>
      HelmRemote(name, namespace, chart, version,
        if values.Some? then Some(JoinAll(dir, values.value)) else None)
    case HelmLocal(name, namespace, chartPath, values) =>
      HelmLocal(name, namespace, Join(dir, chartPath),
        if values.Some? then Some(JoinAll(dir, values.value)) else None)
    case _ => u
  }

  /** `integrate_deployment_file_dir_into_paths`, applied to every scope. */
  function Integrate(m: Units, dir: string): (r: Units)
    ensures |r| == |m|
    ensures forall i :: 0 <= i < |m| ==> r[i].0 == m[i].0 && r[i].1.dependsOn == m[i].1.dependsOn
    ensures forall i :: 0 <= i < |m| && !m[i].1.unit.Group? ==> r[i].1.unit == IntegrateFiles(m[i].1.unit, dir)
    decreases m
  {
    if m == [] then []
    else [IntegrateItem(m[0], dir)] + Integrate(m[1..], dir)
  }

  /** A group's scope is integrated with the same directory, at every
      depth. */
  lemma {:induction false} IntegrateGroups(m: Units, dir: string)
    ensures forall i :: 0 <= i < |m| && m[i].1.unit.Group? ==>
      Integrate(m, dir)[i].1.unit == Group(Integrate(m[i].1.unit.children, dir))
  {
    if m != [] {
      IntegrateGroups(m[1..], dir);
      var r := Integrate(m, dir);
      assert r == [IntegrateItem(m[0], dir)] + Integrate(m[1..], dir);
      forall i | 1 <= i < |m|
        ensures r[i] == Integrate(m[1..], dir)[i - 1] && m[i] == m[1..][i - 1]
      {
      }
    }
  }

  /** Each unit keeps its kind, and its non-file fields. */
  lemma IntegrateUnitShape(u: Unit, dir: string)
    requires !u.Group?
    ensures var r := IntegrateFiles(u, dir);
      && (u.Noop? <==> r.Noop?) && (u.Shell? <==> r.Shell?) && (u.Manifest? <==> r.Manifest?)
      && (u.HelmRemote? <==> r.HelmRemote?) && (u.HelmLocal? <==> r.HelmLocal?)
      && (!u.Manifest? && !u.HelmRemote? && !u.HelmLocal? ==> r == u)
      && (u.HelmRemote? || u.HelmLocal? ==>
            && r.name == u.name && r.namespace == u.namespace
            && (r.values.Some? <==> u.values.Some?)
            && (u.values.Some? ==> r.values.value == JoinAll(dir, u.values.value)))
      && (u.HelmRemote? ==> r.chartName == u.chartName && r.chartVersion == u.chartVersion)
      && (u.HelmLocal? ==> r.chartPath == Join(dir, u.chartPath))
      && (u.Manifest? ==> r.path == Join(dir, u.path))
  {
  }

  /** Keys and `depends_on` are untouched, so the dependency graph of every
      scope, and with it every check on it, is the same after integration. */
  lemma IntegrateGraph(m: Units, dir: string)
    ensures DependencyGraph(Integrate(m, dir)) == DependencyGraph(m)
  {
    var r := Integrate(m, dir);
    assert Keys(r) == Keys(m);
  }

  /** Integrating twice against an absolute directory is integrating once. */
  lemma {:induction false} IntegrateTwice(m: Units, dir: string)
    requires Absolute(dir)
    ensures Integrate(Integrate(m, dir), dir) == Integrate(m, dir)
    decreases m
  {
    if m != [] {
      IntegrateItemTwice(m[0], dir);
      IntegrateTwice(m[1..], dir);
      assert Integrate(m, dir)[1..] == Integrate(m[1..], dir);
    }
  }

  lemma {:induction false} IntegrateItemTwice(item: (Key, Entry), dir: string)
    requires Absolute(dir)
    ensures IntegrateItem(IntegrateItem(item, dir), dir) == IntegrateItem(item, dir)
    decreases item
  {
    match item
    case (k, Entry(Group(children), deps)) => IntegrateTwice(children, dir);
    case (k, Entry(u, deps)) => IntegrateFilesTwice(u, dir);
  }

  lemma IntegrateFilesTwice(u: Unit, dir: string)
    requires Absolute(dir)
    ensures IntegrateFiles(IntegrateFiles(u, dir), dir) == IntegrateFiles(u, dir)
  {
    if u.Manifest? {
      JoinTwice(dir, u.path);
    }
    if u.HelmLocal? {
      JoinTwice(dir, u.chartPath);
    }
    if (u.HelmRemote? || u.HelmLocal?) && u.values.Some? {
      JoinAllTwice(dir, u.values.value);
    }
  }

  lemma JoinAllTwice(dir: string, ps: seq<string>)
    requires Absolute(dir)
    ensures JoinAll(dir, JoinAll(dir, ps)) == JoinAll(dir, ps)
  {
    forall i | 0 <= i < |ps|
      ensures Join(dir, Join(dir, ps[i])) == Join(dir, ps[i])
    {
      JoinTwice(dir, ps[i]);
    }
  }
}

=== FILE: process.dfy ===
/** Child processes. Running a command and reading `helm list` are the only
    contact with the outside world; both are answered by an oracle that
    also sees how many processes were started before, so the world may
    change between calls. */
module Process {
  import opened Base
  import opened Errors

  /** A child process; `kubeconfig`, when set, becomes its `KUBECONFIG`. */
  datatype Command = Command(program: string, args: seq<string>, kubeconfig: Option<string>)

  /** One entry of `helm list --output yaml`. */
  datatype Release = Release(name: string, namespace: string)

  /** The outside world. `exec(t, c)` is the exit of command `c` started after
      `t` earlier processes: `Pass`, or `Fail` with its stderr. `list(t, c)` is
      the release list `helm list` prints, or `None` when it cannot be run
      or read. */
  datatype Env = Env(exec: (nat, Command) -> Outcome<string>, list: (nat, Command) -> Option<seq<Release>>)

  /** The processes started, in order, and how the step ended. */
  datatype Run = Run(spawned: seq<Command>, outcome: Outcome<Error>)

  /** `run_command_with_piped_stdio`: a dry run starts nothing and succeeds;
      otherwise the command is started and its exit decides the outcome. */
  function RunCommand(env: Env, t: nat, cmd: Command, dryRun: bool): (r: Run)
    ensures dryRun ==> r == Run([], Pass)
    ensures !dryRun ==> r.spawned == [cmd]
    ensures !dryRun ==> (r.outcome.Pass? <==> env.exec(t, cmd).Pass?)
    ensures r.outcome.Fail? ==> r.outcome.error.CommandFailed?
  {
    if dryRun then Run([], Pass)
    else
      match env.exec(t, cmd)
      case Pass => Run([cmd], Pass)
      case Fail(stderr) => Run([cmd], Fail(CommandFailed(stderr)))
  }

  /** Run `cmds` one after another (each `...?`); the first failure stops the
      rest. */
  function RunSequence(env: Env, t: nat, cmds: seq<Command>, dryRun: bool): (r: Run)
    ensures |r.spawned| <= |cmds|
    ensures r.outcome.Fail? ==> r.outcome.error.CommandFailed?
    decreases |cmds|
  {
    if cmds == [] then Run([], Pass)
    else
      var first := RunCommand(env, t, cmds[0], dryRun);
      if first.outcome.Fail? then first
      else
        var rest := RunSequence(env, t + |first.spawned|, cmds[1..], dryRun);
        Run(first.spawned + rest.spawned, rest.outcome)
  }

  /** A dry run starts nothing and succeeds. */
  lemma {:induction false} SequenceDry(env: Env, t: nat, cmds: seq<Command>)
    ensures RunSequence(env, t, cmds, true) == Run([], Pass)
    decreases |cmds|
  {
    if cmds != [] {
      SequenceDry(env, t, cmds[1..]);
    }
  }

  /** Otherwise the commands start in order, at least one when there is one,
      and all of them when the run succeeds. */
  lemma {:induction false} SequencePrefix(env: Env, t: nat, cmds: seq<Command>)
    ensures var r := RunSequence(env, t, cmds, false);
      && IsPrefix(r.spawned, cmds) && (cmds != [] ==> r.spawned != [])
      && (r.outcome.Pass? ==> r.spawned == cmds)
    decreases |cmds|
  {
    if cmds != [] {
      var first := RunCommand(env, t, cmds[0], false);
      if first.outcome.Pass? {
        SequencePrefix(env, t + 1, cmds[1..]);
        var rest := RunSequence(env, t + 1, cmds[1..], false);
        assert RunSequence(env, t, cmds, false).spawned == [cmds[0]] + rest.spawned;
        assert cmds == [cmds[0]] + cmds[1..];
      }
    }
  }

  /** A failure is the last command started failing, with its stderr as the
      error. */
  lemma {:induction false} SequenceFailure(env: Env, t: nat, cmds: seq<Command>, dryRun: bool)
    ensures var r := RunSequence(env, t, cmds, dryRun);
      r.outcome.Fail? ==>
        var n := |r.spawned|;
        && 0 < n <= |cmds|
        && env.exec(t + n - 1, cmds[n - 1]).Fail?
        && r.outcome == Fail(CommandFailed(env.exec(t + n - 1, cmds[n - 1]).error))
    decreases |cmds|
  {
    if cmds != [] && !dryRun {
      var first := RunCommand(env, t, cmds[0], false);
      if first.outcome.Pass? {
        SequenceFailure(env, t + 1, cmds[1..], false);
        var rest := RunSequence(env, t + 1, cmds[1..], false);
        if rest.outcome.Fail? {
          var n := |rest.spawned|;
          assert RunSequence(env, t, cmds, false) == Run([cmds[0]] + rest.spawned, rest.outcome);
          assert cmds[n] == cmds[1..][n - 1];
        }
      }
    } else if cmds != [] {
      SequenceDry(env, t, cmds);
    }
  }

  /** Running two command lists one after the other, stopping at the first
      failure, is running their concatenation. */
  lemma {:induction false} SequenceAppend(env: Env, t: nat, a: seq<Command>, b: seq<Command>, dryRun: bool)
    ensures RunSequence(env, t, a, dryRun).outcome.Fail? ==>
      RunSequence(env, t, a + b, dryRun) == RunSequence(env, t, a, dryRun)
    ensures var ra := RunSequence(env, t, a, dryRun);
      ra.outcome.Pass? ==>
        var rb := RunSequence(env, t + |ra.spawned|, b, dryRun);
        RunSequence(env, t, a + b, dryRun) == Run(ra.spawned + rb.spawned, rb.outcome)
    decreases |a|
  {
    if dryRun {
      SequenceDry(env, t, a);
      SequenceDry(env, t, b);
      SequenceDry(env, t, a + b);
    } else if a == [] {
      assert a + b == b;
      var rb := RunSequence(env, t, b, false);
      assert [] + rb.spawned == rb.spawned;
    } else {
      var first := RunCommand(env, t, a[0], false);
      var ab := a + b;
      assert ab[0] == a[0] && ab[1..] == a[1..] + b;
      if first.outcome.Pass? {
        SequenceAppend(env, t + 1, a[1..], b, false);
        var ra1 := RunSequence(env, t + 1, a[1..], false);
        var rab := RunSequence(env, t + 1, a[1..] + b, false);
        assert RunSequence(env, t, a, false) == Run([a[0]] + ra1.spawned, ra1.outcome);
        assert RunSequence(env, t, ab, false) == Run([a[0]] + rab.spawned, rab.outcome);
        if ra1.outcome.Pass? {
          var rb := RunSequence(env, t + 1 + |ra1.spawned|, b, false);
          assert [a[0]] + (ra1.spawned + rb.spawned) == [a[0]] + ra1.spawned + rb.spawned;
        }
      }
    }
  }

  /** `helm list --namespace <ns> --output yaml`. */
  function ListCommand(namespace: string, kubeconfig: Option<string>): Command {
    Command("helm", ["list", "--namespace", namespace, "--output", "yaml"], kubeconfig)
  }

  /** Whether a release is installed, and the processes that finding out
      started. */
  datatype Probe = Probe(spawned: seq<Command>, installed: Option<bool>)

  /** `helm_release_exists`. With `dryRunShortcut` (the resources revision) a
      dry run answers "not installed" without listing; the unit revisions
      always list, dry run or not. The answer is whether the listed releases
      contain exactly this name in this namespace; `None` is the error. */
  function ReleaseExists(env: Env, t: nat, name: string, namespace: string, kubeconfig: Option<string>,
                         dryRun: bool, dryRunShortcut: bool): (r: Probe)
    ensures dryRun && dryRunShortcut ==> r == Probe([], Some(false))
    ensures !(dryRun && dryRunShortcut) ==> r.spawned == [ListCommand(namespace, kubeconfig)]
    ensures !(dryRun && dryRunShortcut) ==>
      && (r.installed.None? <==> env.list(t, ListCommand(namespace, kubeconfig)).None?)
      && (env.list(t, ListCommand(namespace, kubeconfig)).Some? ==>
            r.installed == Some(Release(name, namespace) in env.list(t, ListCommand(namespace, kubeconfig)).value))
    ensures r.installed == Some(true) ==>
      !(dryRun && dryRunShortcut)
      && (exists rs :: env.list(t, ListCommand(namespace, kubeconfig)) == Some(rs)
           && Release(name, namespace) in rs)
  {
    var cmd := ListCommand(namespace, kubeconfig);
    if dryRun && dryRunShortcut then Probe([], Some(false))
    else
      match env.list(t, cmd)
      case None => Probe([cmd], None)
      case Some(releases) => Probe([cmd], Some(Release(name, namespace) in releases))
  }

  /** Probe the release, then run `helm` with `upgrade` (the arguments for
      an installed release) when it is listed and `install` otherwise. A
      probe error stops before the deployment. */
  function HelmDeploy(env: Env, t: nat, name: string, namespace: string, kubeconfig: Option<string>,
                      dryRun: bool, dryRunShortcut: bool, install: seq<string>, upgrade: seq<string>): (r: Run)
    ensures dryRun && dryRunShortcut ==> r == Run([], Pass)
    ensures dryRun && !dryRunShortcut ==>
      && r.spawned == [ListCommand(namespace, kubeconfig)]
      && (r.outcome.Pass? <==> env.list(t, ListCommand(namespace, kubeconfig)).Some?)
    ensures !dryRun ==>
      var list := ListCommand(namespace, kubeconfig);
      && 1 <= |r.spawned| <= 2 && r.spawned[0] == list
      && (r.outcome.Pass? <==>
            && env.list(t, list).Some?
            && var installed := Release(name, namespace) in env.list(t, list).value;
               env.exec(t + 1, Command("helm", if installed then upgrade else install, kubeconfig)).Pass?)
    ensures !dryRun ==>
      var list := ListCommand(namespace, kubeconfig);
      && (env.list(t, list).None? ==> r == Run([list], Fail(ReleasesUnreadable)))
      && (env.list(t, list).Some? ==>
            var installed := Release(name, namespace) in env.list(t, list).value;
            r.spawned == [list, Command("helm", if installed then upgrade else install, kubeconfig)])
    ensures r.outcome.Fail? ==> r.outcome.error == ReleasesUnreadable || r.outcome.error.CommandFailed?
  {
    var probe := ReleaseExists(env, t, name, namespace, kubeconfig, dryRun, dryRunShortcut);
    match probe.installed
    case None => Run(probe.spawned, Fail(ReleasesUnreadable))
    case Some(installed) =>
      var args := if installed then upgrade else install;
      var deploy := RunCommand(env, t + |probe.spawned|, Command("helm", args, kubeconfig), dryRun);
      Run(probe.spawned + deploy.spawned, deploy.outcome)
  }

  /** The helm subcommand: `upgrade` an installed release, else `install`. */
  function Verb(installed: bool): string {
    if installed then "upgrade" else "install"
  }

  /** `-f <file>` for every values file, in order. */
  function ValuesArgs(values: seq<string>): (r: seq<string>)
    ensures |r| == 2 * |values|
    ensures forall i :: 0 <= i < |values| ==> r[2 * i] == "-f" && r[2 * i + 1] == values[i]
  {
    if values == [] then []
    else
      var rest := ValuesArgs(values[1..]);
      var r := ["-f", values[0]] + rest;
      assert forall i :: 1 <= i < |values| ==> r[2 * i] == rest[2 * (i - 1)];
      assert forall i :: 1 <= i < |values| ==> r[2 * i + 1] == rest[2 * (i - 1) + 1];
      r
  }

  /** The values files named by a `-f` list: every second argument. */
  function ValuesFiles(args: seq<string>): seq<string>
    requires |args| % 2 == 0
  {
    if args == [] then [] else [args[1]] + ValuesFiles(args[2..])
  }

  /** The `-f` list gives back exactly the files it was built from. */
  lemma {:induction false} ValuesRoundTrip(values: seq<string>)
    ensures ValuesFiles(ValuesArgs(values)) == values
  {
    if values != [] {
      var r := ValuesArgs(values);
      assert r[2..] == ValuesArgs(values[1..]);
      ValuesRoundTrip(values[1..]);
    }
  }

  /** `helm <verb> <name> <chart_path> --namespace <ns> (-f <file>)*`. */
  function HelmLocalArgs(installed: bool, name: string, chartPath: string, namespace: string,
                         values: seq<string>): (r: seq<string>)
    ensures |r| == 5 + 2 * |values|
    ensures r[0] == (if installed then "upgrade" else "install")
    ensures r[1] == name && r[2] == chartPath && r[3] == "--namespace" && r[4] == namespace
    ensures r[5..] == ValuesArgs(values)
  {
    [Verb(installed), name, chartPath, "--namespace", namespace] + ValuesArgs(values)
  }

  /** `helm <verb> <name> <chart_name> --version <v> --namespace <ns> (-f <file>)*`. */
  function HelmRemoteArgs(installed: bool, name: string, chartName: string, chartVersion: string,
                          namespace: string, values: seq<string>): (r: seq<string>)
    ensures |r| == 7 + 2 * |values|
    ensures r[0] == (if installed then "upgrade" else "install")
    ensures r[1] == name && r[2] == chartName && r[3] == "--version" && r[4] == chartVersion
    ensures r[5] == "--namespace" && r[6] == namespace
    ensures r[7..] == ValuesArgs(values)
  {
    [Verb(installed), name, chartName, "--version", chartVersion, "--namespace", namespace]
      + ValuesArgs(values)
  }

  /** The remote form is the local form with `--version <v>` after the chart. */
  lemma RemoteIsLocalWithVersion(installed: bool, name: string, chart: string, version: string,
                                 namespace: string, values: seq<string>)
    ensures var remote := HelmRemoteArgs(installed, name, chart, version, namespace, values);
      var local := HelmLocalArgs(installed, name, chart, namespace, values);
      remote == local[..3] + ["--version", version] + local[3..]
  {
  }

  /** `kubectl apply -f <path>`. */
  function ManifestCommand(path: string, kubeconfig: Option<string>): Command {
    Command("kubectl", ["apply", "-f", path], kubeconfig)
  }

  /** `bash -c <input>`. */
  function ShellCommand(input: string, kubeconfig: Option<string>): Command {
    Command("bash", ["-c", input], kubeconfig)
  }
}

=== FILE: resources.dfy ===
/** `run_resources` (libm8s/src/resources.rs): select and order one scope's
    resources, then run them one after another, recursing into groups with
    the group's namespace and the selector tokens addressed to it. */
module Resources {
  import opened Base
  import opened IndexMap
  import opened Graph
  import opened Errors
  import opened Process
  import opened Format
  import opened Selector
  import opened Scheduler
  import opened Cycles

  /** A resource the run reached: its key and the namespace of its scope
      (`None` at the root). */
  datatype Reached = Reached(namespace: Option<string>, key: Key)

  /** The resources reached and processes started, in order, and how the
      run ended. */
  datatype Trace = Trace(reached: seq<Reached>, spawned: seq<Command>, outcome: Outcome<Error>)

  /** The keys reached in the scope with namespace `ns`, in order. */
  function Level(rs: seq<Reached>, ns: Option<string>): (r: seq<Key>)
    ensures |r| <= |rs|
  {
    if rs == [] then []
    else (if rs[0].namespace == ns then [rs[0].key] else []) + Level(rs[1..], ns)
  }

  lemma {:induction false} LevelAppend(a: seq<Reached>, b: seq<Reached>, ns: Option<string>)
    ensures Level(a + b, ns) == Level(a, ns) + Level(b, ns)
  {
    if a != [] {
      var head := if a[0].namespace == ns then [a[0].key] else [];
      AppendCons(a, b);
      assert Level(a + b, ns) == head + Level(a[1..] + b, ns);
      LevelAppend(a[1..], b, ns);
      AppendAssoc(head, Level(a[1..], ns), Level(b, ns));
    } else {
      assert a + b == b;
    }
  }

  /** `x` names a scope strictly inside the scope named `ns`. */
  predicate Below(ns: Option<string>, x: Option<string>) {
    x.Some? && (ns.Some? ==> IsPrefix(ns.value + ":", x.value))
  }

  /** `x` names the scope `ns` or one inside it. */
  predicate Within(ns: Option<string>, x: Option<string>) {
    x == ns || Below(ns, x)
  }

  /** A scope inside a group's scope is strictly inside the group's parent. */
  lemma WithinGroup(ns: Option<string>, k: Key, x: Option<string>)
    requires Within(GroupNamespace(ns, k), x)
    ensures Below(ns, x) && x != ns
  {
    var g := GroupNamespace(ns, k);
    if ns.Some? && x != g {
      PrefixTrans(ns.value + ":", g.value + ":", x.value);
    }
  }

  /** No reached resource in a strictly inner scope counts at level `ns`. */
  lemma {:induction false} LevelBelow(rs: seq<Reached>, ns: Option<string>)
    requires forall x :: x in rs ==> Below(ns, x.namespace) && x.namespace != ns
    ensures Level(rs, ns) == []
  {
    if rs != [] {
      assert rs[0] in rs;
      LevelBelow(rs[1..], ns);
    }
  }

  /** One non-group resource: `Noop` does nothing; `Shell`, `Manifest` and
      the helm kinds start their commands, with the helm kinds probing for
      the release first (answering "not installed" in a dry run). */
  function RunLeaf(env: Env, t: nat, u: Unit, kubeconfig: Option<string>, dryRun: bool): (r: Run)
    requires !u.Group?
    ensures dryRun ==> r == Run([], Pass)
    ensures u.Noop? ==> r == Run([], Pass)
    ensures r.outcome.Fail? ==> r.outcome.error == ReleasesUnreadable || r.outcome.error.CommandFailed?
  {
    match u
    case Noop(_) => Run([], Pass)
    case Shell(input) => RunCommand(env, t, ShellCommand(input, kubeconfig), dryRun)
    case Manifest(path) => RunCommand(env, t, ManifestCommand(path, kubeconfig), dryRun)
    case HelmRemote(name, namespace, chart, version, values) =>
      HelmDeploy(env, t, name, namespace, kubeconfig, dryRun, true,
        HelmRemoteArgs(false, name, chart, version, namespace, values.GetOr([])),
        HelmRemoteArgs(true, name, chart, version, namespace, values.GetOr([])))
    case HelmLocal(name, namespace, chartPath, values) =>
      HelmDeploy(env, t, name, namespace, kubeconfig, dryRun, true,
        HelmLocalArgs(false, name, chartPath, namespace, values.GetOr([])),
        HelmLocalArgs(true, name, chartPath, namespace, values.GetOr([])))
  }

  /** With dependencies followed, a cycle can be reached from a key this
      scope selects: `get_filtered_resources` pops and pushes forever. */
  ghost predicate Diverges(m: Units, args: seq<string>, deps: bool) {
    deps && !NoCycleFrom(DependencyGraph(m), Part0(args))
  }

  /** Selection and order of one scope: `None` is the `unwrap` panic on a
      selected key the scope does not have. */
  function Selection(m: Units, args: seq<string>, deps: bool): Option<Units>
    requires !Diverges(m, args, deps)
  {
    GetFilteredResources(m, Part0(args), deps)
  }

  /** `run_resources`. When the selection loop of this scope cannot end, the
      run stops here with `SelectionDiverges`, before reaching any resource
      of the scope. Otherwise it reaches exactly the selected resources of
      this scope, in the scheduler's order, stopping after the first failure
      (so on failure it reached a prefix of them, ending with the resource
      whose iteration failed with the run's error); each nested scope reached
      is inside this one. A dry run starts no process and can only fail by
      the panic or the endless selection. */
  function RunResources(env: Env, t: nat, m: Units, ns: Option<string>, args: seq<string>,
                        deps: bool, kubeconfig: Option<string>, dryRun: bool): (r: Trace)
    ensures Diverges(m, args, deps) ==> r == Trace([], [], Fail(SelectionDiverges))
    ensures !Diverges(m, args, deps) && Selection(m, args, deps).None? ==> r == Trace([], [], Fail(UnknownUnit))
    ensures !Diverges(m, args, deps) && Selection(m, args, deps).Some? ==>
      var keys := Keys(Selection(m, args, deps).value);
      && IsPrefix(Level(r.reached, ns), keys)
      && (r.outcome.Pass? ==> Level(r.reached, ns) == keys)
      && Stopped(env, t, m, Selection(m, args, deps).value, 0, ns, args, deps, kubeconfig, dryRun, r)
    ensures forall x :: x in r.reached ==> Within(ns, x.namespace)
    ensures dryRun ==> r.spawned == [] && (r.outcome.Pass? || r.outcome.error in {UnknownUnit, SelectionDiverges})
    decreases m, 1
  {
    if deps && ReachesCycle(DependencyGraph(m), Part0(args)) then Trace([], [], Fail(SelectionDiverges))
    else
      match Selection(m, args, deps)
      case None => Trace([], [], Fail(UnknownUnit))
      case Some(f) => RunEntries(env, t, m, f, 0, ns, args, deps, kubeconfig, dryRun)
  }

  /** The `for` loop over the ordered selection `f`, from position `i`. */
  function RunEntries(env: Env, t: nat, m: Units, f: Units, i: nat, ns: Option<string>, args: seq<string>,
                      deps: bool, kubeconfig: Option<string>, dryRun: bool): (r: Trace)
    requires EntriesOf(f, m) && i <= |f|
    ensures IsPrefix(Level(r.reached, ns), Keys(f)[i..])
    ensures r.outcome.Pass? ==> Level(r.reached, ns) == Keys(f)[i..]
    ensures forall x :: x in r.reached ==> Within(ns, x.namespace)
    ensures dryRun ==> r.spawned == [] && (r.outcome.Pass? || r.outcome.error in {UnknownUnit, SelectionDiverges})
    ensures Stopped(env, t, m, f, i, ns, args, deps, kubeconfig, dryRun, r)
    decreases m, 0, |f| - i
  {
    if i == |f| then Trace([], [], Pass)
    else
      var j := IndexOf(Keys(m), f[i].0);
      var head := RunEntry(env, t, m, j, ns, args, deps, kubeconfig, dryRun);
      if head.outcome.Fail? then
        assert IsPrefix(Level(head.reached, ns), Keys(f)[i..]) && forall x :: x in head.reached ==> Within(ns, x.namespace);
        StopsHere(env, t, m, f, i, ns, args, deps, kubeconfig, dryRun, j, head);
        head
      else
        var t' := t + |head.spawned|;
        var rest := RunEntries(env, t', m, f, i + 1, ns, args, deps, kubeconfig, dryRun);
        LevelsJoin(head.reached, rest.reached, ns, f, i);
        var r := Trace(head.reached + rest.reached, head.spawned + rest.spawned, rest.outcome);
        StopJoins(env, t, m, f, i, ns, args, deps, kubeconfig, dryRun, head, t', rest, r);
        r
  }

  /** A failed run of the loop from `i` stopped at one of its iterations. */
  ghost predicate Stopped(env: Env, t: nat, m: Units, f: Units, i: nat, ns: Option<string>, args: seq<string>,
                          deps: bool, kubeconfig: Option<string>, dryRun: bool, r: Trace)
    decreases m, 0, 0, 1
  {
    r.outcome.Fail? ==>
      exists n: nat, s: nat, e: Trace :: StoppedAt(env, t, m, f, i, ns, args, deps, kubeconfig, dryRun, r, n, s, e)
  }

  /** The loop from `i`, started at time `t`, stopped at the iteration of
      `f[n]`: that iteration, started at time `s`, is `e`, and `r` ends as
      `StopShape` says. */
  ghost predicate StoppedAt(env: Env, t: nat, m: Units, f: Units, i: nat, ns: Option<string>, args: seq<string>,
                            deps: bool, kubeconfig: Option<string>, dryRun: bool, r: Trace, n: nat, s: nat, e: Trace)
    decreases m, 0, 0, 0
  {
    && StopShape(f, i, n, t, s, ns, r, e)
    && f[n].0 in Keys(m)
    && e == RunEntry(env, s, m, IndexOf(Keys(m), f[n].0), ns, args, deps, kubeconfig, dryRun)
  }

  /** The run `r` of the loop from `i`, started at time `t`, ended with the
      iteration `e` of `f[n]`, started at time `s` (after `s - t` of `r`'s
      processes): at this level `r` reached exactly the keys from `f[i]` to
      `f[n]`, and `e` closes `r`. */
  predicate StopShape(f: Units, i: nat, n: nat, t: nat, s: nat, ns: Option<string>, r: Trace, e: Trace) {
    && i <= n < |f| && t <= s && Level(r.reached, ns) == Keys(f)[i..n + 1]
    && Closes(e, r, s - t)
  }

  /** `e` ended as `r` did, its processes are those of `r` from the `u`-th,
      and its records are the last of `r`'s. */
  predicate Closes(e: Trace, r: Trace, u: nat) {
    && u <= |r.spawned| && e.outcome == r.outcome && e.spawned == r.spawned[u..]
    && |e.reached| <= |r.reached| && r.reached[|r.reached| - |e.reached|..] == e.reached
  }

  /** A slice of the keys is its first key followed by the rest. */
  lemma KeysSliceCons(f: Units, i: nat, n: nat)
    requires i <= n < |f|
    ensures Keys(f)[i..n + 1] == [f[i].0] + Keys(f)[i + 1..n + 1]
  {
  }

  /** A failed iteration of `f[i]` is where the loop from `i` stops. */
  lemma StopsHere(env: Env, t: nat, m: Units, f: Units, i: nat, ns: Option<string>, args: seq<string>,
                  deps: bool, kubeconfig: Option<string>, dryRun: bool, j: nat, head: Trace)
    requires i < |f| && j < |m| && m[j].0 == f[i].0 && j == IndexOf(Keys(m), f[i].0)
    requires head == RunEntry(env, t, m, j, ns, args, deps, kubeconfig, dryRun)
    ensures head.outcome.Fail? ==> StoppedAt(env, t, m, f, i, ns, args, deps, kubeconfig, dryRun, head, i, t, head)
    ensures Stopped(env, t, m, f, i, ns, args, deps, kubeconfig, dryRun, head)
    decreases m, 0, 0, 2
  {
    assert Keys(m)[j] == f[i].0;
    FirstStop(head, f, i, t, ns);
    if head.outcome.Fail? {
      assert StoppedAt(env, t, m, f, i, ns, args, deps, kubeconfig, dryRun, head, i, t, head);
    }
  }

  /** The stop of the loop from `i + 1`, if it failed, gives a stop of the
      loop from `i` once the passed iteration of `f[i]` is put in front. */
  lemma StopJoins(env: Env, t: nat, m: Units, f: Units, i: nat, ns: Option<string>, args: seq<string>,
                  deps: bool, kubeconfig: Option<string>, dryRun: bool, head: Trace, t': nat, rest: Trace, r: Trace)
    requires i < |f| && Level(head.reached, ns) == [f[i].0] && t' == t + |head.spawned|
    requires r == Trace(head.reached + rest.reached, head.spawned + rest.spawned, rest.outcome)
    requires Stopped(env, t', m, f, i + 1, ns, args, deps, kubeconfig, dryRun, rest)
    ensures Stopped(env, t, m, f, i, ns, args, deps, kubeconfig, dryRun, r)
    decreases m, 0, 0, 3
  {
    if rest.outcome.Fail? {
      var n: nat, s: nat, e: Trace :| StoppedAt(env, t', m, f, i + 1, ns, args, deps, kubeconfig, dryRun, rest, n, s, e);
      ShiftStop(f, i, n, t, t', s, ns, head, rest, r, e);
      StopMoves(env, t, t', m, f, i, ns, args, deps, kubeconfig, dryRun, rest, r, n, s, e);
    }
  }

  /** The iteration a run stopped at is where a run of the same shape
      stopped. */
  lemma StopMoves(env: Env, t: nat, t': nat, m: Units, f: Units, i: nat, ns: Option<string>, args: seq<string>,
                  deps: bool, kubeconfig: Option<string>, dryRun: bool, rest: Trace, r: Trace, n: nat, s: nat, e: Trace)
    requires StoppedAt(env, t', m, f, i + 1, ns, args, deps, kubeconfig, dryRun, rest, n, s, e)
    requires StopShape(f, i, n, t, s, ns, r, e)
    ensures StoppedAt(env, t, m, f, i, ns, args, deps, kubeconfig, dryRun, r, n, s, e)
    ensures Stopped(env, t, m, f, i, ns, args, deps, kubeconfig, dryRun, r)
    decreases m, 0, 0, 2
  {
    assert f[n].0 in Keys(m);
    assert e == RunEntry(env, s, m, IndexOf(Keys(m), f[n].0), ns, args, deps, kubeconfig, dryRun);
    assert StopShape(f, i, n, t, s, ns, r, e);
    assert StoppedAt(env, t, m, f, i, ns, args, deps, kubeconfig, dryRun, r, n, s, e);
  }

  /** A run that is the failed iteration of `f[i]` is a stop of the loop
      from `i` at that iteration. */
  lemma FirstStop(r: Trace, f: Units, i: nat, t: nat, ns: Option<string>)
    requires i < |f| && Level(r.reached, ns) == [f[i].0]
    ensures StopShape(f, i, i, t, t, ns, r, r)
  {
    assert r.spawned[0..] == r.spawned && r.reached[|r.reached| - |r.reached|..] == r.reached;
  }

  /** A stop of the loop from `i + 1` is a stop of the loop from `i` once
      the passed iteration of `f[i]` is put in front. */
  lemma ShiftStop(f: Units, i: nat, n: nat, t: nat, t': nat, s: nat, ns: Option<string>,
                  head: Trace, rest: Trace, r: Trace, e: Trace)
    requires i < |f| && Level(head.reached, ns) == [f[i].0] && t' == t + |head.spawned|
    requires r == Trace(head.reached + rest.reached, head.spawned + rest.spawned, rest.outcome)
    requires StopShape(f, i + 1, n, t', s, ns, rest, e)
    ensures StopShape(f, i, n, t, s, ns, r, e)
  {
    LevelAppend(head.reached, rest.reached, ns);
    KeysSliceCons(f, i, n);
    ShiftCloses(head, rest, e, s - t', s - t);
  }

  /** An iteration that closes the rest of the loop closes the loop with
      the earlier iterations put in front. */
  lemma ShiftCloses(head: Trace, rest: Trace, e: Trace, u: nat, v: nat)
    requires Closes(e, rest, u) && v == |head.spawned| + u
    ensures Closes(e, Trace(head.reached + rest.reached, head.spawned + rest.spawned, rest.outcome), v)
  {
    var r := head.reached + rest.reached;
    assert r[|r| - |e.reached|..] == rest.reached[|rest.reached| - |e.reached|..];
    assert (head.spawned + rest.spawned)[|head.spawned| + u..] == rest.spawned[u..];
  }

  /** The step of the loop's level bookkeeping: one key, then the rest. */
  lemma LevelsJoin(a: seq<Reached>, b: seq<Reached>, ns: Option<string>, f: Units, i: nat)
    requires i < |f| && Level(a, ns) == [f[i].0]
    requires IsPrefix(Level(b, ns), Keys(f)[i + 1..])
    ensures IsPrefix(Level(a + b, ns), Keys(f)[i..])
    ensures Level(b, ns) == Keys(f)[i + 1..] ==> Level(a + b, ns) == Keys(f)[i..]
  {
    LevelAppend(a, b, ns);
    assert Keys(f)[i..] == [f[i].0] + Keys(f)[i + 1..];
  }

  /** One iteration, on the entry `m[j]`: its key is reached in this scope,
      then it runs. */
  function RunEntry(env: Env, t: nat, m: Units, j: nat, ns: Option<string>, args: seq<string>,
                    deps: bool, kubeconfig: Option<string>, dryRun: bool): (r: Trace)
    requires j < |m|
    ensures r.reached != [] && r.reached[0] == Reached(ns, m[j].0)
    ensures Level(r.reached, ns) == [m[j].0]
    ensures forall x :: x in r.reached ==> Within(ns, x.namespace)
    ensures dryRun ==> r.spawned == [] && (r.outcome.Pass? || r.outcome.error in {UnknownUnit, SelectionDiverges})
    decreases m[j], 1
  {
    if m[j].1.unit.Group? then RunGroup(env, t, m, j, ns, args, deps, kubeconfig, dryRun)
    else
      var leaf := RunLeaf(env, t, m[j].1.unit, kubeconfig, dryRun);
      assert Level([Reached(ns, m[j].0)], ns) == [m[j].0];
      Trace([Reached(ns, m[j].0)], leaf.spawned, leaf.outcome)
  }

  /** A group `m[j]` runs its own scope under `GroupNamespace(ns, k)` with the
      tokens `ArgsForGroup` gives it and the same dependency policy; when that
      succeeds it reached exactly the group's selection at the group's level. */
  function RunGroup(env: Env, t: nat, m: Units, j: nat, ns: Option<string>, args: seq<string>,
                    deps: bool, kubeconfig: Option<string>, dryRun: bool): (r: Trace)
    requires j < |m| && m[j].1.unit.Group?
    ensures r.reached != [] && r.reached[0] == Reached(ns, m[j].0)
    ensures Level(r.reached, ns) == [m[j].0]
    ensures forall x :: x in r.reached ==> Within(ns, x.namespace)
    ensures dryRun ==> r.spawned == [] && (r.outcome.Pass? || r.outcome.error in {UnknownUnit, SelectionDiverges})
    ensures r.outcome.Pass? ==>
      var children := m[j].1.unit.children;
      var sub := ArgsForGroup(args, m[j].0, children);
      && !Diverges(children, sub, deps)
      && Selection(children, sub, deps).Some?
      && Level(r.reached, GroupNamespace(ns, m[j].0)) == Keys(Selection(children, sub, deps).value)
    decreases m[j], 0
  {
    var k := m[j].0;
    var children := m[j].1.unit.children;
    var sub := RunResources(env, t, children, GroupNamespace(ns, k), ArgsForGroup(args, k, children),
                            deps, kubeconfig, dryRun);
    GroupLevels(ns, k, sub.reached);
    Trace([Reached(ns, k)] + sub.reached, sub.spawned, sub.outcome)
  }

  /** How the group's records split across levels: the group itself at the
      parent's level, its scope's resources at the group's level. */
  lemma GroupLevels(ns: Option<string>, k: Key, sub: seq<Reached>)
    requires forall x :: x in sub ==> Within(GroupNamespace(ns, k), x.namespace)
    ensures Level([Reached(ns, k)] + sub, ns) == [k]
    ensures Level([Reached(ns, k)] + sub, GroupNamespace(ns, k)) == Level(sub, GroupNamespace(ns, k))
    ensures forall x :: x in [Reached(ns, k)] + sub ==> Within(ns, x.namespace)
  {
    forall x | x in sub
      ensures Below(ns, x.namespace) && x.namespace != ns
    {
      WithinGroup(ns, k, x.namespace);
    }
    LevelBelow(sub, ns);
    LevelAppend([Reached(ns, k)], sub, ns);
    LevelAppend([Reached(ns, k)], sub, GroupNamespace(ns, k));
    var g := GroupNamespace(ns, k);
    assert g != ns by {
      if ns.Some? { assert |g.value| > |ns.value|; }
    }
    assert Level([Reached(ns, k)], g) == [];
  }

}

=== FILE: resources_examples.dfy ===
/** Runs of `run_resources` with dependencies followed over a scope whose
    group holds a cycle, `{a, g: {c: [d], d: [c], x}}`: only a selection from
    which the cycle can be reached fails to end. */
module ResourcesExamples {
  import opened Base
  import opened IndexMap
  import opened Graph
  import opened Errors
  import opened Process
  import opened Format
  import opened Selector
  import opened Scheduler
  import opened Resources

  const N: Entry := Entry(Noop(""), None)
  const CD: Entry := Entry(Noop(""), Some(["d"]))
  const DC: Entry := Entry(Noop(""), Some(["c"]))

  /** `{c: [d], d: [c], x}`: a cycle between `c` and `d`, and `x` apart. */
  function Inner(): Units {
    [("c", CD), ("d", DC), ("x", N)]
  }

  function GroupEntry(): Entry {
    Entry(Group(Inner()), None)
  }

  /** `{a, g: {c: [d], d: [c], x}}`. */
  function Root(): Units {
    [("a", N), ("g", GroupEntry())]
  }

  lemma KeyFacts()
    ensures "a" != "g" && "c" != "d" && "c" != "x" && "d" != "x"
    ensures ':' !in "g"
  {
    assert "a"[0] != "g"[0] && "c"[0] != "d"[0] && "c"[0] != "x"[0] && "d"[0] != "x"[0];
  }

  lemma RootFacts()
    ensures Keys(Root()) == ["a", "g"]
    ensures Get(Root(), "a") == Some(N) && Get(Root(), "g") == Some(GroupEntry())
    ensures IndexOf(Keys(Root()), "a") == 0 && IndexOf(Keys(Root()), "g") == 1
    ensures Neighbors(DependencyGraph(Root()), "a") == [] && Neighbors(DependencyGraph(Root()), "g") == []
  {
    KeyFacts();
    assert Keys(Root()) == ["a", "g"];
    GraphNeighbors(Root(), "a");
    GraphNeighbors(Root(), "g");
  }

  lemma InnerFacts()
    ensures Keys(Inner()) == ["c", "d", "x"]
    ensures Get(Inner(), "x") == Some(N)
    ensures Neighbors(DependencyGraph(Inner()), "c") == ["d"]
    ensures Neighbors(DependencyGraph(Inner()), "d") == ["c"]
    ensures Neighbors(DependencyGraph(Inner()), "x") == []
  {
    KeyFacts();
    var ks := Keys(Inner());
    assert ks == ["c", "d", "x"];
    assert IndexOf(ks, "c") == 0 && IndexOf(ks, "d") == 1 && IndexOf(ks, "x") == 2;
    GraphNeighbors(Inner(), "c");
    GraphNeighbors(Inner(), "d");
    GraphNeighbors(Inner(), "x");
  }

  /** A duplicate-free selection made of `m`'s entries whose only key is `k`
      is `k`'s entry alone. */
  lemma SingletonSelection(f: Units, m: Units, k: Key, e: Entry)
    requires KeySet(f) == {k} && DistinctKeys(f) && EntriesOf(f, m) && Get(m, k) == Some(e)
    ensures f == [(k, e)]
  {
    DistinctCard(Keys(f));
    assert |{k}| == 1;
    assert Keys(f)[0] in KeySet(f);
    assert Get(m, f[0].0) == Some(f[0].1);
  }

  /** The closure of a key without dependencies is that key. */
  lemma LeafClosure(g: DependencyMap, k: Key)
    requires Neighbors(g, k) == []
    ensures Closure(g, [k]) == {k}
  {
    ClosureSingle(g, k);
    ClosureEmpty(g);
  }

  /** Selecting one key without dependencies, with dependencies followed,
      yields that key alone. */
  lemma LeafSelection(m: Units, k: Key, e: Entry)
    requires Get(m, k) == Some(e) && Neighbors(DependencyGraph(m), k) == []
    ensures NoCycleFrom(DependencyGraph(m), [k])
    ensures GetFilteredResources(m, [k], true) == Some([(k, e)])
  {
    var g := DependencyGraph(m);
    LeafNoCycle(g, k);
    assert NoCycleFrom(g, [k]);
    LeafClosure(g, k);
    var r := GetFilteredResources(m, [k], true);
    assert HasKey(m, k);
    assert r.Some?;
    SingletonSelection(r.value, m, k, e);
  }

  /** The loop over a one-entry selection is that entry's iteration. */
  lemma SingleEntry(env: Env, t: nat, m: Units, k: Key, e: Entry, ns: Option<string>, args: seq<string>,
                    deps: bool, kubeconfig: Option<string>, dryRun: bool)
    requires Get(m, k) == Some(e)
    ensures var h := RunEntry(env, t, m, IndexOf(Keys(m), k), ns, args, deps, kubeconfig, dryRun);
      RunEntries(env, t, m, [(k, e)], 0, ns, args, deps, kubeconfig, dryRun) ==
        if h.outcome.Fail? then h else Trace(h.reached, h.spawned, Pass)
  {
    var h := RunEntry(env, t, m, IndexOf(Keys(m), k), ns, args, deps, kubeconfig, dryRun);
    assert h.reached + [] == h.reached && h.spawned + [] == h.spawned;
  }

  /** A `noop` leaf is reached and does nothing. */
  lemma NoopStep(env: Env, t: nat, m: Units, j: nat, ns: Option<string>, args: seq<string>,
                 deps: bool, kubeconfig: Option<string>, dryRun: bool)
    requires j < |m| && m[j].1 == N
    ensures RunEntry(env, t, m, j, ns, args, deps, kubeconfig, dryRun) == Trace([Reached(ns, m[j].0)], [], Pass)
  {
  }

  /** With dependencies followed, a selection of one key without
      dependencies runs that key's iteration alone. */
  lemma LeafRun(env: Env, t: nat, m: Units, ns: Option<string>, args: seq<string>, k: Key, e: Entry,
                kubeconfig: Option<string>, dryRun: bool)
    requires Part0(args) == [k] && Get(m, k) == Some(e) && Neighbors(DependencyGraph(m), k) == []
    ensures var h := RunEntry(env, t, m, IndexOf(Keys(m), k), ns, args, true, kubeconfig, dryRun);
      RunResources(env, t, m, ns, args, true, kubeconfig, dryRun) ==
        if h.outcome.Fail? then h else Trace(h.reached, h.spawned, Pass)
  {
    LeafSelection(m, k, e);
    assert !Cycles.ReachesCycle(DependencyGraph(m), Part0(args));
    SingleEntry(env, t, m, k, e, ns, args, true, kubeconfig, dryRun);
  }

  /** A group's iteration is its own record followed by its scope's run. */
  lemma GroupStep(env: Env, t: nat, m: Units, j: nat, ns: Option<string>, args: seq<string>,
                  deps: bool, kubeconfig: Option<string>, dryRun: bool)
    requires j < |m| && m[j].1.unit.Group?
    ensures var k := m[j].0;
      var children := m[j].1.unit.children;
      var sub := RunResources(env, t, children, GroupNamespace(ns, k), ArgsForGroup(args, k, children),
                              deps, kubeconfig, dryRun);
      RunEntry(env, t, m, j, ns, args, deps, kubeconfig, dryRun) == Trace([Reached(ns, k)] + sub.reached, sub.spawned, sub.outcome)
  {
  }

  /** `up a --dependencies`: the cycle inside `g` cannot be reached from `a`,
      so `a` runs and the command succeeds. */
  lemma UnreachedCycleRuns(env: Env, t: nat, kubeconfig: Option<string>, dryRun: bool)
    ensures RunResources(env, t, Root(), None, ["a"], true, kubeconfig, dryRun) == Trace([Reached(None, "a")], [], Pass)
  {
    RootFacts();
    SplitFirstBare("a");
    assert Part0(["a"]) == ["a"];
    LeafRun(env, t, Root(), None, ["a"], "a", N, kubeconfig, dryRun);
    NoopStep(env, t, Root(), 0, None, ["a"], true, kubeconfig, dryRun);
  }

  lemma InnerTokens(args: seq<string>)
    requires args == ["c", "d", "x"]
    ensures Part0(args) == ["c", "d", "x"]
  {
    KeyFacts();
    SplitFirstBare("c");
    SplitFirstBare("d");
    SplitFirstBare("x");
  }

  /** `c` and `d` depend on each other. */
  lemma InnerCycle()
    ensures CycleReachable(DependencyGraph(Inner()), "c")
  {
    InnerFacts();
    var g := DependencyGraph(Inner());
    var p := ["c", "d", "c"];
    assert Edge(g, "c", "d") && Edge(g, "d", "c");
    assert IsWalk(g, p);
    assert p[..2] == ["c", "d"];
    assert Lasso(g, "c", p);
  }

  /** The cycle is reachable from the keys the group selects for itself. */
  lemma InnerDiverges(args: seq<string>)
    requires args == ["c", "d", "x"]
    ensures Diverges(Inner(), args, true)
  {
    InnerTokens(args);
    InnerCycle();
    assert "c" in Part0(args);
  }

  /** `up g --dependencies`: the group runs its whole scope, from which the
      cycle is reached, so the run stops inside the group. */
  lemma ReachedCycleDiverges(env: Env, t: nat, kubeconfig: Option<string>, dryRun: bool)
    ensures RunResources(env, t, Root(), None, ["g"], true, kubeconfig, dryRun) ==
      Trace([Reached(None, "g")], [], Fail(SelectionDiverges))
  {
    RootFacts();
    KeyFacts();
    SplitFirstBare("g");
    assert Part0(["g"]) == ["g"];
    LeafRun(env, t, Root(), None, ["g"], "g", GroupEntry(), kubeconfig, dryRun);
    GroupStep(env, t, Root(), 1, None, ["g"], true, kubeconfig, dryRun);
    Part1Token("g", "g");
    InnerFacts();
    assert ArgsForGroup(["g"], "g", Inner()) == ["c", "d", "x"];
    InnerDiverges(["c", "d", "x"]);
    assert [Reached(None, "g")] + [] == [Reached(None, "g")];
  }

  /** Inside the group, `x` alone: it runs under the group's namespace. */
  lemma InnerLeafRuns(env: Env, t: nat, kubeconfig: Option<string>, dryRun: bool)
    ensures RunResources(env, t, Inner(), Some("g"), ["x"], true, kubeconfig, dryRun) ==
      Trace([Reached(Some("g"), "x")], [], Pass)
  {
    InnerFacts();
    KeyFacts();
    SplitFirstBare("x");
    assert Part0(["x"]) == ["x"];
    LeafRun(env, t, Inner(), Some("g"), ["x"], "x", N, kubeconfig, dryRun);
    assert IndexOf(Keys(Inner()), "x") == 2;
    NoopStep(env, t, Inner(), 2, Some("g"), ["x"], true, kubeconfig, dryRun);
  }

  /** A group whose scope reached one resource and passed. */
  lemma NestedPass(h: Trace, sub: Trace, a: Reached, b: Reached)
    requires h == Trace([a] + sub.reached, sub.spawned, sub.outcome) && sub == Trace([b], [], Pass)
    ensures h == Trace([a, b], [], Pass)
  {
  }

  /** The token `g:x` selects `g` here and `x` inside `g`. */
  lemma NarrowedTokens()
    ensures Part0(["g:x"]) == ["g"]
    ensures ArgsForGroup(["g:x"], "g", Inner()) == ["x"]
  {
    KeyFacts();
    SplitFirstJoin("g", "x");
    assert "g:x" == "g" + ":" + "x";
    Part1Token("g", "g:x");
    assert "g:x"[2..] == "x";
  }

  /** `up g:x --dependencies`: inside the group only `x` is selected, which
      reaches no cycle, so `x` runs and the command succeeds. */
  lemma NarrowedSelectionRuns(env: Env, t: nat, kubeconfig: Option<string>, dryRun: bool)
    ensures RunResources(env, t, Root(), None, ["g:x"], true, kubeconfig, dryRun) ==
      Trace([Reached(None, "g"), Reached(Some("g"), "x")], [], Pass)
  {
    var args := ["g:x"];
    var h := RunEntry(env, t, Root(), 1, None, args, true, kubeconfig, dryRun);
    assert RunResources(env, t, Root(), None, args, true, kubeconfig, dryRun) ==
      if h.outcome.Fail? then h else Trace(h.reached, h.spawned, Pass) by {
      RootFacts();
      NarrowedTokens();
      LeafRun(env, t, Root(), None, args, "g", GroupEntry(), kubeconfig, dryRun);
    }
    var sub := RunResources(env, t, Inner(), Some("g"), ["x"], true, kubeconfig, dryRun);
    assert h == Trace([Reached(None, "g")] + sub.reached, sub.spawned, sub.outcome) by {
      RootFacts();
      NarrowedTokens();
      GroupStep(env, t, Root(), 1, None, args, true, kubeconfig, dryRun);
      assert Root()[1].1.unit.children == Inner();
    }
    assert sub == Trace([Reached(Some("g"), "x")], [], Pass) by {
      InnerLeafRuns(env, t, kubeconfig, dryRun);
    }
    NestedPass(h, sub, Reached(None, "g"), Reached(Some("g"), "x"));
  }
}

=== FILE: scheduler.dfy ===
/** Selection and ordering of the units of one scope before they run: the
    dependency closure computed with an explicit stack
    (`get_filtered_resources`, `get_filtered_units`) and the repeated-pass
    reordering that puts every unit after its dependencies
    (`reorder_resources_from_dependencies`). */
module Scheduler {
  import opened Base
  import opened IndexMap
  import opened Graph
  import opened Format

  /** `has_pending_resources` / `has_pending_units`: some key of `m` is not
      yet in `done`. */
  function HasPending<V>(m: OrderedMap<V>, done: seq<Key>): (r: bool)
    ensures r <==> exists i :: 0 <= i < |m| && m[i].0 !in done
    ensures !r <==> KeySet(m) <= Elems(done)
  {
    if m == [] then false
    else
      assert forall i :: 1 <= i < |m| ==> m[i] == m[1..][i - 1];
      assert KeySet(m) == {m[0].0} + KeySet(m[1..]) by {
        assert Keys(m) == [m[0].0] + Keys(m[1..]);
      }
      m[0].0 !in done || HasPending(m[1..], done)
  }

  /** The `while let Some(next) = stack.pop()` loop. Each popped key that is
      not in `visited` is inserted with its entry from `m` (a missing key is
      the `unwrap` panic, `None`), and when `expand` is set its dependencies
      are pushed; nothing records which keys were already expanded. */
  function FilterLoop(m: Units, stack: seq<Key>, out: Units, expand: bool, visited: set<Key>): (r: Option<Units>)
    requires expand ==> NoCycleFrom(DependencyGraph(m), stack)
    ensures r.Some? ==> KeySet(out) <= KeySet(r.value)
    ensures r.Some? ==> forall k :: k in stack && k !in visited ==> HasKey(r.value, k)
    decreases if expand then StackWork(DependencyGraph(m), stack) else |stack|
  {
    if stack == [] then Some(out)
    else
      var k := stack[|stack| - 1];
      var rest := stack[..|stack| - 1];
      if k in visited then
        FilterLoop(m, rest, out, expand, visited)
      else if !HasKey(m, k) then
        None
      else
        var out' := Insert(out, k, Get(m, k).value);
        if !expand then
          FilterLoop(m, rest, out', expand, visited)
        else
          PopWork(DependencyGraph(m), stack);
          FilterLoop(m, rest + Neighbors(DependencyGraph(m), k), out', expand, visited)
  }

  /** Without expansion every token is popped once, last token first, and a
      key is inserted at its first pop: the result's keys are the popped keys
      without repeats, in pop order. It panics exactly when some token is not
      a key. */
  lemma {:induction false} FilterFlat(m: Units, stack: seq<Key>, out: Units)
    ensures var r := FilterLoop(m, stack, out, false, {});
      && (r.None? <==> exists x :: x in stack && !HasKey(m, x))
      && (r.Some? ==> Keys(r.value) == AppendNew(Keys(out), Reverse(stack)))
    decreases |stack|
  {
    if stack != [] {
      var k := stack[|stack| - 1];
      var rest := stack[..|stack| - 1];
      FrontLast(stack);
      if HasKey(m, k) {
        var out' := Insert(out, k, Get(m, k).value);
        FilterFlat(m, rest, out');
        var rev := Reverse(stack);
        assert rev[0] == k && rev[1..] == Reverse(rest);
      }
    }
  }

  /** With expansion the keys reached are the selection closed under
      `depends_on`: the loop panics exactly when the closure contains a key
      that is not in the scope, and otherwise adds exactly the closure. */
  lemma FilterClosure(m: Units, stack: seq<Key>, out: Units)
    requires NoCycleFrom(DependencyGraph(m), stack)
    ensures var r := FilterLoop(m, stack, out, true, {});
      && (r.None? <==> exists x :: x in Closure(DependencyGraph(m), stack) && !HasKey(m, x))
      && (r.Some? ==> KeySet(r.value) == KeySet(out) + Closure(DependencyGraph(m), stack))
  {
    FilterPanics(m, stack, out);
    FilterAdds(m, stack, out);
  }

  /** The panic half of `FilterClosure`. */
  lemma {:induction false} FilterPanics(m: Units, stack: seq<Key>, out: Units)
    requires NoCycleFrom(DependencyGraph(m), stack)
    ensures FilterLoop(m, stack, out, true, {}).None? <==>
      exists x :: x in Closure(DependencyGraph(m), stack) && !HasKey(m, x)
    decreases StackWork(DependencyGraph(m), stack)
  {
    var g := DependencyGraph(m);
    if stack == [] {
      ClosureEmpty(g);
    } else {
      var k := stack[|stack| - 1];
      var rest := stack[..|stack| - 1];
      ClosurePop(g, stack);
      if HasKey(m, k) {
        PopWork(g, stack);
        var out' := Insert(out, k, Get(m, k).value);
        var next := rest + Neighbors(g, k);
        assert FilterLoop(m, stack, out, true, {}) == FilterLoop(m, next, out', true, {});
        FilterPanics(m, next, out');
        ClosureAppend(g, rest, Neighbors(g, k));
        assert Closure(g, stack) == Closure(g, next) + {k};
      } else {
        assert k in Closure(g, stack);
      }
    }
  }

  /** The key half of `FilterClosure`. */
  lemma {:induction false} FilterAdds(m: Units, stack: seq<Key>, out: Units)
    requires NoCycleFrom(DependencyGraph(m), stack)
    ensures var r := FilterLoop(m, stack, out, true, {});
      r.Some? ==> KeySet(r.value) == KeySet(out) + Closure(DependencyGraph(m), stack)
    decreases StackWork(DependencyGraph(m), stack)
  {
    var g := DependencyGraph(m);
    if stack == [] {
      ClosureEmpty(g);
    } else {
      var k := stack[|stack| - 1];
      var rest := stack[..|stack| - 1];
      if HasKey(m, k) {
        ClosurePop(g, stack);
        PopWork(g, stack);
        var out' := Insert(out, k, Get(m, k).value);
        var next := rest + Neighbors(g, k);
        assert FilterLoop(m, stack, out, true, {}) == FilterLoop(m, next, out', true, {});
        FilterAdds(m, next, out');
        ClosureAppend(g, rest, Neighbors(g, k));
        assert Closure(g, stack) == Closure(g, next) + {k};
      }
    }
  }

  /** Every inserted entry is the entry its key has in `m`, and keys stay
      distinct. */
  lemma {:induction false} FilterEntries(m: Units, stack: seq<Key>, out: Units, expand: bool, visited: set<Key>)
    requires expand ==> NoCycleFrom(DependencyGraph(m), stack)
    requires EntriesOf(out, m) && DistinctKeys(out)
    ensures var r := FilterLoop(m, stack, out, expand, visited);
      r.Some? ==> EntriesOf(r.value, m) && DistinctKeys(r.value)
    decreases if expand then StackWork(DependencyGraph(m), stack) else |stack|
  {
    if stack != [] {
      var k := stack[|stack| - 1];
      var rest := stack[..|stack| - 1];
      if k in visited {
        FilterEntries(m, rest, out, expand, visited);
      } else if HasKey(m, k) {
        var out' := Insert(out, k, Get(m, k).value);
        InsertEntriesOf(out, m, k, Get(m, k).value);
        if !expand {
          FilterEntries(m, rest, out', expand, visited);
        } else {
          PopWork(DependencyGraph(m), stack);
          FilterEntries(m, rest + Neighbors(DependencyGraph(m), k), out', expand, visited);
        }
      }
    }
  }

  /** Every dependency of an inserted key is inserted too or still on the
      stack. */
  ghost predicate Covered(g: DependencyMap, out: Units, stack: seq<Key>) {
    forall x, d :: HasKey(out, x) && d in Neighbors(g, x) ==> HasKey(out, d) || d in stack
  }

  /** Popping `k` and pushing its dependencies keeps every dependency of an
      inserted key accounted for. */
  lemma CoveredStep(g: DependencyMap, out: Units, rest: seq<Key>, k: Key, e: Entry)
    requires Covered(g, out, rest + [k])
    ensures Covered(g, Insert(out, k, e), rest + Neighbors(g, k))
  {
    var out' := Insert(out, k, e);
    forall x, d | HasKey(out', x) && d in Neighbors(g, x)
      ensures HasKey(out', d) || d in rest + Neighbors(g, k)
    {
      assert x in KeySet(out');
      if x != k {
        assert HasKey(out, x);
        assert HasKey(out, d) || d in rest + [k];
        if HasKey(out, d) {
          assert d in KeySet(out');
        }
      }
    }
  }

  lemma {:induction false} FilterCovered(m: Units, stack: seq<Key>, out: Units)
    requires NoCycleFrom(DependencyGraph(m), stack)
    requires Covered(DependencyGraph(m), out, stack)
    ensures var r := FilterLoop(m, stack, out, true, {});
      r.Some? ==> Covered(DependencyGraph(m), r.value, [])
    decreases StackWork(DependencyGraph(m), stack)
  {
    var g := DependencyGraph(m);
    if stack != [] {
      var k := stack[|stack| - 1];
      var rest := stack[..|stack| - 1];
      if HasKey(m, k) {
        PopWork(g, stack);
        FrontLast(stack);
        CoveredStep(g, out, rest, k, Get(m, k).value);
        FilterCovered(m, rest + Neighbors(g, k), Insert(out, k, Get(m, k).value));
      }
    }
  }

  /** None of the unit's dependencies is missing from `out`
      (`missing_dependencies` is empty). */
  predicate Ready(e: Entry, out: Units) {
    forall d :: d in DependsOn(e) ==> HasKey(out, d)
  }

  /** Every unit comes after all of its dependencies. */
  ghost predicate DepsFirst(m: Units) {
    forall i, d :: 0 <= i < |m| && d in DependsOn(m[i].1) ==> d in Keys(m)[..i]
  }

  /** One pass of the `for` loop over the input, from position `i`: each unit
      whose dependencies are all in `out` is inserted with its entry. */
  function ReorderPass(m: Units, i: nat, out: Units): (r: Units)
    requires i <= |m|
    ensures |out| <= |r| <= |out| + (|m| - i)
    decreases |m| - i
  {
    if i == |m| then out
    else
      var out' := if Ready(m[i].1, out) then Insert(out, m[i].0, m[i].1) else out;
      ReorderPass(m, i + 1, out')
  }

  /** A pass skips a unit that is not ready. */
  lemma PassSkip(m: Units, i: nat, out: Units)
    requires i < |m| && !Ready(m[i].1, out)
    ensures ReorderPass(m, i, out) == ReorderPass(m, i + 1, out)
  {
  }

  /** A pass inserts a unit that is ready. */
  lemma PassTake(m: Units, i: nat, out: Units)
    requires i < |m| && Ready(m[i].1, out)
    ensures ReorderPass(m, i, out) == ReorderPass(m, i + 1, Insert(out, m[i].0, m[i].1))
  {
  }

  /** A pass only appends keys: what was placed before keeps its position. */
  lemma {:induction false} PassGrows(m: Units, i: nat, out: Units)
    requires i <= |m|
    ensures IsPrefix(Keys(out), Keys(ReorderPass(m, i, out)))
    ensures KeySet(out) <= KeySet(ReorderPass(m, i, out))
    decreases |m| - i
  {
    var r := ReorderPass(m, i, out);
    if i < |m| {
      var out' := if Ready(m[i].1, out) then Insert(out, m[i].0, m[i].1) else out;
      if Ready(m[i].1, out) {
        InsertExtends(out, m[i].0, m[i].1);
      }
      PassGrows(m, i + 1, out');
      PrefixTrans(Keys(out), Keys(out'), Keys(r));
    }
    PrefixElems(Keys(out), Keys(r));
  }

  /** Inserting keeps the keys already there as a prefix. */
  lemma InsertExtends(out: Units, k: Key, e: Entry)
    ensures IsPrefix(Keys(out), Keys(Insert(out, k, e)))
  {
    if !HasKey(out, k) {
      assert (Keys(out) + [k])[..|Keys(out)|] == Keys(out);
    }
  }

  /** One step of `PassOrder`: the key at position `i` of the input was
      either placed right after `before` or not placed at all. */
  lemma OrderStep(keys: seq<Key>, before: seq<Key>, after: seq<Key>, input: seq<Key>, i: nat)
    requires i < |input| && IsPrefix(after, keys) && Subseq(keys[|after|..], input[i + 1..])
    requires after == before || after == before + [input[i]]
    ensures Subseq(keys[|before|..], input[i..])
  {
    var k := input[i];
    SliceCons(input, i);
    if after == before {
      SubseqCons(keys[|after|..], k, input[i + 1..]);
    } else {
      assert keys[|before|] == keys[..|after|][|before|] == k;
      SliceCons(keys, |before|);
      SubseqBoth(keys[|after|..], k, input[i + 1..]);
    }
  }

  /** The keys a pass adds appear in input order. */
  lemma {:induction false} PassOrder(m: Units, i: nat, out: Units)
    requires i <= |m|
    ensures var r := ReorderPass(m, i, out);
      |out| <= |r| && Subseq(Keys(r)[|out|..], Keys(m)[i..])
    decreases |m| - i
  {
    var r := ReorderPass(m, i, out);
    PassGrows(m, i, out);
    if i == |m| {
      assert Keys(r)[|out|..] == [];
    } else {
      var k := m[i].0;
      var out' := if Ready(m[i].1, out) then Insert(out, k, m[i].1) else out;
      assert r == ReorderPass(m, i + 1, out');
      PassOrder(m, i + 1, out');
      PassGrows(m, i + 1, out');
      assert Keys(out') == Keys(out) || Keys(out') == Keys(out) + [k];
      OrderStep(Keys(r), Keys(out), Keys(out'), Keys(m), i);
    }
  }

  /** With distinct keys, a map made of `m`'s entries finds the same entry
      for each of its keys as `m`. */
  lemma GetFromEntries(out: Units, m: Units, k: Key)
    requires DistinctKeys(out) && EntriesOf(out, m) && HasKey(out, k)
    ensures Get(out, k) == Get(m, k)
  {
    var j := IndexOf(Keys(out), k);
    GetAt(out, j);
  }

  lemma DepsFirstAppend(out: Units, k: Key, e: Entry)
    requires DepsFirst(out) && Ready(e, out)
    ensures DepsFirst(out + [(k, e)])
  {
    var r := out + [(k, e)];
    assert Keys(r) == Keys(out) + [k];
    forall i, d | 0 <= i < |r| && d in DependsOn(r[i].1)
      ensures d in Keys(r)[..i]
    {
      assert Keys(r)[..i] == if i < |out| then Keys(out)[..i] else Keys(out);
    }
  }

  /** The facts every intermediate `output` map keeps. */
  ghost predicate Placed(m: Units, out: Units) {
    EntriesOf(out, m) && DistinctKeys(out) && DepsFirst(out)
  }

  lemma {:induction false} PassPlaced(m: Units, i: nat, out: Units)
    requires i <= |m| && DistinctKeys(m) && Placed(m, out)
    ensures Placed(m, ReorderPass(m, i, out))
    decreases |m| - i
  {
    if i < |m| {
      var k := m[i].0;
      GetAt(m, i);
      if Ready(m[i].1, out) {
        if HasKey(out, k) {
          GetFromEntries(out, m, k);
          InsertPresent(out, k, m[i].1);
        } else {
          InsertEntriesOf(out, m, k, m[i].1);
          assert Insert(out, k, m[i].1) == out + [(k, m[i].1)];
          DepsFirstAppend(out, k, m[i].1);
        }
      }
      var out' := if Ready(m[i].1, out) then Insert(out, k, m[i].1) else out;
      PassPlaced(m, i + 1, out');
    }
  }

  lemma ReadyGrows(e: Entry, a: Units, b: Units)
    requires Ready(e, a) && KeySet(a) <= KeySet(b)
    ensures Ready(e, b)
  {
    forall d | d in DependsOn(e)
      ensures HasKey(b, d)
    {
      assert d in KeySet(a);
    }
  }

  /** A unit that is ready when the pass reaches it, or earlier, is placed
      by the end of the pass. */
  lemma {:induction false} PassPlacesReady(m: Units, i: nat, out: Units, j: nat)
    requires i <= j < |m| && Ready(m[j].1, out)
    ensures HasKey(ReorderPass(m, i, out), m[j].0)
    decreases |m| - i
  {
    var out' := if Ready(m[i].1, out) then Insert(out, m[i].0, m[i].1) else out;
    if j == i {
      PassGrows(m, i + 1, out');
      assert m[j].0 in KeySet(out');
    } else {
      ReadyGrows(m[j].1, out, out');
      PassPlacesReady(m, i + 1, out', j);
    }
  }

  /** Some pending unit is ready: follow missing dependencies, which lowers
      the rank at each step, until one has none missing. */
  lemma {:induction false} SomeReady(m: Units, out: Units, k: Key)
    requires DepsClosed(DependencyGraph(m)) && Acyclic(DependencyGraph(m))
    requires HasKey(m, k) && !HasKey(out, k)
    ensures exists j :: 0 <= j < |m| && !HasKey(out, m[j].0) && Ready(m[j].1, out)
    decreases Rank(DependencyGraph(m), k)
  {
    var g := DependencyGraph(m);
    var j := IndexOf(Keys(m), k);
    if !Ready(m[j].1, out) {
      var d :| d in DependsOn(m[j].1) && !HasKey(out, d);
      GraphNeighbors(m, k);
      assert Edge(g, k, d);
      RankDecreases(g, k, d);
      assert HasKey(g, d) by {
        assert d in g[j].1;
      }
      SomeReady(m, out, d);
    }
  }

  /** While some unit is pending, a pass places at least one new key. */
  lemma PassProgress(m: Units, out: Units)
    requires DepsClosed(DependencyGraph(m)) && Acyclic(DependencyGraph(m))
    requires HasPending(m, Keys(out))
    ensures KeySet(out) < KeySet(ReorderPass(m, 0, out))
  {
    var i :| 0 <= i < |m| && m[i].0 !in Keys(out);
    assert m[i].0 in Keys(m);
    SomeReady(m, out, m[i].0);
    var j :| 0 <= j < |m| && !HasKey(out, m[j].0) && Ready(m[j].1, out);
    PassPlacesReady(m, 0, out, j);
    PassGrows(m, 0, out);
    assert m[j].0 in KeySet(ReorderPass(m, 0, out));
  }

  lemma EntriesKeys(out: Units, m: Units)
    requires EntriesOf(out, m)
    ensures KeySet(out) <= KeySet(m)
  {
    forall k | k in KeySet(out)
      ensures k in KeySet(m)
    {
      var j := IndexOf(Keys(out), k);
      assert Get(m, out[j].0).Some?;
    }
  }

  /** Once nothing is pending, the placed keys are the keys of `m`. */
  lemma AllPlaced(m: Units, out: Units)
    requires EntriesOf(out, m) && !HasPending(m, Keys(out))
    ensures KeySet(out) == KeySet(m) && IsPrefix(Keys(out), Keys(out))
  {
    EntriesKeys(out, m);
  }

  /** One more pass while a unit is pending keeps the invariant and strictly
      shrinks the set of keys still to place. */
  lemma LoopStep(m: Units, out: Units)
    requires DistinctKeys(m) && DepsClosed(DependencyGraph(m)) && Acyclic(DependencyGraph(m))
    requires Placed(m, out) && HasPending(m, Keys(out))
    ensures var out' := ReorderPass(m, 0, out);
      && Placed(m, out')
      && IsPrefix(Keys(out), Keys(out'))
      && |KeySet(m) - KeySet(out')| < |KeySet(m) - KeySet(out)|
  {
    var out' := ReorderPass(m, 0, out);
    PassPlaced(m, 0, out);
    PassProgress(m, out);
    PassGrows(m, 0, out);
    EntriesKeys(out, m);
    EntriesKeys(out', m);
    ProperSubsetCard(KeySet(m) - KeySet(out'), KeySet(m) - KeySet(out));
  }

  /** The `while has_pending_resources(...)` loop: passes repeat until every
      key is placed. The result holds every key of `m` once, with its entry,
      each after its dependencies, and extends the map it started from. */
  function ReorderLoop(m: Units, out: Units): (r: Units)
    requires DistinctKeys(m) && DepsClosed(DependencyGraph(m)) && Acyclic(DependencyGraph(m))
    requires Placed(m, out)
    ensures Placed(m, r) && KeySet(r) == KeySet(m)
    ensures IsPrefix(Keys(out), Keys(r))
    decreases |KeySet(m) - KeySet(out)|
  {
    if !HasPending(m, Keys(out)) then
      AllPlaced(m, out);
      out
    else
      LoopStep(m, out);
      var out' := ReorderPass(m, 0, out);
      var r := ReorderLoop(m, out');
      PrefixTrans(Keys(out), Keys(out'), Keys(r));
      r
  }

  /** `reorder_resources_from_dependencies`: a permutation of the input, each
      key with its own entry, in which every unit follows its dependencies.
      It terminates because every dependency is a key of the map and the
      dependencies are acyclic. */
  function Reorder(m: Units): (r: Units)
    requires DistinctKeys(m) && DepsClosed(DependencyGraph(m)) && Acyclic(DependencyGraph(m))
    ensures KeySet(r) == KeySet(m) && DistinctKeys(r) && |r| == |m|
    ensures EntriesOf(r, m)
    ensures DepsFirst(r)
  {
    var r := ReorderLoop(m, []);
    DistinctCard(Keys(r));
    DistinctCard(Keys(m));
    r
  }

  /** In a dependencies-first map every edge points to an earlier key. */
  lemma EdgeIndex(m: Units, a: Key, b: Key)
    requires DepsFirst(m) && Edge(DependencyGraph(m), a, b)
    ensures HasKey(m, a) && HasKey(m, b)
    ensures IndexOf(Keys(m), b) < IndexOf(Keys(m), a)
  {
    var g := DependencyGraph(m);
    EdgeFacts(g, a, b);
    GraphNeighbors(m, a);
    var ia := IndexOf(Keys(m), a);
    assert b in Keys(m)[..ia];
    var j :| 0 <= j < ia && Keys(m)[j] == b;
  }

  lemma {:induction false} WalkIndex(m: Units, p: seq<Key>, n: nat)
    requires DepsFirst(m) && IsWalk(DependencyGraph(m), p) && 1 <= n < |p|
    ensures HasKey(m, p[0]) && HasKey(m, p[n])
    ensures IndexOf(Keys(m), p[n]) < IndexOf(Keys(m), p[0])
  {
    assert Edge(DependencyGraph(m), p[n - 1], p[n]);
    EdgeIndex(m, p[n - 1], p[n]);
    if n > 1 {
      WalkIndex(m, p, n - 1);
    }
  }

  /** A dependencies-first map has no dependency cycle and no dangling
      dependency. */
  lemma DepsFirstWellFormed(m: Units)
    requires DepsFirst(m)
    ensures Acyclic(DependencyGraph(m)) && DepsClosed(DependencyGraph(m))
  {
    var g := DependencyGraph(m);
    forall p | IsWalk(g, p) && |p| >= 2
      ensures p[0] != p[|p| - 1]
    {
      WalkIndex(m, p, |p| - 1);
    }
    forall i, d | 0 <= i < |g| && d in g[i].1
      ensures HasKey(g, d)
    {
      assert d in Keys(m)[..i];
    }
  }

  /** On a sorted map, position `i` is ready once the positions before it
      are placed, and is appended. */
  lemma PassSortedStep(m: Units, i: nat)
    requires DistinctKeys(m) && DepsFirst(m) && i < |m|
    ensures Ready(m[i].1, m[..i]) && Insert(m[..i], m[i].0, m[i].1) == m[..i + 1]
  {
    assert Keys(m[..i]) == Keys(m)[..i];
    AppendAt(m, i);
  }

  /** With distinct keys, the key at `i` is new to the prefix before it. */
  lemma AppendAt(m: Units, i: nat)
    requires DistinctKeys(m) && i < |m|
    ensures Insert(m[..i], m[i].0, m[i].1) == m[..i + 1]
  {
    TakeSnoc(m, i);
    assert Keys(m[..i]) == Keys(m)[..i];
    assert !HasKey(m[..i], m[i].0);
    InsertNew(m[..i], m[i].0, m[i].1);
  }

  lemma {:induction false} PassSorted(m: Units, i: nat)
    requires DistinctKeys(m) && DepsFirst(m) && i <= |m|
    ensures ReorderPass(m, i, m[..i]) == m
    decreases |m| - i
  {
    if i < |m| {
      PassSortedStep(m, i);
      PassSorted(m, i + 1);
    } else {
      assert m[..i] == m;
    }
  }

  /** A map that already lists every unit after its dependencies comes out
      unchanged: a single pass re-inserts it key by key. */
  lemma ReorderSorted(m: Units)
    requires DistinctKeys(m) && DepsFirst(m)
    ensures DepsClosed(DependencyGraph(m)) && Acyclic(DependencyGraph(m))
    ensures Reorder(m) == m
  {
    DepsFirstWellFormed(m);
    assert Placed(m, []);
    if m != [] {
      assert HasPending(m, Keys<Entry>([]));
      PassSorted(m, 0);
      assert m[..0] == [];
      assert Placed(m, m) by {
        forall i | 0 <= i < |m|
          ensures Get(m, m[i].0) == Some(m[i].1)
        {
          GetAt(m, i);
        }
      }
      assert !HasPending(m, Keys(m));
      assert ReorderLoop(m, m) == m;
    }
  }

  /** Reordering twice is reordering once. */
  lemma ReorderIdempotent(m: Units)
    requires DistinctKeys(m) && DepsClosed(DependencyGraph(m)) && Acyclic(DependencyGraph(m))
    ensures var r := Reorder(m);
      DepsClosed(DependencyGraph(r)) && Acyclic(DependencyGraph(r)) && Reorder(r) == r
  {
    ReorderSorted(Reorder(m));
  }

  /** Entries of a map made of `m`'s entries are entries of `m`. */
  lemma EntriesTrans(r: Units, f: Units, m: Units)
    requires EntriesOf(r, f) && EntriesOf(f, m) && DistinctKeys(f)
    ensures EntriesOf(r, m)
  {
    forall i | 0 <= i < |r|
      ensures Get(m, r[i].0) == Some(r[i].1)
    {
      GetFromEntries(f, m, r[i].0);
    }
  }

  /** A closed selection made of `m`'s entries has no dangling dependency
      and, when its keys lie in the closure of a stack `s` from which no
      cycle can be reached, no cycle. */
  lemma SelectionWellFormed(f: Units, m: Units, s: seq<Key>)
    requires EntriesOf(f, m) && DistinctKeys(f) && Covered(DependencyGraph(m), f, [])
    ensures DepsClosed(DependencyGraph(f))
    ensures NoCycleFrom(DependencyGraph(m), s) && KeySet(f) <= Closure(DependencyGraph(m), s) ==>
      Acyclic(DependencyGraph(f))
  {
    var g := DependencyGraph(m);
    var h := DependencyGraph(f);
    EntriesOfSubMap(f, m);
    forall i, d | 0 <= i < |h| && d in h[i].1
      ensures HasKey(h, d)
    {
      assert HasKey(f, f[i].0);
      GraphNeighbors(m, f[i].0);
      assert Get(m, f[i].0) == Some(f[i].1);
      assert d in Neighbors(g, f[i].0);
      assert HasKey(f, d);
    }
    if NoCycleFrom(g, s) && KeySet(f) <= Closure(g, s) {
      assert Keys(h) == Keys(f);
      ClosureSubMapAcyclic(h, g, s);
    }
  }

  /** `get_filtered_resources`. With `dependencies` off, the result holds
      the distinct selected keys, in pop order (the last argument first, a
      repeated key at its first pop). With it on, the result holds exactly
      the selection closed under `depends_on`, ordered dependencies first.
      Entries are always those of `m`. `None` is the `unwrap` panic: some key
      to be inserted is not in the scope. Expanding without a visited set
      terminates only when no cycle can be reached from the arguments; a
      cycle elsewhere in the scope does no harm. */
  function GetFilteredResources(m: Units, args: seq<Key>, dependencies: bool): (r: Option<Units>)
    requires dependencies ==> NoCycleFrom(DependencyGraph(m), args)
    ensures !dependencies ==> (r.None? <==> exists x :: x in args && !HasKey(m, x))
    ensures dependencies ==>
      (r.None? <==> exists x :: x in Closure(DependencyGraph(m), args) && !HasKey(m, x))
    ensures r.Some? ==> EntriesOf(r.value, m) && DistinctKeys(r.value)
    ensures r.Some? && !dependencies ==> Keys(r.value) == Dedup(Reverse(args))
    ensures r.Some? && dependencies ==>
      KeySet(r.value) == Closure(DependencyGraph(m), args) && DepsFirst(r.value)
  {
    var f := FilterLoop(m, args, [], dependencies, {});
    FilterEntries(m, args, [], dependencies, {});
    if !dependencies then
      FilterFlat(m, args, []);
      f
    else
      FilterClosure(m, args, []);
      if f.None? then None
      else
        FilterCovered(m, args, []);
        SelectionWellFormed(f.value, m, args);
        var r := Reorder(f.value);
        EntriesTrans(r, f.value, m);
        Some(r)
  }

  /** What the expanding loop yields from an empty map. */
  lemma ExpandedSelection(m: Units, filter: seq<Key>)
    requires NoCycleFrom(DependencyGraph(m), filter)
    ensures var r := FilterLoop(m, filter, [], true, {});
      && (r.None? <==> exists x :: x in Closure(DependencyGraph(m), filter) && !HasKey(m, x))
      && (r.Some? ==>
            && EntriesOf(r.value, m) && DistinctKeys(r.value)
            && KeySet(r.value) == Closure(DependencyGraph(m), filter)
            && DepsClosed(DependencyGraph(r.value)))
  {
    FilterEntries(m, filter, [], true, {});
    FilterClosure(m, filter, []);
    ExpandedClosed(m, filter);
  }

  lemma ExpandedClosed(m: Units, filter: seq<Key>)
    requires NoCycleFrom(DependencyGraph(m), filter)
    ensures var r := FilterLoop(m, filter, [], true, {});
      r.Some? ==> DepsClosed(DependencyGraph(r.value))
  {
    var r := FilterLoop(m, filter, [], true, {});
    FilterEntries(m, filter, [], true, {});
    if r.Some? {
      FilterCovered(m, filter, []);
      SelectionWellFormed(r.value, m, filter);
    }
  }

  /** `get_filtered_units` as `run_units` calls it, with a fresh `visited`
      set that nothing ever adds to. With `skip_dependencies` the result
      holds exactly the distinct filter keys, last one first; otherwise it
      holds the filter closed under `depends_on`, not reordered (see
      `UnitsPopOrder`). */
  function GetFilteredUnits(m: Units, filter: seq<Key>, skipDependencies: bool): (r: Option<Units>)
    requires !skipDependencies ==> NoCycleFrom(DependencyGraph(m), filter)
    ensures skipDependencies ==> (r.None? <==> exists x :: x in filter && !HasKey(m, x))
    ensures !skipDependencies ==>
      (r.None? <==> exists x :: x in Closure(DependencyGraph(m), filter) && !HasKey(m, x))
    ensures r.Some? ==> EntriesOf(r.value, m) && DistinctKeys(r.value)
    ensures r.Some? && skipDependencies ==> Keys(r.value) == Dedup(Reverse(filter))
    ensures r.Some? && !skipDependencies ==>
      && KeySet(r.value) == Closure(DependencyGraph(m), filter)
      && DepsClosed(DependencyGraph(r.value))
  {
    if skipDependencies then
      FilterEntries(m, filter, [], false, {});
      FilterFlat(m, filter, []);
      FilterLoop(m, filter, [], false, {})
    else
      ExpandedSelection(m, filter);
      FilterLoop(m, filter, [], true, {})
  }

  /** Without `skip_dependencies` the units stay in pop order: the last
      filter key comes first, before the dependencies it pulled in. */
  lemma UnitsPopOrder(m: Units, filter: seq<Key>)
    requires NoCycleFrom(DependencyGraph(m), filter)
    ensures var r := GetFilteredUnits(m, filter, false);
      r.Some? && filter != [] ==> |r.value| > 0 && Keys(r.value)[0] == filter[|filter| - 1]
  {
    FirstPop(m, filter);
  }

  /** The first key inserted is the last token of the filter. */
  lemma FirstPop(m: Units, stack: seq<Key>)
    requires NoCycleFrom(DependencyGraph(m), stack)
    ensures var r := FilterLoop(m, stack, [], true, {});
      r.Some? && stack != [] ==> |r.value| > 0 && Keys(r.value)[0] == stack[|stack| - 1]
  {
    if stack == [] {
      return;
    }
    var g := DependencyGraph(m);
    var k := stack[|stack| - 1];
    if HasKey(m, k) {
      PopWork(g, stack);
      var out := Insert([], k, Get(m, k).value);
      FilterPrefix(m, stack[..|stack| - 1] + Neighbors(g, k), out);
    }
  }

  /** The loop only ever inserts: the map it starts from stays a prefix. */
  lemma {:induction false} FilterPrefix(m: Units, stack: seq<Key>, out: Units)
    requires NoCycleFrom(DependencyGraph(m), stack)
    ensures var r := FilterLoop(m, stack, out, true, {});
      r.Some? ==> IsPrefix(Keys(out), Keys(r.value))
    decreases StackWork(DependencyGraph(m), stack)
  {
    var g := DependencyGraph(m);
    if stack != [] {
      var k := stack[|stack| - 1];
      if HasKey(m, k) {
        PopWork(g, stack);
        var out' := Insert(out, k, Get(m, k).value);
        FilterPrefix(m, stack[..|stack| - 1] + Neighbors(g, k), out');
        var r := FilterLoop(m, stack, out, true, {});
        if r.Some? {
          assert IsPrefix(Keys(out), Keys(out'));
          PrefixTrans(Keys(out), Keys(out'), Keys(r.value));
        }
      }
    }
  }
}

=== FILE: scheduler_examples.dfy ===
/** The source's own test cases for selection and ordering, restated as
    lemmas about the model. */
module SchedulerExamples {
  import opened Base
  import opened IndexMap
  import opened Graph
  import opened Format
  import opened Scheduler

  const A: Entry := Entry(Noop(""), None)
  const B: Entry := Entry(Noop(""), Some(["a"]))
  const C: Entry := Entry(Noop(""), Some(["b"]))

  /** `{b: [a], a, c: [b]}`, the map of the resources tests. */
  function Unsorted(): Units {
    [("b", B), ("a", A), ("c", C)]
  }

  function Sorted(): Units {
    [("a", A), ("b", B), ("c", C)]
  }

  lemma EntryFacts()
    ensures DependsOn(A) == [] && DependsOn(B) == ["a"] && DependsOn(C) == ["b"]
    ensures "a" != "b" && "b" != "c" && "a" != "c"
  {
    assert "a"[0] != "b"[0] && "b"[0] != "c"[0] && "a"[0] != "c"[0];
  }

  lemma SortedFacts()
    ensures DistinctKeys(Sorted()) && DepsFirst(Sorted())
  {
    EntryFacts();
    var m := Sorted();
    assert Keys(m) == ["a", "b", "c"];
    forall i, d | 0 <= i < |m| && d in DependsOn(m[i].1)
      ensures d in Keys(m)[..i]
    {
      if i == 1 {
        assert d == "a";
        assert Keys(m)[..1] == ["a"];
      } else if i == 2 {
        assert d == "b";
        assert Keys(m)[..2] == ["a", "b"];
      }
    }
  }

  /** The dependency lists of both maps, key by key. */
  lemma GraphFacts()
    ensures var h := DependencyGraph(Unsorted());
      && Keys(h) == ["b", "a", "c"]
      && Neighbors(h, "a") == [] && Neighbors(h, "b") == ["a"] && Neighbors(h, "c") == ["b"]
    ensures var g := DependencyGraph(Sorted());
      && Keys(g) == ["a", "b", "c"]
      && Neighbors(g, "a") == [] && Neighbors(g, "b") == ["a"] && Neighbors(g, "c") == ["b"]
  {
    EntryFacts();
    var h := DependencyGraph(Unsorted());
    var g := DependencyGraph(Sorted());
    assert h == [("b", ["a"]), ("a", []), ("c", ["b"])];
    assert g == [("a", []), ("b", ["a"]), ("c", ["b"])];
    assert Keys(h) == ["b", "a", "c"];
    assert Keys(g) == ["a", "b", "c"];
    assert IndexOf(Keys(h), "b") == 0 && IndexOf(Keys(h), "a") == 1 && IndexOf(Keys(h), "c") == 2;
    assert IndexOf(Keys(g), "a") == 0 && IndexOf(Keys(g), "b") == 1 && IndexOf(Keys(g), "c") == 2;
  }

  lemma UnsortedSubMap()
    ensures SubMap(DependencyGraph(Unsorted()), DependencyGraph(Sorted()))
  {
    var h := DependencyGraph(Unsorted());
    var g := DependencyGraph(Sorted());
    GraphFacts();
    forall k | HasKey(h, k)
      ensures HasKey(g, k) && Neighbors(h, k) == Neighbors(g, k)
    {
      assert k == "b" || k == "a" || k == "c";
    }
  }

  lemma UnsortedWellFormed()
    ensures DistinctKeys(Unsorted())
    ensures DepsClosed(DependencyGraph(Unsorted())) && Acyclic(DependencyGraph(Unsorted()))
  {
    UnsortedAcyclic();
    UnsortedClosed();
  }

  lemma UnsortedAcyclic()
    ensures Acyclic(DependencyGraph(Unsorted()))
  {
    SortedFacts();
    DepsFirstWellFormed(Sorted());
    UnsortedSubMap();
    SubMapAcyclic(DependencyGraph(Unsorted()), DependencyGraph(Sorted()));
  }

  lemma UnsortedClosed()
    ensures DistinctKeys(Unsorted()) && DepsClosed(DependencyGraph(Unsorted()))
  {
    EntryFacts();
    assert Keys(Unsorted()) == ["b", "a", "c"];
    assert DependencyGraph(Unsorted()) == [("b", ["a"]), ("a", []), ("c", ["b"])];
  }

  lemma FirstPass()
    ensures ReorderPass(Unsorted(), 0, []) == [("a", A)]
  {
    var m := Unsorted();
    var a := [("a", A)];
    assert [] + [("a", A)] == a;
    EntryFacts();
    assert m[0] == ("b", B) && m[1] == ("a", A) && m[2] == ("c", C);
    assert !Ready(B, []) by {
      assert "a" in DependsOn(B) && !HasKey<Entry>([], "a");
    }
    PassSkip(m, 0, []);
    PassTake(m, 1, []);
    InsertNew([], "a", A);
    assert !Ready(C, a) by {
      assert Keys(a) == ["a"];
      assert "b" in DependsOn(C) && !HasKey(a, "b");
    }
    PassSkip(m, 2, a);
  }

  /** The second pass, unit by unit: `b` is now ready and appended, `a` is
      re-inserted in place, `c` is appended. */
  lemma SecondPass()
    ensures ReorderPass(Unsorted(), 0, [("a", A)]) == Sorted()
  {
    SecondPassB();
    SecondPassA();
    SecondPassC();
  }

  lemma SecondPassB()
    ensures ReorderPass(Unsorted(), 0, [("a", A)]) == ReorderPass(Unsorted(), 1, [("a", A), ("b", B)])
  {
    var a := [("a", A)];
    assert a + [("b", B)] == [("a", A), ("b", B)];
    EntryFacts();
    assert Keys(a) == ["a"];
    PassTake(Unsorted(), 0, a);
    InsertNew(a, "b", B);
  }

  lemma SecondPassA()
    ensures ReorderPass(Unsorted(), 1, [("a", A), ("b", B)]) == ReorderPass(Unsorted(), 2, [("a", A), ("b", B)])
  {
    var ab := [("a", A), ("b", B)];
    assert Keys(ab) == ["a", "b"];
    PassTake(Unsorted(), 1, ab);
    assert Get(ab, "a") == Some(A);
    InsertSame(ab, "a", A);
  }

  lemma SecondPassC()
    ensures ReorderPass(Unsorted(), 2, [("a", A), ("b", B)]) == Sorted()
  {
    var ab := [("a", A), ("b", B)];
    assert ab + [("c", C)] == Sorted();
    EntryFacts();
    assert Keys(ab) == ["a", "b"];
    PassTake(Unsorted(), 2, ab);
    InsertNew(ab, "c", C);
  }

  lemma PlacedFacts()
    ensures Placed(Unsorted(), []) && Placed(Unsorted(), [("a", A)]) && Placed(Unsorted(), Sorted())
  {
    EntryFacts();
    var m := Unsorted();
    assert Keys(m) == ["b", "a", "c"];
    assert Get(m, "a") == Some(A) && Get(m, "b") == Some(B) && Get(m, "c") == Some(C);
    SortedFacts();
    assert Keys([("a", A)]) == ["a"];
  }

  lemma LastLoop()
    requires DistinctKeys(Unsorted())
    requires DepsClosed(DependencyGraph(Unsorted())) && Acyclic(DependencyGraph(Unsorted()))
    requires Placed(Unsorted(), Sorted())
    ensures ReorderLoop(Unsorted(), Sorted()) == Sorted()
  {
    assert Keys(Sorted()) == ["a", "b", "c"] && Keys(Unsorted()) == ["b", "a", "c"];
    assert !HasPending(Unsorted(), Keys(Sorted()));
  }

  lemma MiddleLoop()
    requires DistinctKeys(Unsorted())
    requires DepsClosed(DependencyGraph(Unsorted())) && Acyclic(DependencyGraph(Unsorted()))
    requires Placed(Unsorted(), [("a", A)]) && Placed(Unsorted(), Sorted())
    ensures ReorderLoop(Unsorted(), [("a", A)]) == Sorted()
  {
    EntryFacts();
    assert Keys([("a", A)]) == ["a"] && Keys(Unsorted()) == ["b", "a", "c"];
    assert HasPending(Unsorted(), Keys([("a", A)]));
    SecondPass();
    LastLoop();
  }

  /** `test_reorder_resources_from_dependencies_returns_resources_in_right_order`:
      the first pass places `a`; the second places `b`, re-inserts `a` in
      place and then places `c`. */
  lemma ReorderExample()
    ensures DistinctKeys(Unsorted())
    ensures DepsClosed(DependencyGraph(Unsorted())) && Acyclic(DependencyGraph(Unsorted()))
    ensures Reorder(Unsorted()) == Sorted()
  {
    UnsortedWellFormed();
    PlacedFacts();
    assert Keys(Unsorted()) == ["b", "a", "c"];
    assert HasPending(Unsorted(), Keys<Entry>([]));
    FirstPass();
    MiddleLoop();
  }
}

=== FILE: selector.dfy ===
/** Selector tokens on the command line: `key` selects a unit of the current
    scope, `group:rest` selects `group` and passes `rest` down into it. */
module Selector {
  import opened Base
  import opened IndexMap

  /** `splitn(2, ":")`: the text before the first colon and, when there is a
      colon, the text after it. */
  function SplitFirst(s: string): (r: (string, Option<string>))
    ensures ':' !in r.0
    ensures r.1.None? ==> r.0 == s
    ensures r.1.Some? ==> s == r.0 + ":" + r.1.value
  {
    if s == [] then ("", None)
    else if s[0] == ':' then ("", Some(s[1..]))
    else
      var t := SplitFirst(s[1..]);
      ([s[0]] + t.0, t.1)
  }

  /** The split is the only one with a colon-free head: splitting
      `head + ":" + tail` gives back exactly `head` and `tail`. */
  lemma {:induction false} SplitFirstJoin(head: string, tail: string)
    requires ':' !in head
    ensures SplitFirst(head + ":" + tail) == (head, Some(tail))
  {
    var s := head + ":" + tail;
    if head == [] {
      assert s[1..] == tail;
    } else {
      assert s[1..] == head[1..] + ":" + tail;
      SplitFirstJoin(head[1..], tail);
      assert [head[0]] + head[1..] == head;
    }
  }

  /** A token without a colon is a bare key. */
  lemma {:induction false} SplitFirstBare(s: string)
    requires ':' !in s
    ensures SplitFirst(s) == (s, None)
  {
    if s != [] {
      SplitFirstBare(s[1..]);
      assert [s[0]] + s[1..] == s;
    }
  }

  /** `get_resources_args_part_0`: the key each token selects in the current
      scope. The result has one entry per token, in order, duplicates kept;
      each entry is the token itself or the colon-free text before its first
      colon. */
  function Part0(args: seq<string>): (r: seq<Key>)
    ensures |r| == |args|
    ensures forall i :: 0 <= i < |args| ==>
      && ':' !in r[i]
      && (r[i] == args[i] || IsPrefix(r[i] + ":", args[i]))
  {
    seq(|args|, i requires 0 <= i < |args| => SplitFirst(args[i]).0)
  }

  /** The token addresses a unit inside group `key`. */
  predicate InGroup(key: Key, a: string) {
    IsPrefix(key + ":", a)
  }

  /** `get_resources_args_part_1`: for the tokens that start with `key:`, the
      text after their first colon, in order. */
  function Part1(args: seq<string>, key: Key): (r: seq<string>)
    ensures |r| <= |args|
    ensures r == [] <==> forall a :: a in args ==> !InGroup(key, a)
  {
    if args == [] then []
    else
      var head := if InGroup(key, args[0]) then [SplitFirst(args[0]).1.GetOr("")] else [];
      head + Part1(args[1..], key)
  }

  /** `Part1` handles tokens independently and keeps their order. */
  lemma {:induction false} Part1Append(a: seq<string>, b: seq<string>, key: Key)
    ensures Part1(a + b, key) == Part1(a, key) + Part1(b, key)
  {
    if a != [] {
      var head := if InGroup(key, a[0]) then [SplitFirst(a[0]).1.GetOr("")] else [];
      AppendCons(a, b);
      assert Part1(a + b, key) == head + Part1(a[1..] + b, key);
      Part1Append(a[1..], b, key);
      AppendAssoc(head, Part1(a[1..], key), Part1(b, key));
    } else {
      assert a + b == b;
    }
  }

  /** For a colon-free group key, `key:rest` contributes exactly `rest`, and
      a token for another key, or the bare `key`, contributes nothing. */
  lemma Part1Token(key: Key, a: string)
    requires ':' !in key
    ensures InGroup(key, a) ==> Part1([a], key) == [a[|key| + 1..]]
    ensures !InGroup(key, a) ==> Part1([a], key) == []
    ensures Part1([key], key) == []
  {
    Part1Single(key, a);
    Part1Single(key, key);
    if InGroup(key, a) {
      GroupRest(key, a);
    }
    assert !InGroup(key, key) by {
      assert |key + ":"| > |key|;
    }
  }

  /** A token in a colon-free group splits right after the group key. */
  lemma GroupRest(key: Key, a: string)
    requires ':' !in key && InGroup(key, a)
    ensures SplitFirst(a).1 == Some(a[|key| + 1..])
  {
    assert a == key + ":" + a[|key| + 1..];
    SplitFirstJoin(key, a[|key| + 1..]);
  }

  /** One token on its own: its rest when it is in the group, else nothing. */
  lemma Part1Single(key: Key, a: string)
    ensures Part1([a], key) == if InGroup(key, a) then [SplitFirst(a).1.GetOr("")] else []
  {
    assert [a][0] == a && [a][1..] == [];
  }

  /** `get_resources_args_for_group`: the tokens addressed inside the group,
      or, when there are none (the group was named bare), every key of the
      group in declaration order. */
  function ArgsForGroup<V>(args: seq<string>, key: Key, group: OrderedMap<V>): (r: seq<string>)
    ensures (forall a :: a in args ==> !InGroup(key, a)) ==> r == Keys(group)
    ensures (exists a :: a in args && InGroup(key, a)) ==> r == Part1(args, key) && r != []
  {
    var inner := Part1(args, key);
    if inner == [] then Keys(group) else inner
  }

  /** `get_group_namespace`: `parent:key`, or `key` at the root. */
  function GroupNamespace(parent: Option<string>, key: Key): (r: Option<string>)
    ensures r.Some?
    ensures parent.None? ==> r.value == key
    ensures parent.Some? ==> IsPrefix(parent.value + ":", r.value) && |r.value| == |parent.value| + 1 + |key|
    ensures parent.Some? ==> r.value[|parent.value| + 1..] == key
  {
    match parent
    case Some(ns) => Some(ns + ":" + key)
    case None => Some(key)
  }

  /** The namespace of a scope reached through the groups `path` (outermost
      first), built one level at a time as the recursion does. */
  function ScopeNamespace(path: seq<Key>): Option<string>
    decreases |path|
  {
    if path == [] then None
    else GroupNamespace(ScopeNamespace(path[..|path| - 1]), path[|path| - 1])
  }

  /** A nested scope's namespace starts with the outermost group key: read as
      a selector token it addresses that root-level group. */
  lemma {:induction false} NamespaceHead(path: seq<Key>)
    requires |path| >= 1 && ':' !in path[0]
    ensures ScopeNamespace(path).Some?
    ensures SplitFirst(ScopeNamespace(path).value).0 == path[0]
    ensures |path| == 1 <==> SplitFirst(ScopeNamespace(path).value).1.None?
    decreases |path|
  {
    if |path| == 1 {
      SplitFirstBare(path[0]);
    } else {
      var up := path[..|path| - 1];
      NamespaceHead(up);
      var ns := ScopeNamespace(up).value;
      var t := SplitFirst(ns);
      var full := ns + ":" + path[|path| - 1];
      if t.1.None? {
        SplitFirstJoin(t.0, path[|path| - 1]);
      } else {
        assert full == t.0 + ":" + (t.1.value + ":" + path[|path| - 1]);
        SplitFirstJoin(t.0, t.1.value + ":" + path[|path| - 1]);
      }
    }
  }
}

=== FILE: unit_runner.dfy ===
/** `run_units` (libm8s/src/units.rs), the revision without groups: select
    the units, then repeat passes over them in map order until every key has
    run, running in each pass every unit whose dependencies have run by
    then. Nothing stops a pass from running a unit again that an earlier
    pass already ran. */
module UnitRunner {
  import opened Base
  import opened IndexMap
  import opened Graph
  import opened Errors
  import opened Process
  import opened Format
  import opened Paths
  import opened Scheduler

  /** A `helm list`: the only kind of process a dry run of this revision
      starts, because its release probe ignores the dry-run flag. */
  predicate IsListing(c: Command) {
    c.program == "helm" && |c.args| > 0 && c.args[0] == "list"
  }

  /** Every process in `cs` is a `helm list`. */
  predicate ListingsOnly(cs: seq<Command>) {
    forall c :: c in cs ==> IsListing(c)
  }

  /** One unit, with its files joined onto `root`: manifests and values
      files are, a local chart's path is not. This revision has no groups;
      a group runs nothing. */
  function RunUnit(env: Env, t: nat, root: string, u: Unit, kubeconfig: Option<string>, dryRun: bool): (r: Run)
    ensures u.Noop? ==> r == Run([], Pass)
    ensures u.Manifest? ==> r == RunCommand(env, t, ManifestCommand(Join(root, u.path), kubeconfig), dryRun)
    ensures u.Shell? ==> r == RunCommand(env, t, ShellCommand(u.input, kubeconfig), dryRun)
    ensures (u.HelmLocal? || u.HelmRemote?) && !dryRun && env.list(t, ListCommand(u.namespace, kubeconfig)).Some? ==>
      var installed := Release(u.name, u.namespace) in env.list(t, ListCommand(u.namespace, kubeconfig)).value;
      var values := JoinAll(root, u.values.GetOr([]));
      && |r.spawned| == 2 && r.spawned[0] == ListCommand(u.namespace, kubeconfig)
      && r.spawned[1].program == "helm" && r.spawned[1].kubeconfig == kubeconfig
      && (u.HelmLocal? ==> r.spawned[1].args == HelmLocalArgs(installed, u.name, u.chartPath, u.namespace, values))
      && (u.HelmRemote? ==>
            r.spawned[1].args == HelmRemoteArgs(installed, u.name, u.chartName, u.chartVersion, u.namespace, values))
    ensures dryRun ==> ListingsOnly(r.spawned)
    ensures dryRun ==> r.outcome.Pass? || r.outcome.error == ReleasesUnreadable
    ensures r.outcome.Fail? ==> r.outcome.error == ReleasesUnreadable || r.outcome.error.CommandFailed?
  {
    match u
    case Noop(_) => Run([], Pass)
    case Shell(input) => RunCommand(env, t, ShellCommand(input, kubeconfig), dryRun)
    case Manifest(path) => RunCommand(env, t, ManifestCommand(Join(root, path), kubeconfig), dryRun)
    case HelmRemote(name, namespace, chart, version, values) =>
      HelmDeploy(env, t, name, namespace, kubeconfig, dryRun, false,
        HelmRemoteArgs(false, name, chart, version, namespace, JoinAll(root, values.GetOr([]))),
        HelmRemoteArgs(true, name, chart, version, namespace, JoinAll(root, values.GetOr([]))))
    case HelmLocal(name, namespace, chartPath, values) =>
      HelmDeploy(env, t, name, namespace, kubeconfig, dryRun, false,
        HelmLocalArgs(false, name, chartPath, namespace, JoinAll(root, values.GetOr([]))),
        HelmLocalArgs(true, name, chartPath, namespace, JoinAll(root, values.GetOr([]))))
    case Group(_) => Run([], Pass)
  }

  /** How the loop runs one unit, given how many processes started before:
      the loop below is written against any such runner. */
  type Runner = (nat, Unit) -> Run

  /** `RunUnit` with everything but the unit and the process count fixed. */
  function UnitRun(env: Env, root: string, kubeconfig: Option<string>, dryRun: bool): Runner {
    (t: nat, x: Unit) => RunUnit(env, t, root, x, kubeconfig, dryRun)
  }

  /** Every process `run` starts is a `helm list`. */
  ghost predicate OnlyListings(run: Runner) {
    forall t: nat, x :: ListingsOnly(run(t, x).spawned)
  }

  /** `o` is how some run of some unit ends. */
  ghost predicate RaisedBy(run: Runner, o: Outcome<Error>) {
    exists t: nat, x :: run(t, x).outcome == o
  }

  /** The keys run, in order (`unit_keys_done`, plus the key of a unit that
      failed), the processes started, and how the run ended. */
  datatype Step = Step(dispatched: seq<Key>, spawned: seq<Command>, outcome: Outcome<Error>)

  /** The last key of `r` is a unit of `u` whose run, started at `s` once
      all but its own processes had started, ended as `r` did. */
  ghost predicate EndsAt(run: Runner, t: nat, u: Units, r: Step, s: nat) {
    && r.dispatched != [] && HasKey(u, r.dispatched[|r.dispatched| - 1])
    && var e := run(s, Get(u, r.dispatched[|r.dispatched| - 1]).value.unit);
       && e.outcome == r.outcome && IsSuffix(e.spawned, r.spawned)
       && s == t + |r.spawned| - |e.spawned|
  }

  /** A failed run stopped at the first unit that failed (the `?` after
      each unit): that unit is the last key run and nothing started after
      it. */
  ghost predicate FailedLast(run: Runner, t: nat, u: Units, r: Step) {
    r.outcome.Fail? ==> exists s: nat :: EndsAt(run, t, u, r, s)
  }

  /** A run that failed by its first unit ends at that unit. */
  lemma FailedHere(run: Runner, t: nat, u: Units, i: nat, r: Step)
    requires i < |u| && Get(u, u[i].0) == Some(u[i].1)
    requires r == Step([u[i].0], run(t, u[i].1.unit).spawned, run(t, u[i].1.unit).outcome)
    ensures FailedLast(run, t, u, r)
  {
    assert r.spawned[|r.spawned| - |r.spawned|..] == r.spawned;
    assert EndsAt(run, t, u, r, t);
  }

  /** Work done before a run that failed keeps the unit it ended at. */
  lemma FailedAfter(run: Runner, t: nat, t2: nat, u: Units, a: seq<Key>, sa: seq<Command>, rest: Step)
    requires t2 == t + |sa| && FailedLast(run, t2, u, rest)
    ensures FailedLast(run, t, u, Step(a + rest.dispatched, sa + rest.spawned, rest.outcome))
  {
    if rest.outcome.Fail? {
      var s: nat :| EndsAt(run, t2, u, rest, s);
      FailedJoin(run, t, u, a, sa, rest, s);
    }
  }

  /** `FailedAfter` for a known start of the failing unit. */
  lemma FailedJoin(run: Runner, t: nat, u: Units, a: seq<Key>, sa: seq<Command>, rest: Step, s: nat)
    requires EndsAt(run, t + |sa|, u, rest, s)
    ensures EndsAt(run, t, u, Step(a + rest.dispatched, sa + rest.spawned, rest.outcome), s)
  {
    var r := Step(a + rest.dispatched, sa + rest.spawned, rest.outcome);
    var e := run(s, Get(u, rest.dispatched[|rest.dispatched| - 1]).value.unit);
    assert r.dispatched[|r.dispatched| - 1] == rest.dispatched[|rest.dispatched| - 1];
    assert r.spawned[|r.spawned| - |e.spawned|..] == rest.spawned[|rest.spawned| - |e.spawned|..];
  }

  /** Every dependency of `e` has already run. */
  predicate ReadyIn(e: Entry, done: seq<Key>) {
    forall d :: d in DependsOn(e) ==> d in done
  }

  /** Each key in `ds` is a unit of `u` whose dependencies ran before it,
      counting the keys `done` before `ds` started. */
  predicate InOrder(u: Units, done: seq<Key>, ds: seq<Key>) {
    forall j :: 0 <= j < |ds| ==> HasKey(u, ds[j]) && ReadyIn(Get(u, ds[j]).value, done + ds[..j])
  }

  /** No key in `ds` ran before, in `done` or earlier in `ds`. */
  predicate Fresh(done: seq<Key>, ds: seq<Key>) {
    forall j :: 0 <= j < |ds| ==> ds[j] !in done + ds[..j]
  }

  lemma InOrderCons(u: Units, done: seq<Key>, k: Key, ds: seq<Key>)
    requires HasKey(u, k) && ReadyIn(Get(u, k).value, done)
    requires InOrder(u, done + [k], ds)
    ensures InOrder(u, done, [k] + ds)
  {
    var s := [k] + ds;
    forall j | 0 <= j < |s|
      ensures HasKey(u, s[j]) && ReadyIn(Get(u, s[j]).value, done + s[..j])
    {
      if j > 0 {
        assert done + s[..j] == done + [k] + ds[..j - 1];
      }
    }
  }

  lemma FreshCons(done: seq<Key>, k: Key, ds: seq<Key>)
    requires k !in done && Fresh(done + [k], ds)
    ensures Fresh(done, [k] + ds)
  {
    var s := [k] + ds;
    forall j | 0 <= j < |s|
      ensures s[j] !in done + s[..j]
    {
      if j > 0 {
        assert done + s[..j] == done + [k] + ds[..j - 1];
      }
    }
  }

  lemma PassCons(u: Units, done: seq<Key>, k: Key, ds: seq<Key>, skip: bool, once: bool)
    requires HasKey(u, k)
    requires !skip ==> ReadyIn(Get(u, k).value, done) && InOrder(u, done + [k], ds)
    requires once ==> k !in done && Fresh(done + [k], ds)
    ensures !skip ==> InOrder(u, done, [k] + ds)
    ensures once ==> Fresh(done, [k] + ds)
  {
    if !skip {
      InOrderCons(u, done, k, ds);
    }
    if once {
      FreshCons(done, k, ds);
    }
  }

  /** Whether the pass runs `u[i]`: with `once` (the corrected loop) a key
      that already ran is skipped; unless `skip` is set, a unit waits for
      its dependencies. */
  predicate Runs(e: Entry, k: Key, done: seq<Key>, skip: bool, once: bool) {
    (!once || k !in done) && (skip || ReadyIn(e, done))
  }

  /** One pass of the `for` loop, from position `i`. */
  function UnitsPass(run: Runner, t: nat, u: Units, i: nat, done: seq<Key>, skip: bool, once: bool): (r: Step)
    requires DistinctKeys(u) && i <= |u|
    ensures forall k :: k in r.dispatched ==> HasKey(u, k)
    ensures skip && !once && r.outcome.Pass? ==> r.dispatched == Keys(u)[i..]
    ensures OnlyListings(run) ==> ListingsOnly(r.spawned)
    ensures r.outcome.Fail? ==> RaisedBy(run, r.outcome)
    decreases |u| - i
  {
    if i == |u| then Step([], [], Pass)
    else
      var k := u[i].0;
      assert Keys(u)[i..] == [k] + Keys(u)[i + 1..];
      if !Runs(u[i].1, k, done, skip, once) then
        UnitsPass(run, t, u, i + 1, done, skip, once)
      else
        var one := run(t, u[i].1.unit);
        GetAt(u, i);
        if one.outcome.Fail? then
          Step([k], one.spawned, one.outcome)
        else
          var rest := UnitsPass(run, t + |one.spawned|, u, i + 1, done + [k], skip, once);
          Step([k] + rest.dispatched, one.spawned + rest.spawned, rest.outcome)
  }

  /** Unless dependencies are skipped, every unit a pass runs had its
      dependencies run before it; with `once`, no unit runs twice. */
  lemma {:induction false} PassOrder(run: Runner, t: nat, u: Units, i: nat, done: seq<Key>, skip: bool, once: bool)
    requires DistinctKeys(u) && i <= |u|
    ensures var r := UnitsPass(run, t, u, i, done, skip, once);
      && (!skip ==> InOrder(u, done, r.dispatched))
      && (once ==> Fresh(done, r.dispatched))
    decreases |u| - i
  {
    if i < |u| {
      var k := u[i].0;
      var r := UnitsPass(run, t, u, i, done, skip, once);
      if !Runs(u[i].1, k, done, skip, once) {
        assert r == UnitsPass(run, t, u, i + 1, done, skip, once);
        PassOrder(run, t, u, i + 1, done, skip, once);
      } else {
        GetAt(u, i);
        var one := run(t, u[i].1.unit);
        if one.outcome.Fail? {
          assert r.dispatched == [k] + [];
          NothingRun(u, done + [k]);
          PassCons(u, done, k, [], skip, once);
        } else {
          var rest := UnitsPass(run, t + |one.spawned|, u, i + 1, done + [k], skip, once);
          assert r.dispatched == [k] + rest.dispatched;
          PassOrder(run, t + |one.spawned|, u, i + 1, done + [k], skip, once);
          PassCons(u, done, k, rest.dispatched, skip, once);
        }
      }
    }
  }

  /** A pass that fails stops at the unit that failed. */
  lemma {:induction false} PassFailedLast(run: Runner, t: nat, u: Units, i: nat, done: seq<Key>, skip: bool, once: bool)
    requires DistinctKeys(u) && i <= |u|
    ensures FailedLast(run, t, u, UnitsPass(run, t, u, i, done, skip, once))
    decreases |u| - i
  {
    if i < |u| {
      var k := u[i].0;
      var r := UnitsPass(run, t, u, i, done, skip, once);
      if !Runs(u[i].1, k, done, skip, once) {
        assert r == UnitsPass(run, t, u, i + 1, done, skip, once);
        PassFailedLast(run, t, u, i + 1, done, skip, once);
      } else {
        GetAt(u, i);
        var one := run(t, u[i].1.unit);
        if one.outcome.Fail? {
          assert r == Step([k], one.spawned, one.outcome);
          FailedHere(run, t, u, i, r);
        } else {
          var t2 := t + |one.spawned|;
          var rest := UnitsPass(run, t2, u, i + 1, done + [k], skip, once);
          assert r == Step([k] + rest.dispatched, one.spawned + rest.spawned, rest.outcome);
          PassFailedLast(run, t2, u, i + 1, done + [k], skip, once);
          FailedAfter(run, t, t2, u, [k], one.spawned, rest);
        }
      }
    }
  }

  /** A unit that may run when the pass reaches it (or earlier) has run by
      the end of a pass that did not fail: in this pass, or before it. */
  lemma {:induction false} PassReaches(run: Runner, t: nat, u: Units, i: nat, done: seq<Key>,
                                       skip: bool, once: bool, j: nat)
    requires DistinctKeys(u) && i <= j < |u|
    requires skip || ReadyIn(u[j].1, done)
    ensures var r := UnitsPass(run, t, u, i, done, skip, once);
      r.outcome.Pass? ==> u[j].0 in done + r.dispatched
    decreases |u| - i
  {
    var r := UnitsPass(run, t, u, i, done, skip, once);
    var k := u[i].0;
    var one := run(t, u[i].1.unit);
    if Runs(u[i].1, k, done, skip, once) && one.outcome.Pass? {
      var rest := UnitsPass(run, t + |one.spawned|, u, i + 1, done + [k], skip, once);
      assert r.dispatched == [k] + rest.dispatched;
      if j > i {
        PassReaches(run, t + |one.spawned|, u, i + 1, done + [k], skip, once, j);
        assert done + [k] + rest.dispatched == done + r.dispatched;
      } else {
        assert (done + r.dispatched)[|done|] == k;
      }
    } else if !Runs(u[i].1, k, done, skip, once) && j > i {
      PassReaches(run, t, u, i + 1, done, skip, once, j);
    }
  }

  /** Some unit that has not run is ready: follow dependencies that have not
      run, which lowers the rank at each step, until one has none. */
  lemma {:induction false} SomeReadyIn(u: Units, done: seq<Key>, k: Key)
    requires DepsClosed(DependencyGraph(u)) && Acyclic(DependencyGraph(u))
    requires DistinctKeys(u) && HasKey(u, k) && k !in done
    ensures exists j :: 0 <= j < |u| && u[j].0 !in done && ReadyIn(u[j].1, done)
    decreases Rank(DependencyGraph(u), k)
  {
    var g := DependencyGraph(u);
    var j := IndexOf(Keys(u), k);
    if !ReadyIn(u[j].1, done) {
      var d :| d in DependsOn(u[j].1) && d !in done;
      GraphNeighbors(u, k);
      GetAt(u, j);
      assert Edge(g, k, d);
      RankDecreases(g, k, d);
      assert HasKey(g, d) by {
        assert d in g[j].1;
      }
      SomeReadyIn(u, done, d);
    }
  }

  /** A unit that has not run and may run now exists while some unit is
      pending. */
  lemma Candidate(u: Units, done: seq<Key>, skip: bool) returns (j: nat)
    requires DistinctKeys(u) && HasPending(u, done)
    requires !skip ==> Acyclic(DependencyGraph(u)) && DepsClosed(DependencyGraph(u))
    ensures j < |u| && u[j].0 !in done && (skip || ReadyIn(u[j].1, done))
  {
    var p :| 0 <= p < |u| && u[p].0 !in done;
    j := p;
    if !skip {
      assert u[p].0 in Keys(u);
      SomeReadyIn(u, done, u[p].0);
      j :| 0 <= j < |u| && u[j].0 !in done && ReadyIn(u[j].1, done);
    }
  }

  /** Running a key of `keys` that had not run shrinks what is left to run. */
  lemma Shrinks(keys: set<Key>, done: seq<Key>, ds: seq<Key>, x: Key)
    requires Elems(done) <= keys && (forall k :: k in ds ==> k in keys)
    requires x in keys && x !in done && x in done + ds
    ensures Elems(done + ds) <= keys
    ensures |keys - Elems(done + ds)| < |keys - Elems(done)|
  {
    assert x in keys - Elems(done);
    ProperSubsetCard(keys - Elems(done + ds), keys - Elems(done));
  }

  /** While a unit is pending, a pass that does not fail runs a unit that
      had not run: the set of keys still to run shrinks. */
  lemma LoopProgress(run: Runner, t: nat, u: Units, done: seq<Key>, skip: bool, once: bool)
    requires DistinctKeys(u)
    requires !skip ==> Acyclic(DependencyGraph(u)) && DepsClosed(DependencyGraph(u))
    requires Elems(done) <= KeySet(u) && HasPending(u, done)
    requires UnitsPass(run, t, u, 0, done, skip, once).outcome.Pass?
    ensures var ds := UnitsPass(run, t, u, 0, done, skip, once).dispatched;
      && Elems(done + ds) <= KeySet(u)
      && |KeySet(u) - Elems(done + ds)| < |KeySet(u) - Elems(done)|
  {
    var ds := UnitsPass(run, t, u, 0, done, skip, once).dispatched;
    var j := Candidate(u, done, skip);
    PassReaches(run, t, u, 0, done, skip, once, j);
    assert u[j].0 == Keys(u)[j];
    Shrinks(KeySet(u), done, ds, u[j].0);
  }

  lemma InOrderAppend(u: Units, done: seq<Key>, a: seq<Key>, b: seq<Key>)
    requires InOrder(u, done, a) && InOrder(u, done + a, b)
    ensures InOrder(u, done, a + b)
  {
    var s := a + b;
    forall j | 0 <= j < |s|
      ensures HasKey(u, s[j]) && ReadyIn(Get(u, s[j]).value, done + s[..j])
    {
      if j < |a| {
        assert s[..j] == a[..j];
      } else {
        assert done + s[..j] == done + a + b[..j - |a|];
      }
    }
  }

  lemma FreshAppend(done: seq<Key>, a: seq<Key>, b: seq<Key>)
    requires Fresh(done, a) && Fresh(done + a, b)
    ensures Fresh(done, a + b)
  {
    var s := a + b;
    forall j | 0 <= j < |s|
      ensures s[j] !in done + s[..j]
    {
      if j < |a| {
        assert s[..j] == a[..j];
      } else {
        assert done + s[..j] == done + a + b[..j - |a|];
      }
    }
  }

  lemma LoopJoin(u: Units, done: seq<Key>, a: seq<Key>, b: seq<Key>, skip: bool, once: bool)
    requires !skip ==> InOrder(u, done, a) && InOrder(u, done + a, b)
    requires once ==> Fresh(done, a) && Fresh(done + a, b)
    ensures !skip ==> InOrder(u, done, a + b)
    ensures once ==> Fresh(done, a + b)
  {
    if !skip {
      InOrderAppend(u, done, a, b);
    }
    if once {
      FreshAppend(done, a, b);
    }
  }

  lemma DoneKeys(u: Units, done: seq<Key>)
    requires KeySet(u) <= Elems(done)
    ensures KeySet(u) <= Elems(done + [])
  {
    assert done + [] == done;
  }

  lemma NothingRun(u: Units, done: seq<Key>)
    ensures InOrder(u, done, []) && Fresh(done, [])
  {
  }

  /** The bookkeeping of joining one pass to the passes after it. */
  lemma StepJoin(run: Runner, u: Units, done: seq<Key>, a: seq<Key>, b: seq<Key>, sa: seq<Command>, sb: seq<Command>)
    requires forall k :: k in a ==> HasKey(u, k)
    requires forall k :: k in b ==> HasKey(u, k)
    requires OnlyListings(run) ==> ListingsOnly(sa) && ListingsOnly(sb)
    ensures forall k :: k in a + b ==> HasKey(u, k)
    ensures Elems(done + a + b) == Elems(done + (a + b))
    ensures OnlyListings(run) ==> ListingsOnly(sa + sb)
  {
    assert done + a + b == done + (a + b);
  }

  /** The bookkeeping of joining a pass that did not fail to the passes
      after it, started at `t2` with `done2` done. */
  lemma LoopStep(run: Runner, t: nat, t2: nat, u: Units, done: seq<Key>, done2: seq<Key>, skip: bool, once: bool,
                 pass: Step, rest: Step)
    requires t2 == t + |pass.spawned| && done2 == done + pass.dispatched
    requires forall k :: k in pass.dispatched ==> HasKey(u, k)
    requires !skip ==> InOrder(u, done, pass.dispatched)
    requires once ==> Fresh(done, pass.dispatched)
    requires OnlyListings(run) ==> ListingsOnly(pass.spawned)
    requires forall k :: k in rest.dispatched ==> HasKey(u, k)
    requires rest.outcome.Pass? ==> KeySet(u) <= Elems(done2 + rest.dispatched)
    requires !skip ==> InOrder(u, done2, rest.dispatched)
    requires once ==> Fresh(done2, rest.dispatched)
    requires OnlyListings(run) ==> ListingsOnly(rest.spawned)
    requires rest.outcome.Fail? ==> RaisedBy(run, rest.outcome)
    ensures var r := Step(pass.dispatched + rest.dispatched, pass.spawned + rest.spawned, rest.outcome);
      && (forall k :: k in r.dispatched ==> HasKey(u, k))
      && (r.outcome.Pass? ==> KeySet(u) <= Elems(done + r.dispatched))
      && (!skip ==> InOrder(u, done, r.dispatched))
      && (once ==> Fresh(done, r.dispatched))
      && (OnlyListings(run) ==> ListingsOnly(r.spawned))
      && (r.outcome.Fail? ==> RaisedBy(run, r.outcome))
  {
    StepJoin(run, u, done, pass.dispatched, rest.dispatched, pass.spawned, rest.spawned);
    LoopJoin(u, done, pass.dispatched, rest.dispatched, skip, once);
  }

  /** The `while has_pending_units(...)` loop: passes repeat until every key
      has run. It ends because a pass that does not fail runs some key that
      had not run, which needs every dependency to be a unit and no cycle
      unless dependencies are skipped. A unit that fails (a `?` in the body)
      ends the loop. */
  function UnitsLoop(run: Runner, t: nat, u: Units, done: seq<Key>, skip: bool, once: bool): (r: Step)
    requires DistinctKeys(u)
    requires !skip ==> Acyclic(DependencyGraph(u)) && DepsClosed(DependencyGraph(u))
    requires Elems(done) <= KeySet(u)
    ensures forall k :: k in r.dispatched ==> HasKey(u, k)
    ensures r.outcome.Pass? ==> KeySet(u) <= Elems(done + r.dispatched)
    ensures !skip ==> InOrder(u, done, r.dispatched)
    ensures once ==> Fresh(done, r.dispatched)
    ensures OnlyListings(run) ==> ListingsOnly(r.spawned)
    ensures r.outcome.Fail? ==> RaisedBy(run, r.outcome)
    ensures FailedLast(run, t, u, r)
    decreases |KeySet(u) - Elems(done)|
  {
    if !HasPending(u, done) then
      DoneKeys(u, done);
      NothingRun(u, done);
      Step([], [], Pass)
    else
      var pass := UnitsPass(run, t, u, 0, done, skip, once);
      PassOrder(run, t, u, 0, done, skip, once);
      PassFailedLast(run, t, u, 0, done, skip, once);
      if pass.outcome.Fail? then pass
      else
        LoopProgress(run, t, u, done, skip, once);
        var rest := UnitsLoop(run, t + |pass.spawned|, u, done + pass.dispatched, skip, once);
        LoopStep(run, t, t + |pass.spawned|, u, done, done + pass.dispatched, skip, once, pass, rest);
        assert FailedLast(run, t, u, Step(pass.dispatched + rest.dispatched, pass.spawned + rest.spawned, rest.outcome)) by {
          if rest.outcome.Fail? {
            var s: nat :| EndsAt(run, t + |pass.spawned|, u, rest, s);
            FailedJoin(run, t, u, pass.dispatched, pass.spawned, rest, s);
          }
        }
        Step(pass.dispatched + rest.dispatched, pass.spawned + rest.spawned, rest.outcome)
  }

  /** The units `run_units` works on: all of them without a filter, else
      `get_filtered_units` (`None` is its `unwrap` panic). */
  function SelectUnits(m: Units, filter: seq<Key>, skip: bool): Option<Units>
    requires !skip ==> Acyclic(DependencyGraph(m))
  {
    if filter == [] then Some(m)
    else
      assert !skip ==> NoCycleFrom(DependencyGraph(m), filter) by {
        if !skip {
          AcyclicNoCycleFrom(DependencyGraph(m), filter);
        }
      }
      GetFilteredUnits(m, filter, skip)
  }

  /** The selection is again a group-free map, and unless dependencies are
      skipped it is closed under them and acyclic. */
  lemma SelectionFacts(m: Units, filter: seq<Key>, skip: bool)
    requires DistinctKeys(m)
    requires !skip ==> Acyclic(DependencyGraph(m)) && (filter == [] ==> DepsClosed(DependencyGraph(m)))
    ensures var s := SelectUnits(m, filter, skip);
      s.Some? ==>
        && DistinctKeys(s.value)
        && (!skip ==> Acyclic(DependencyGraph(s.value)) && DepsClosed(DependencyGraph(s.value)))
  {
    var s := SelectUnits(m, filter, skip);
    if filter != [] && s.Some? {
      var u := s.value;
      if !skip {
        EntriesOfSubMap(u, m);
        SubMapAcyclic(DependencyGraph(u), DependencyGraph(m));
      }
    }
  }

  /** Skipping dependencies, the first pass runs every unit in map order and
      no second pass follows. */
  lemma SkipSinglePass(run: Runner, u: Units, skip: bool, once: bool)
    requires DistinctKeys(u)
    requires !skip ==> Acyclic(DependencyGraph(u)) && DepsClosed(DependencyGraph(u))
    ensures var r := UnitsLoop(run, 0, u, [], skip, once);
      skip && !once && r.outcome.Pass? ==> r.dispatched == Keys(u)
  {
    if skip && u != [] {
      assert u[0].0 !in [];
      var pass := UnitsPass(run, 0, u, 0, [], skip, once);
      if !once && pass.outcome.Pass? {
        assert Keys(u)[0..] == Keys(u);
        assert !HasPending(u, [] + pass.dispatched);
      }
    }
  }

  /** What the loop learns about `RunUnit`: a dry run lists releases and
      nothing else, and a unit fails only by an unreadable release list
      or a failed command (in a dry run, only the former). */
  lemma UnitRunFacts(env: Env, root: string, kubeconfig: Option<string>, dryRun: bool)
    ensures var run := UnitRun(env, root, kubeconfig, dryRun);
      && (dryRun ==> OnlyListings(run))
      && (forall o :: RaisedBy(run, o) && o.Fail? ==>
            && (o.error == ReleasesUnreadable || o.error.CommandFailed?)
            && (dryRun ==> o.error == ReleasesUnreadable))
  {
    var run := UnitRun(env, root, kubeconfig, dryRun);
    if dryRun {
      forall t: nat, x: Unit
        ensures ListingsOnly(run(t, x).spawned)
      {
        assert run(t, x) == RunUnit(env, t, root, x, kubeconfig, dryRun);
      }
    }
    forall o | RaisedBy(run, o) && o.Fail?
      ensures o.error == ReleasesUnreadable || o.error.CommandFailed?
      ensures dryRun ==> o.error == ReleasesUnreadable
    {
      var t: nat, x :| run(t, x).outcome == o;
      assert run(t, x) == RunUnit(env, t, root, x, kubeconfig, dryRun);
    }
  }

  /** The loop from nothing done over a selection: what `run_units` does
      once the units are chosen, and, with `once`, what it evidently means
      to do. */
  function RunSelected(run: Runner, u: Units, skip: bool, once: bool): (r: Step)
    requires DistinctKeys(u)
    requires !skip ==> Acyclic(DependencyGraph(u)) && DepsClosed(DependencyGraph(u))
    ensures forall k :: k in r.dispatched ==> HasKey(u, k)
    ensures r.outcome.Pass? ==> Elems(r.dispatched) == KeySet(u)
    ensures !skip ==> InOrder(u, [], r.dispatched)
    ensures once ==> Fresh([], r.dispatched)
    ensures skip && !once && r.outcome.Pass? ==> r.dispatched == Keys(u)
    ensures OnlyListings(run) ==> ListingsOnly(r.spawned)
    ensures r.outcome.Fail? ==> RaisedBy(run, r.outcome)
    ensures FailedLast(run, 0, u, r)
  {
    SkipSinglePass(run, u, skip, once);
    var r := UnitsLoop(run, 0, u, [], skip, once);
    assert [] + r.dispatched == r.dispatched;
    r
  }

  /** What the loop over a selection inherits from `RunUnit`: a dry run
      starts only `helm list` processes, and a failure is an unreadable
      release list or a failed command (in a dry run, only the former). */
  lemma SelectedRunFacts(env: Env, root: string, kubeconfig: Option<string>, dryRun: bool,
                         u: Units, skip: bool, once: bool)
    requires DistinctKeys(u)
    requires !skip ==> Acyclic(DependencyGraph(u)) && DepsClosed(DependencyGraph(u))
    ensures var r := RunSelected(UnitRun(env, root, kubeconfig, dryRun), u, skip, once);
      && (dryRun ==> ListingsOnly(r.spawned))
      && (dryRun ==> r.outcome.Pass? || r.outcome.error == ReleasesUnreadable)
      && (r.outcome.Fail? ==> r.outcome.error == ReleasesUnreadable || r.outcome.error.CommandFailed?)
  {
    UnitRunFacts(env, root, kubeconfig, dryRun);
  }

  /** `run_units` as written. The run never starts a unit outside the
      selection; when it succeeds every selected unit ran. Unless
      dependencies are skipped, every unit runs after its dependencies;
      skipping them, the units run once each, in map order. The first unit
      that fails ends the run. A dry run starts only `helm list` processes. */
  function RunUnits(env: Env, root: string, m: Units, filter: seq<Key>, skip: bool,
                    kubeconfig: Option<string>, dryRun: bool): (r: Step)
    requires NoGroups(m) && DistinctKeys(m)
    requires !skip ==> Acyclic(DependencyGraph(m)) && (filter == [] ==> DepsClosed(DependencyGraph(m)))
    ensures SelectUnits(m, filter, skip).None? ==> r == Step([], [], Fail(UnknownUnit))
    ensures SelectUnits(m, filter, skip).Some? ==>
      var u := SelectUnits(m, filter, skip).value;
      && (forall k :: k in r.dispatched ==> HasKey(u, k))
      && (r.outcome.Pass? ==> Elems(r.dispatched) == KeySet(u))
      && (!skip ==> InOrder(u, [], r.dispatched))
      && (skip && r.outcome.Pass? ==> r.dispatched == Keys(u))
      && FailedLast(UnitRun(env, root, kubeconfig, dryRun), 0, u, r)
    ensures dryRun ==> ListingsOnly(r.spawned)
    ensures dryRun ==> r.outcome.Pass? || r.outcome.error == UnknownUnit || r.outcome.error == ReleasesUnreadable
    ensures r.outcome.Fail? ==> r.outcome.error == UnknownUnit || r.outcome.error == ReleasesUnreadable || r.outcome.error.CommandFailed?
  {
    SelectionFacts(m, filter, skip);
    match SelectUnits(m, filter, skip)
    case None => Step([], [], Fail(UnknownUnit))
    case Some(u) =>
      SelectedRunFacts(env, root, kubeconfig, dryRun, u, skip, false);
      RunSelected(UnitRun(env, root, kubeconfig, dryRun), u, skip, false)
  }

  lemma {:induction false} FreshDistinct(done: seq<Key>, ds: seq<Key>)
    requires Fresh(done, ds)
    ensures Distinct(ds)
  {
    forall i, j | 0 <= i < j < |ds|
      ensures ds[i] != ds[j]
    {
      assert ds[i] in done + ds[..j];
    }
  }

  /** `run_units` with the evident intent that each unit runs once: a pass
      skips the keys already done. A run that succeeds runs every selected
      unit exactly once, each after its dependencies; the first unit that
      fails ends it. */
  function RunUnitsOnce(env: Env, root: string, m: Units, filter: seq<Key>, skip: bool,
                        kubeconfig: Option<string>, dryRun: bool): (r: Step)
    requires NoGroups(m) && DistinctKeys(m)
    requires !skip ==> Acyclic(DependencyGraph(m)) && (filter == [] ==> DepsClosed(DependencyGraph(m)))
    ensures SelectUnits(m, filter, skip).None? ==> r == Step([], [], Fail(UnknownUnit))
    ensures SelectUnits(m, filter, skip).Some? ==>
      var u := SelectUnits(m, filter, skip).value;
      && (forall k :: k in r.dispatched ==> HasKey(u, k))
      && Distinct(r.dispatched)
      && (r.outcome.Pass? ==> Elems(r.dispatched) == KeySet(u) && |r.dispatched| == |u|)
      && (!skip ==> InOrder(u, [], r.dispatched))
      && FailedLast(UnitRun(env, root, kubeconfig, dryRun), 0, u, r)
    ensures dryRun ==> ListingsOnly(r.spawned)
    ensures dryRun ==> r.outcome.Pass? || r.outcome.error == UnknownUnit || r.outcome.error == ReleasesUnreadable
    ensures r.outcome.Fail? ==> r.outcome.error == UnknownUnit || r.outcome.error == ReleasesUnreadable || r.outcome.error.CommandFailed?
  {
    SelectionFacts(m, filter, skip);
    match SelectUnits(m, filter, skip)
    case None => Step([], [], Fail(UnknownUnit))
    case Some(u) =>
      SelectedRunFacts(env, root, kubeconfig, dryRun, u, skip, true);
      var r := RunSelected(UnitRun(env, root, kubeconfig, dryRun), u, skip, true);
      FreshDistinct([], r.dispatched);
      if r.outcome.Pass? then
        DistinctCard(r.dispatched);
        DistinctCard(Keys(u));
        r
      else r
  }
}

=== FILE: unit_runner_examples.dfy ===
/** `run_units` on the map `{b: [a], a, c: [b]}` of the source's tests, all
    `Noop` units. As written, the second pass runs `a` again; the corrected
    loop runs each unit once. */
module UnitRunnerExamples {
  import opened Base
  import opened IndexMap
  import opened Graph
  import opened Errors
  import opened Process
  import opened Format
  import opened Scheduler
  import opened UnitRunner
  import opened SchedulerExamples

  /** A runner that, like `RunUnit`, starts nothing for a `Noop`. */
  ghost predicate NoopQuiet(run: Runner) {
    forall t: nat, x: Unit :: x.Noop? ==> run(t, x) == Run([], Pass)
  }

  lemma UnitRunNoopQuiet(env: Env, root: string, kubeconfig: Option<string>, dryRun: bool)
    ensures NoopQuiet(UnitRun(env, root, kubeconfig, dryRun))
  {
  }

  lemma LastPassEmpty(run: Runner, done: seq<Key>, skip: bool, once: bool)
    requires DistinctKeys(Unsorted())
    ensures UnitsPass(run, 0, Unsorted(), 3, done, skip, once) == Step([], [], Pass)
  {
  }

  /** First pass: `b` waits for `a`, `a` runs, `c` waits for `b`. */
  lemma FirstUnitsPass(run: Runner, once: bool)
    requires NoopQuiet(run) && DistinctKeys(Unsorted())
    ensures UnitsPass(run, 0, Unsorted(), 0, [], false, once) == Step(["a"], [], Pass)
  {
    EntryFacts();
    var u := Unsorted();
    assert run(0, A.unit) == Run([], Pass);
    assert "a" in DependsOn(B) && "a" !in [];
    assert "b" in DependsOn(C) && "b" !in ["a"];
    assert [] + ["a"] == ["a"];
    LastPassEmpty(run, ["a"], false, once);
    assert UnitsPass(run, 0, u, 2, ["a"], false, once) == Step([], [], Pass);
    assert UnitsPass(run, 0, u, 1, [], false, once) == Step(["a"] + [], [] + [], Pass);
  }

  /** Second pass as written: `b`, then `a` again, then `c`. */
  lemma SecondUnitsPass(run: Runner)
    requires NoopQuiet(run) && DistinctKeys(Unsorted())
    ensures UnitsPass(run, 0, Unsorted(), 0, ["a"], false, false) == Step(["b", "a", "c"], [], Pass)
  {
    EntryFacts();
    var u := Unsorted();
    assert run(0, A.unit) == Run([], Pass);
    assert run(0, B.unit) == Run([], Pass);
    assert run(0, C.unit) == Run([], Pass);
    LastPassEmpty(run, ["a", "b", "a", "c"], false, false);
    assert ReadyIn(C, ["a", "b", "a"]);
    assert UnitsPass(run, 0, u, 2, ["a", "b", "a"], false, false) == Step(["c"], [], Pass);
    assert ReadyIn(A, ["a", "b"]);
    assert UnitsPass(run, 0, u, 1, ["a", "b"], false, false) == Step(["a", "c"], [], Pass);
    assert ReadyIn(B, ["a"]);
  }

  /** Second pass of the corrected loop: `b`, then `c`; `a` is skipped. */
  lemma SecondUnitsPassOnce(run: Runner)
    requires NoopQuiet(run) && DistinctKeys(Unsorted())
    ensures UnitsPass(run, 0, Unsorted(), 0, ["a"], false, true) == Step(["b", "c"], [], Pass)
  {
    EntryFacts();
    var u := Unsorted();
    assert run(0, B.unit) == Run([], Pass);
    assert run(0, C.unit) == Run([], Pass);
    LastPassEmpty(run, ["a", "b", "c"], false, true);
    assert ReadyIn(C, ["a", "b"]);
    assert UnitsPass(run, 0, u, 2, ["a", "b"], false, true) == Step(["c"], [], Pass);
    assert UnitsPass(run, 0, u, 1, ["a", "b"], false, true) == Step(["c"], [], Pass);
    assert ReadyIn(B, ["a"]);
  }

  /** The loop after both passes: nothing is pending. */
  lemma LoopDone(run: Runner, done: seq<Key>, once: bool)
    requires DistinctKeys(Unsorted())
    requires DepsClosed(DependencyGraph(Unsorted())) && Acyclic(DependencyGraph(Unsorted()))
    requires Elems(done) == KeySet(Unsorted())
    ensures UnitsLoop(run, 0, Unsorted(), done, false, once) == Step([], [], Pass)
  {
    assert !HasPending(Unsorted(), done);
  }

  /** One turn of the `while` loop when the pass starts no process and
      does not fail. */
  lemma LoopTurn(run: Runner, u: Units, done: seq<Key>, once: bool)
    requires DistinctKeys(u) && DepsClosed(DependencyGraph(u)) && Acyclic(DependencyGraph(u))
    requires Elems(done) <= KeySet(u) && HasPending(u, done)
    requires UnitsPass(run, 0, u, 0, done, false, once).outcome.Pass?
    requires UnitsPass(run, 0, u, 0, done, false, once).spawned == []
    ensures var pass := UnitsPass(run, 0, u, 0, done, false, once);
      && Elems(done + pass.dispatched) <= KeySet(u)
      && var rest := UnitsLoop(run, 0, u, done + pass.dispatched, false, once);
         UnitsLoop(run, 0, u, done, false, once) == Step(pass.dispatched + rest.dispatched, rest.spawned, rest.outcome)
  {
    var pass := UnitsPass(run, 0, u, 0, done, false, once);
    LoopProgress(run, 0, u, done, false, once);
    var rest := UnitsLoop(run, 0, u, done + pass.dispatched, false, once);
    assert UnitsLoop(run, 0, u, done, false, once)
        == Step(pass.dispatched + rest.dispatched, pass.spawned + rest.spawned, rest.outcome);
    NothingBefore(pass.spawned, rest.spawned);
  }

  lemma NothingBefore(a: seq<Command>, b: seq<Command>)
    requires a == []
    ensures a + b == b
  {
  }

  lemma Concat(tail: seq<Key>, all: seq<Key>)
    requires |all| > 0 && all[0] == "a" && all[1..] == tail
    ensures ["a"] + tail == all && ["a"] + tail + [] == all && [] + ["a"] == ["a"]
  {
  }

  /** The keys of the map, and which runs leave some of them pending. */
  lemma UnsortedKeys()
    ensures KeySet(Unsorted()) == {"a", "b", "c"}
    ensures HasPending(Unsorted(), []) && HasPending(Unsorted(), ["a"])
    ensures Elems(["a"]) <= KeySet(Unsorted())
    ensures Elems(["a", "b", "a", "c"]) == KeySet(Unsorted()) && Elems(["a", "b", "c"]) == KeySet(Unsorted())
  {
    EntryFacts();
    assert Keys(Unsorted()) == ["b", "a", "c"];
    assert Unsorted()[0].0 !in ["a"];
  }

  /** The loop once `a` has run, as written: `b`, `a` again and `c`. */
  lemma RerunAfterFirst(run: Runner)
    requires NoopQuiet(run) && DistinctKeys(Unsorted())
    requires DepsClosed(DependencyGraph(Unsorted())) && Acyclic(DependencyGraph(Unsorted()))
    ensures Elems(["a"]) <= KeySet(Unsorted())
    ensures UnitsLoop(run, 0, Unsorted(), ["a"], false, false) == Step(["b", "a", "c"], [], Pass)
  {
    var u := Unsorted();
    UnsortedKeys();
    SecondUnitsPass(run);
    LoopTurn(run, u, ["a"], false);
    Concat(["b", "a", "c"], ["a", "b", "a", "c"]);
    LoopDone(run, ["a", "b", "a", "c"], false);
  }

  /** The corrected loop once `a` has run: `b` and `c`. */
  lemma OnceAfterFirst(run: Runner)
    requires NoopQuiet(run) && DistinctKeys(Unsorted())
    requires DepsClosed(DependencyGraph(Unsorted())) && Acyclic(DependencyGraph(Unsorted()))
    ensures Elems(["a"]) <= KeySet(Unsorted())
    ensures UnitsLoop(run, 0, Unsorted(), ["a"], false, true) == Step(["b", "c"], [], Pass)
  {
    var u := Unsorted();
    UnsortedKeys();
    SecondUnitsPassOnce(run);
    LoopTurn(run, u, ["a"], true);
    Concat(["b", "c"], ["a", "b", "c"]);
    LoopDone(run, ["a", "b", "c"], true);
  }

  /** The whole loop as written: `a`, then `b`, `a` again and `c`. */
  lemma RerunLoop(run: Runner)
    requires NoopQuiet(run) && DistinctKeys(Unsorted())
    requires DepsClosed(DependencyGraph(Unsorted())) && Acyclic(DependencyGraph(Unsorted()))
    ensures UnitsLoop(run, 0, Unsorted(), [], false, false) == Step(["a", "b", "a", "c"], [], Pass)
  {
    var u := Unsorted();
    UnsortedKeys();
    FirstUnitsPass(run, false);
    LoopTurn(run, u, [], false);
    RerunAfterFirst(run);
    Concat(["b", "a", "c"], ["a", "b", "a", "c"]);
  }

  /** The corrected loop: `a`, then `b` and `c`. */
  lemma OnceLoop(run: Runner)
    requires NoopQuiet(run) && DistinctKeys(Unsorted())
    requires DepsClosed(DependencyGraph(Unsorted())) && Acyclic(DependencyGraph(Unsorted()))
    ensures UnitsLoop(run, 0, Unsorted(), [], false, true) == Step(["a", "b", "c"], [], Pass)
  {
    var u := Unsorted();
    UnsortedKeys();
    FirstUnitsPass(run, true);
    LoopTurn(run, u, [], true);
    OnceAfterFirst(run);
    Concat(["b", "c"], ["a", "b", "c"]);
  }

  /** Without a filter both loops start from nothing done over the whole
      map. */
  lemma RunUnitsUnfiltered(env: Env, root: string, m: Units, kubeconfig: Option<string>, dryRun: bool)
    requires NoGroups(m) && DistinctKeys(m)
    requires Acyclic(DependencyGraph(m)) && DepsClosed(DependencyGraph(m))
    ensures RunUnits(env, root, m, [], false, kubeconfig, dryRun)
         == UnitsLoop(UnitRun(env, root, kubeconfig, dryRun), 0, m, [], false, false)
  {
  }

  lemma RunUnitsOnceUnfiltered(env: Env, root: string, m: Units, kubeconfig: Option<string>, dryRun: bool)
    requires NoGroups(m) && DistinctKeys(m)
    requires Acyclic(DependencyGraph(m)) && DepsClosed(DependencyGraph(m))
    ensures RunUnitsOnce(env, root, m, [], false, kubeconfig, dryRun)
         == UnitsLoop(UnitRun(env, root, kubeconfig, dryRun), 0, m, [], false, true)
  {
  }

  /** `run_units` without a filter on `{b: [a], a, c: [b]}` runs `a` twice. */
  lemma RunUnitsRunsTwice(env: Env, root: string, kubeconfig: Option<string>, dryRun: bool)
    ensures NoGroups(Unsorted()) && DistinctKeys(Unsorted())
    ensures DepsClosed(DependencyGraph(Unsorted())) && Acyclic(DependencyGraph(Unsorted()))
    ensures RunUnits(env, root, Unsorted(), [], false, kubeconfig, dryRun) == Step(["a", "b", "a", "c"], [], Pass)
  {
    UnsortedWellFormed();
    assert NoGroups(Unsorted()) by {
      EntryFacts();
    }
    RunUnitsUnfiltered(env, root, Unsorted(), kubeconfig, dryRun);
    UnitRunNoopQuiet(env, root, kubeconfig, dryRun);
    RerunLoop(UnitRun(env, root, kubeconfig, dryRun));
  }

  /** The corrected loop on the same map runs each unit once, `a` before
      `b` before `c`. */
  lemma RunUnitsOnceExample(env: Env, root: string, kubeconfig: Option<string>, dryRun: bool)
    ensures NoGroups(Unsorted()) && DistinctKeys(Unsorted())
    ensures DepsClosed(DependencyGraph(Unsorted())) && Acyclic(DependencyGraph(Unsorted()))
    ensures RunUnitsOnce(env, root, Unsorted(), [], false, kubeconfig, dryRun) == Step(["a", "b", "c"], [], Pass)
  {
    UnsortedWellFormed();
    assert NoGroups(Unsorted()) by {
      EntryFacts();
    }
    RunUnitsOnceUnfiltered(env, root, Unsorted(), kubeconfig, dryRun);
    UnitRunNoopQuiet(env, root, kubeconfig, dryRun);
    OnceLoop(UnitRun(env, root, kubeconfig, dryRun));
  }
}

=== FILE: validate.dfy ===
/** The dangling-dependency check shared by both revisions of
    `check_invalid_unit_keys`, stated over one scope's dependency map. */
module Validate {
  import opened Base
  import opened IndexMap
  import opened Graph

  /** The `depends_on` lists flattened in key order (`.flatten()`). */
  function AllDependencies(g: DependencyMap): (r: seq<Key>)
    ensures forall d :: d in r <==> exists i :: 0 <= i < |g| && d in g[i].1
  {
    if g == [] then []
    else
      var rest := AllDependencies(g[1..]);
      assert forall i :: 1 <= i < |g| ==> g[i] == g[1..][i - 1];
      g[0].1 + rest
  }

  /** The entries of `ds` that are not in `keys`, in order, duplicates kept
      (the `.filter(|item| !unit_keys.contains(item))` step). */
  function Dangling(ds: seq<Key>, keys: seq<Key>): (r: seq<Key>)
    ensures forall d :: d in r <==> d in ds && d !in keys
    ensures |r| <= |ds|
  {
    if ds == [] then []
    else (if ds[0] in keys then [] else [ds[0]]) + Dangling(ds[1..], keys)
  }

  /** `d` is named in some `depends_on` list but is not a key of the scope. */
  ghost predicate InvalidKey(g: DependencyMap, d: Key) {
    && (exists i :: 0 <= i < |g| && d in g[i].1)
    && !HasKey(g, d)
  }

  lemma ClosedIffNoDangling(g: DependencyMap)
    ensures DepsClosed(g) <==> Elems(Dangling(AllDependencies(g), Keys(g))) == {}
  {
    var invalid := Elems(Dangling(AllDependencies(g), Keys(g)));
    if !DepsClosed(g) {
      var i, d :| 0 <= i < |g| && d in g[i].1 && !HasKey(g, d);
      assert d in invalid;
    }
  }

  /** `check_invalid_unit_keys` on the scope's dependency map: it fails
      exactly when some dependency is not a key of the same scope, and then
      reports the set of all such keys, each once. */
  function CheckInvalidKeys(g: DependencyMap): (r: Outcome<set<Key>>)
    ensures r.Pass? <==> DepsClosed(g)
    ensures r.Fail? ==> r.error != {} && forall d :: d in r.error <==> InvalidKey(g, d)
  {
    var invalid := Elems(Dangling(AllDependencies(g), Keys(g)));
    ClosedIffNoDangling(g);
    if |invalid| > 0 then
      Fail(invalid)
    else
      Pass
  }
}
